=== FILE: README.md ===
# HCS-U7 dashboard: a verified model of its core logic

This project models the server and client logic of the HCS-U7 tenant dashboard, a Next.js application. Tenants sign in with an e-mail address, a password and an HCS-U7 code. They manage API keys, look at their usage and change their credentials. A billing provider's webhook drives their subscription state.

The centre of the model is the in-process fixed-window rate limiter (`rate_limit_memory.dfy`). It is a class holding a map from identifier to `{count, resetAt}`. Its `Limit` method is proved against the function `LimitOutcome`, and the lemmas about that function state:
- what a call does in each case;
- that expiry is strict;
- that exactly `maxAttempts` calls succeed per window;
- that other identifiers are never touched.

Around the limiter sit:
- `rate_limit.dfy`: the backend choice, the fail-open path, client-IP extraction, and the HTTP 429 response (section 4 of RFC 6585) with `Retry-After` in delta-seconds (section 10.2.3 of RFC 9110).
- `validation.dfy`: the three input schemas.
- `auth.dfy`: the sign-in decision chain and the JWT and session callbacks.
- `settings.dfy`: the password and HCS-code change actions.
- `audit.dfy`: request metadata, the stored audit record and the audit-log filter.
- `api.dfy`: the usage series, API-key generation, masking, listing and rotation, the usage-log query builder and keyset pagination, row defaults and the COALESCE profile update.
- `stripe_webhook.dfy`: billing events as changes of one tenant row plus one appended billing event.
- `usage_client.dfy`: client-side filtering, paging, the success rate and CSV export.
- `overview.dfy`: `formatPercent`, bar scaling and status colours.
- `db.dfy`: the connection-string sanitiser.
- `utils.dfy`: `cn`.

Three modules support the others:
- `store.dfy` holds the tables the operations update, as a `Database` object.
- `text.dfy` holds the string operations the source takes from JavaScript: `split`, `join`, `trim`, `toUpperCase` and number rendering.
- `wrappers.dfy` holds `Option`, `Result` and JavaScript truthiness.

Clocks, hashing, random key parts, e-mail validation, ISO date rendering and `toFixed` are parameters of the operations that use them.

## Model

| member | source | states |
|---|---|---|
| RateLimitMemory.LimitOutcome | src/lib/rate-limit-memory.ts:19-65 | One `limit` call changes only its own identifier's entry. The reported `reset` is that entry's stored window end and `limit` is `maxAttempts`. Stored counts stay within `1..maxAttempts`, so `remaining` lies in `0..maxAttempts-1`. |
| RateLimitMemory.MemoryRateLimiter.constructor | src/lib/rate-limit-memory.ts:11-17 | A new limiter starts with an empty map and the given cap and window. |
| RateLimitMemory.MemoryRateLimiter.Limit | src/lib/rate-limit-memory.ts:19-65 | The new map and the result are exactly `LimitOutcome` of the old map. The count invariant is kept. |
| RateLimitMemory.OpensWindowWithoutLiveRecord | src/lib/rate-limit-memory.ts:24-43 | With no live record (absent or strictly expired), the call stores `{1, now+windowMs}` and succeeds with `max-1` remaining. |
| RateLimitMemory.ExpiryIsStrict | src/lib/rate-limit-memory.ts:24-26 | At `now == resetAt` the record is still live, keeps its window end, and is still denied at the cap. |
| RateLimitMemory.DeniesAtCap | src/lib/rate-limit-memory.ts:45-53 | A live record at the cap is denied with 0 remaining and the stored `reset`. The map is left unchanged. |
| RateLimitMemory.CountsUnderCap | src/lib/rate-limit-memory.ts:55-64 | A live record under the cap gains one count, keeps `resetAt`, and reports `max - newCount` remaining. |
| RateLimitMemory.RunCalls | src/lib/rate-limit-memory.ts:19-65 | Successive calls for one identifier give one result per call, in order. |
| RateLimitMemory.RunInsideWindow | src/lib/rate-limit-memory.ts:45-64 | Inside a live window the count climbs to the cap and stays there. Call k succeeds iff `count+k < max`, and every call reports the same reset. |
| RateLimitMemory.ExactlyMaxAttemptsPerWindow | src/lib/rate-limit-memory.ts:30-64 | In one window exactly `maxAttempts` calls succeed, with remaining going `max-1 … 0`. Every later call is denied, and all calls share `reset = t0 + windowMs`. |
| RateLimitMemory.RunCallsAppend | src/lib/rate-limit-memory.ts:19-65 | Two batches of calls run one after the other are the same as their concatenation. |
| RateLimitMemory.LoginScenario | src/lib/rate-limit-memory.ts:19-71 | For the login limiter, five calls succeed and the sixth is denied. A call more than 15 minutes after the first opens a new window with 4 remaining. |
| RateLimitMemory.RunLeavesOtherIdentifiers | src/lib/rate-limit-memory.ts:21-57 | Calls for one identifier neither add, change nor remove another identifier's entry. |
| RateLimitMemory.MemoryRateLimiters.constructor | src/lib/rate-limit-memory.ts:69-74 | There are four limiters: 1000 per hour, 5 per 15 minutes, 3 per hour and 5 per day, all starting empty. |
| RateLimitMemory.MemoryRateLimiters.ForIsInRepr | src/lib/rate-limit-memory.ts:69-74 | Each purpose has its own limiter object, distinct from every other purpose's. |
| RateLimit.SelectBackend | src/lib/rate-limit.ts:12-21 | The in-memory limiters are chosen iff the REST URL or the token is missing or empty. |
| RateLimit.CheckRateLimit | src/lib/rate-limit.ts:63-100 | With no limiter it fails open (`true, 999999, 999999, now+3600000`). Otherwise it returns exactly the purpose limiter's answer, and other purposes are untouched. |
| RateLimit.FailOpen | src/lib/rate-limit.ts:72-89 | The fail-open answer, as stated by RateLimit.CheckRateLimit. |
| RateLimit.ClientIpPrecedence | src/lib/rate-limit.ts:105-122 | The order is x-forwarded-for's first element trimmed, then x-real-ip, then cf-connecting-ip, then "unknown". An empty header is skipped. |
| RateLimit.ClientIpEmptyIffBlankFirstForward | src/lib/rate-limit.ts:111-113 | The address is "" iff x-forwarded-for is non-empty but its first element is blank. |
| RateLimit.GetClientIp | src/lib/rate-limit.ts:105-122 | The header precedence, as stated by RateLimit.ClientIpPrecedence and RateLimit.ClientIpEmptyIffBlankFirstForward. |
| RateLimit.BlankFirstForwardGivesEmpty | src/lib/rate-limit.ts:111-113 | `" ,1.2.3.4"` yields "", not the second address and not x-real-ip. |
| RateLimit.RequestIdentifier | src/lib/rate-limit.ts:132 | A non-empty explicit identifier is used; otherwise the client IP is. |
| RateLimit.CeilSeconds | src/lib/rate-limit.ts:139 | The result is the fewest whole seconds covering the milliseconds: `(s-1)*1000 < ms <= s*1000`. |
| RateLimit.TooManyRequests | src/lib/rate-limit.ts:135-152 | The response has status 429 and exactly the five headers. Limit and remaining are in decimal, reset is rendered as ISO, and Retry-After is the ceiling of the seconds to reset. |
| RateLimit.DenialRetryAfterIsDeltaSeconds | src/lib/rate-limit.ts:139-148 | For an in-process denial, Retry-After is plain non-negative digits and no longer than the window. |
| RateLimit.RateLimitMiddleware | src/lib/rate-limit.ts:127-155 | Returns no response iff the limiter allowed the request, otherwise the 429 response. The limiter is asked for the explicit identifier or the client IP. |
| Validation.Check | src/lib/validation.ts:3-43 | One rule yields no issue iff it holds, and otherwise issues carrying its path and message. |
| Validation.HcsCodeIssues | src/lib/validation.ts:6-8 | An HCS field has no issue iff it has at least 50 characters and starts with `HCS-U7\|`. |
| Validation.LoginAcceptedIff | src/lib/validation.ts:3-9 | Login input is accepted iff the e-mail is valid, the password has at least 8 characters and the code is an HCS-U7 code. |
| Validation.LoginIssues | src/lib/validation.ts:3-9 | The login schema's issues, in field order. Validation.LoginAcceptedIff states when there are none. |
| Validation.LineEnd | src/lib/validation.ts:18 | Gives the end of the first line, which is where a regular expression's `.` stops. |
| Validation.LookaheadFindsIff | src/lib/validation.ts:18 | A `(?=.*X)` lookahead succeeds iff the first line holds a character of class X. |
| Validation.StrongPasswordSuffixUnrestricted | src/lib/validation.ts:18 | The pattern has no end anchor, so appending anything to a matching password keeps it matching. |
| Validation.LookaheadFindsExtends | src/lib/validation.ts:18 | A lookahead that succeeds on p also succeeds on p+t. |
| Validation.ClassesAfterLineBreakIgnored | src/lib/validation.ts:18 | Upper case, digit and special characters after a newline do not count. |
| Validation.MatchesStrongPassword | src/lib/validation.ts:18 | The strength pattern. Validation.LookaheadFindsIff, StrongPasswordSuffixUnrestricted and ClassesAfterLineBreakIgnored state what it accepts. |
| Validation.ChangePasswordAcceptedIff | src/lib/validation.ts:13-25 | Both directions: both passwords have at least 8 characters; the new one starts with an allowed character; its first line has lower case, upper case, a digit and a special character; and the confirmation equals it. |
| Validation.ChangePasswordIssues | src/lib/validation.ts:13-25 | The password-change schema's issues, fields first and then the refinement. Validation.ChangePasswordAcceptedIff states when there are none. |
| Validation.PasswordReuseAccepted | src/lib/validation.ts:13-25 | A new password equal to the current one is accepted: `Abcdef1!` as current, new and confirmation gives no issue. |
| Validation.ChangeHcsCodeAcceptedIff | src/lib/validation.ts:29-43 | Accepted iff both codes are HCS-U7 codes, the confirmation equals the new code, and the new code differs from the current one. |
| Validation.HcsRefinementsFollowFieldIssues | src/lib/validation.ts:29-43 | The refinements run after failed field checks, and the field issue is reported first. |
| Validation.ChangeHcsCodeIssues | src/lib/validation.ts:29-43 | The code-change schema's issues, fields first and then both refinements. Validation.ChangeHcsCodeAcceptedIff and HcsRefinementsFollowFieldIssues state them. |
| Auth.DisplayNamePrecedence | src/lib/auth.ts:77 | The name is fullName, else company, else the e-mail, taking the first non-empty one. |
| Auth.DisplayName | src/lib/auth.ts:77 | `fullName || company || email`, as stated by Auth.DisplayNamePrecedence. |
| Auth.InvalidCredentialsRefusedWithoutLookup | src/lib/auth.ts:23-38 | Missing or invalid credentials give null, with no lookup and no hash comparison. |
| Auth.BlockedTenantRefusedBeforeHashing | src/lib/auth.ts:54-57 | SUSPENDED, CANCELLED and CHURNED tenants are refused before any hash comparison. |
| Auth.AuthorizeSucceedsIff | src/lib/auth.ts:20-86 | Sign-in succeeds iff the credentials are valid, the tenant is found and not blocked, and both hashes match. The user returned is that tenant, and errors give null. |
| Auth.Authorize | src/lib/auth.ts:20-86 | The `authorize` chain as a trace of its steps. Auth.AuthorizeSucceedsIff, InvalidCredentialsRefusedWithoutLookup, BlockedTenantRefusedBeforeHashing and PasswordCheckedFirst state it. |
| Auth.PasswordCheckedFirst | src/lib/auth.ts:60-71 | The password is compared first. The code is compared only after the password matched. |
| Auth.Token.constructor | src/lib/auth.ts:90-98 | A fresh token carries no claims. |
| Auth.Token.Jwt | src/lib/auth.ts:90-98 | The claims are copied from the user when one is present. Otherwise the token is left as it was. |
| Auth.SessionUser.constructor | src/lib/auth.ts:99-107 | A fresh session user carries no fields. |
| Auth.Session.constructor | src/lib/auth.ts:99-107 | A session is created holding the given user. |
| Auth.SessionCallback | src/lib/auth.ts:99-107 | The token's claims are copied onto the session user, and the token is unchanged. |
| Auth.SignIn | src/lib/auth.ts:20-107 | There is a session iff `authorize` accepts. Its user id is then the found tenant's id. |
| Settings.PasswordChangeOutcomeCases | src/app/dashboard/settings/page.tsx:35-92 | The change completes iff the tenant is signed in, the schema passes, the row exists and the current password matches. Otherwise the first issue, "Tenant not found" or "Current password is incorrect" is reported, in that order. A schema failure reads no tenant. |
| Settings.ShortCurrentPasswordReportedFirst | src/app/dashboard/settings/page.tsx:45-53 | A too-short current password is always the first message. |
| Settings.CheckOrder | src/app/dashboard/settings/page.tsx:35-70 | The order of checks shared by both actions: session, schema, row, secret. Settings.PasswordChangeOutcomeCases and HcsCodeChangeOutcomeCases state it. |
| Settings.ChangePasswordAction | src/app/dashboard/settings/page.tsx:35-92 | On success only passwordHash, mustChangePassword (set to false) and updatedAt change, and then the audit entry is appended. On failure nothing is written. |
| Settings.HcsCodeChangeOutcomeCases | src/app/dashboard/settings/page.tsx:94-150 | The same order of checks. A wrong current code gives "Current HCS-U7 code is incorrect". |
| Settings.HcsCodeChangeKeepsPassword | src/app/dashboard/settings/page.tsx:134-140 | A code change leaves passwordHash and mustChangePassword as they were. Only hcsCodeHash and updatedAt differ. |
| Settings.ChangeHcsCodeAction | src/app/dashboard/settings/page.tsx:94-150 | On success only the code hash and updatedAt change, then the audit entry is appended. On failure nothing is written. |
| Audit.HeaderOr | src/lib/audit.ts:100-108 | A present, non-empty header is used; otherwise the fallback is. |
| Audit.RequestIpPrecedence | src/lib/audit.ts:100-105 | The order is cf-connecting-ip, then the first forwarded address, then x-real-ip, then x-client-ip, then "unknown". Empty values fall through. |
| Audit.RequestMetadataNeverEmpty | src/lib/audit.ts:93-111 | The IP address and the user agent are never empty. |
| Audit.GetRequestMetadata | src/lib/audit.ts:93-111 | The request metadata, as stated by Audit.RequestIpPrecedence and Audit.RequestMetadataNeverEmpty. |
| Audit.ExtractorsDisagree | src/lib/audit.ts:100-105 | With cf-connecting-ip set to a non-empty value and x-forwarded-for to a single plain address, the audit trail records the cf-connecting-ip value and the rate limiter the forwarded address. |
| Audit.PlainForwardedAddress | src/lib/rate-limit.ts:111-113 | A single forwarded address with no comma and no surrounding whitespace is taken as it is. |
| Audit.BuildAuditRecord | src/lib/audit.ts:70-82 | The record is the tenant's id and action with defaults: entityType "Tenant", entityId the tenant id, changes {}, and ip and user agent "unknown". |
| Audit.AuditRecordDefaults | src/lib/audit.ts:61-82 | With no optional field, the e-mail is the stored tenant's, or "unknown" when the tenant is missing. |
| Audit.AuditEmail | src/lib/audit.ts:61-68 | The supplied e-mail, else the tenant's, else "unknown", as stated by Audit.AuditRecordDefaults and Audit.SuppliedEmailNeedsNoLookup. |
| Audit.SuppliedEmailNeedsNoLookup | src/lib/audit.ts:61-68 | A supplied e-mail makes the record independent of the tenant table. |
| Audit.ResultAndMetadataNotStored | src/lib/audit.ts:70-81 | `result` and `metadata` do not affect the stored record. |
| Audit.CreateAuditLog | src/lib/audit.ts:58-88 | Appends the record and returns it. On failure it writes nothing and returns null, and it never throws. |
| Audit.PasswordChangedEntry | src/lib/audit.ts:151-161 | The entry names the tenant and PASSWORD_CHANGED, with no e-mail supplied. |
| Audit.HcsCodeChangedEntry | src/lib/audit.ts:166-176 | The entry names the tenant and HCS_CODE_CHANGED, with no e-mail supplied. |
| Audit.NumberOr | src/lib/audit.ts:281-282 | `n \|\| fallback`: the number unless it is absent or 0. |
| Audit.AuditLogQuerySelects | src/lib/audit.ts:255-286 | The filter selects exactly the tenant's records, of the given action when one is given, inside the date range only when both ends are given. take is 50 and skip is 0 by default. |
| Audit.TenantAuditLogQuery | src/lib/audit.ts:255-286 | The audit-log query with its defaults, as stated by Audit.AuditLogQuerySelects. |
| Api.DayIndexIsLastRow | src/lib/api.ts:116-118 | A day is indexed iff some row has it, and it maps to the last such row. |
| Api.PointFor | src/lib/api.ts:124-129 | A day with a row shows that row's figures; a day without one shows zeros. |
| Api.FormatUsageData | src/lib/api.ts:114-132 | Returns exactly `days` points, oldest first and ending today, each the indexed row or zeros. |
| Api.DayWithoutRowIsZero | src/lib/api.ts:124-129 | A day that no row mentions gives 0 requests and 0 cost. |
| Api.DayShowsLastRow | src/lib/api.ts:116-129 | A day shows the last row for it. |
| Api.UsageSeriesConsecutive | src/lib/api.ts:114-132 | The series runs over consecutive days from `today-(days-1)` to today. |
| Api.LastFour | src/lib/api.ts:256 | Gives the last four characters, or the whole of a shorter string. |
| Api.GenerateApiKey | src/lib/api.ts:251-259 | The prefix is `hcs_sk_test` or `hcs_sk_live`. The full key is prefix, `_`, then the random part, and it ends with lastFour. |
| Api.MaskedKeyShape | src/lib/api.ts:233 | The masked key is the prefix, `_****`, then the last four characters. |
| Api.MaskedKey | src/lib/api.ts:233 | The masked form of a stored key, as stated by Api.MaskedKeyShape and Api.MaskedKeyRevealsOnlyEnds. |
| Api.MaskedKeyRevealsOnlyEnds | src/lib/api.ts:233-258 | The masked and full keys agree on the prefix and the last four characters, and the masked key hides the rest. |
| Api.KeyView | src/lib/api.ts:225-234 | A listed key carries its masked form. |
| Api.FirstTestKey | src/lib/api.ts:237 | Gives the first key that is DEVELOPMENT or has "test" in its prefix, else none. |
| Api.FirstLiveKey | src/lib/api.ts:238 | Gives the first key that is PRODUCTION or has "live" in its prefix, else none. |
| Api.GetApiKeys | src/lib/api.ts:213-248 | Lists every key masked, in order. testKey is the first test key's mask, else null. liveKeyMasked is the first live key's mask, else the placeholder. |
| Text.ContainsIff | src/lib/api.ts:237-238 | `includes` as a position-by-position search finds the part exactly when it occurs at some position. |
| Api.KeyViews | src/lib/api.ts:225-234 | Every listed row is mapped, in order, to its view with its masked form. |
| Api.Deactivate | src/lib/api.ts:279-286 | The list keeps its length. Only the tenant's active keys in the environment are deactivated. |
| Api.RotationLeavesOneActiveKey | src/lib/api.ts:276-294 | Afterwards the tenant has exactly one active key in the environment, the new one. Other tenants' and other environments' rows are unchanged. |
| Api.ActiveKeysOf | src/lib/api.ts:217-223 | The listing rows are exactly the tenant's active keys, latest stored first. |
| Api.ListApiKeys | src/lib/api.ts:297 | The re-read listing: the error the query throws, or else `getApiKeys` over the tenant's active rows of the current table. |
| Api.DeactivateKeys | src/lib/api.ts:279-286 | The UPDATE of a rotation: the keys table becomes Api.Deactivate of the old one, and no other table changes. |
| Api.InsertKey | src/lib/api.ts:288-294 | The INSERT of a rotation: the row is appended to the keys table, and no other table changes. |
| Api.Rotation | src/lib/api.ts:276-302 | The keys table and the result after each ending of a rotation, as stated by Api.RotationOutcomes, Api.RotationLeavesOneActiveKey and Api.RotationListsNewKeyFirst. |
| Api.RotateApiKey | src/lib/api.ts:266-306 | The keys table and the result are Api.Rotation of the old table. When the UPDATE throws, nothing changes. When the INSERT throws, the deactivation stays. When the re-read listing throws, both writes stay and the full key is not returned. Every failure returns its error. Otherwise the result is the full key and the listing re-read from the new table. |
| Api.RotationListsNewKeyFirst | src/lib/api.ts:276-302 | The listing returned after a rotation starts with the new key. Its mask is the test key or the live key shown, according to the rotated kind. |
| Api.RotationOutcomes | src/lib/api.ts:266-306 | Relates each ending of a rotation to the keys table and the result. A failed UPDATE changes nothing and returns its error. After a failed INSERT the tenant has no active key in the environment. When both writes persist, the new row, with the key's hash, is the only active key of its environment. If the re-read listing then throws, the result is its error, so the stored key is never shown. Otherwise the result holds the full key and a listing that shows the new key's mask first. |
| Api.FailedInsertLeavesNoActiveKey | src/lib/api.ts:279-294 | When the INSERT throws after the UPDATE, the tenant has no active key left in the rotated environment. |
| Api.PlaceholdersAppend | src/lib/api.ts:340-372 | The placeholders of appended conditions follow those already present. |
| Api.BindAppend | src/lib/api.ts:340-372 | Parameters pushed later do not change an earlier condition's meaning. |
| Api.BuiltAppend | src/lib/api.ts:340-372 | Pushing a condition on the next free placeholders keeps `$1..$n` consecutive with `paramIndex = n+1`. |
| Api.Push | src/lib/api.ts:340-372 | One push keeps the builder's invariant. |
| Api.AddCursorCondition | src/lib/api.ts:344-348 | A cursor adds `id < $n` bound to it. |
| Api.AddDateRangeCondition | src/lib/api.ts:350-354 | Both dates add a BETWEEN on two fresh placeholders. |
| Api.AddEndpointCondition | src/lib/api.ts:356-360 | An endpoint adds ILIKE bound to `%endpoint%`. |
| Api.AddStatusCondition | src/lib/api.ts:362-366 | A non-zero status adds equality on it. |
| Api.AddMethodCondition | src/lib/api.ts:368-372 | A method adds equality on it. |
| Api.BuildUsageLogsQuery | src/lib/api.ts:331-385 | The bound conditions are exactly the requested filters, with placeholders `$1..$n` over n parameters. LIMIT takes `$n+1` bound to `limit+1`. The WHERE clause is the conditions' SQL texts joined by " AND ". |
| Api.UsageFilters | src/lib/api.ts:340-372 | The requested filters in the order the builder adds them. Api.BuildUsageLogsQuery and DateRangeNeedsBothEnds state how they are bound. |
| Api.ConditionSql | src/lib/api.ts:340-369 | The SQL text pushed for each condition. It names each of the condition's placeholders as `$n`, as stated by Api.ConditionSqlNamesPlaceholders. |
| Api.ConditionTexts | src/lib/api.ts:339-373 | The `whereConditions` list: one text per condition, in order. |
| Api.ConditionSqlNamesPlaceholders | src/lib/api.ts:340-369 | Every placeholder of a condition, both of them for BETWEEN, occurs as `$n` in its SQL text. |
| Api.DateRangeNeedsBothEnds | src/lib/api.ts:350-354 | A date range is applied iff both dates are given. |
| Api.Paginate | src/lib/api.ts:388-390 | hasMore holds iff more than `limit` rows were fetched. The cursor is the last returned id when there are more. |
| Api.PageLimit | src/lib/api.ts:336 | The limit is the requested one, or 50 when it is absent or 0. It is never 0, and it is at least 1 unless a negative limit was requested. |
| Api.PageWithinLimit | src/lib/api.ts:336-390 | A page holds at most `limit` rows, is a prefix of the fetched rows, and continues exactly when `limit+1` rows came back. |
| Api.UsageLogDefaults | src/lib/api.ts:432-442 | Missing or falsy columns become "/api/unknown", 200, 0 and "POST". Present values pass through unchanged. So do the id, the time, the cost, the IP address and the user agent. |
| Api.UsageLogOf | src/lib/api.ts:432-442 | A row mapped to a log, as stated by Api.UsageLogDefaults. |
| Api.GetTenantProfile | src/lib/api.ts:685-718 | The result is an error iff the tenant is unknown, and the error is "Tenant not found". |
| Api.TenantProfileDefaults | src/lib/api.ts:701-713 | For a stored tenant: a missing or empty name reads as "", and a zero quota as 10000. Every other field, plan, status and usage included, is the stored one. |
| Api.Coalesce | src/lib/api.ts:728-734 | `COALESCE(v \|\| null, column)`: a non-empty value wins, otherwise the column is kept. |
| Api.ProfileFieldsNeverCleared | src/lib/api.ts:728-734 | A stored field is never cleared, and repeating an update changes only the timestamp. |
| Api.ApplyProfileUpdate | src/lib/api.ts:728-734 | The row after the COALESCE update, as stated by Api.ProfileFieldsNeverCleared and Api.UpdateTenantProfile. |
| Api.UpdateTenantProfile | src/lib/api.ts:720-741 | Only the tenant's row changes, by COALESCE. An unknown id writes nothing and gets "Tenant not found". A failed UPDATE writes nothing and returns its error. A failed re-read returns its error with the update kept. Otherwise the re-read profile is returned. |
| Api.ReadTenantProfile | src/lib/api.ts:737 | The re-read after the update: the error the query throws, or else `getTenantProfile` over the current tenants table. |
| StripeWebhook.GetQuotaForPlan | src/app/api/webhooks/stripe/route.ts:392-402 | Every plan has a positive quota. |
| StripeWebhook.QuotaPerPlan | src/app/api/webhooks/stripe/route.ts:392-402 | FREE 1000, STARTER 10000, PRO 100000, BUSINESS 500000, ENTERPRISE 999999999, in any letter case. An unknown plan gets 10000. |
| StripeWebhook.QuotaIgnoresCase | src/app/api/webhooks/stripe/route.ts:401 | Names equal up to case have the same quota. |
| StripeWebhook.DeterminePlan | src/app/api/webhooks/stripe/route.ts:367-387 | The price metadata plan is used upper-cased when present. Otherwise the price-id table is used, else STARTER. |
| StripeWebhook.EffectIsConfinedToItsTenant | src/app/api/webhooks/stripe/route.ts:27-326 | An event without a tenant id changes nothing. Otherwise only the named tenant's row and billing event are written. |
| StripeWebhook.InvoicePaidResetsUsage | src/app/api/webhooks/stripe/route.ts:104-128 | Usage is set to 0 and status to ACTIVE, and a paid renewal event is written. Nothing else changes. |
| StripeWebhook.PaymentFailedSuspends | src/app/api/webhooks/stripe/route.ts:159-180 | Status becomes SUSPENDED. Usage, plan and quota are kept, and an unpaid event is written. |
| StripeWebhook.SubscriptionCreatedActivates | src/app/api/webhooks/stripe/route.ts:212-228 | The tenant becomes ACTIVE with the plan and its quota. The event is TRIAL_STARTED iff trial_end is set. |
| StripeWebhook.SubscriptionUpdatedClassifies | src/app/api/webhooks/stripe/route.ts:258-280 | An unchanged plan writes nothing. Otherwise the event is PLAN_UPGRADED iff the new quota is strictly larger, and PLAN_DOWNGRADED in every other case. |
| StripeWebhook.PlanChangeType | src/app/api/webhooks/stripe/route.ts:270-272 | PLAN_UPGRADED iff the new plan's quota is strictly larger, as stated by StripeWebhook.SubscriptionUpdatedClassifies. |
| StripeWebhook.CaseOnlyPlanChangeIsDowngrade | src/app/api/webhooks/stripe/route.ts:258-280 | "pro" to "PRO" counts as a change and is logged as a downgrade. |
| StripeWebhook.SubscriptionDeletedEndsAccount | src/app/api/webhooks/stripe/route.ts:300-306 | Status becomes CANCELLED when cancel_at_period_end is set, and CHURNED otherwise. |
| StripeWebhook.UnknownTenantFails | src/app/api/webhooks/stripe/route.ts:93-306 | A tenant id with no row makes each writing handler throw. |
| StripeWebhook.EventEffect | src/app/api/webhooks/stripe/route.ts:93-306 | What each handler writes. The lemmas from EffectIsConfinedToItsTenant to UnknownTenantFails state it case by case. |
| StripeWebhook.TrialDaysRemaining | src/app/api/webhooks/stripe/route.ts:341-342 | Gives the ceiling of the days to trial_end, or 3 without one. |
| StripeWebhook.TrialReminder | src/app/api/webhooks/stripe/route.ts:331-352 | Sends a reminder iff the event names a stored tenant, to its e-mail with the days left. It writes nothing. |
| StripeWebhook.TrialDaysRoundUp | src/app/api/webhooks/stripe/route.ts:342 | A trial ending now has 0 days left, and one ending 1 ms later has 1. |
| StripeWebhook.EventTypeSelectsCase | src/app/api/webhooks/stripe/route.ts:49-81 | For events whose unhandled type names none of the handled ones, an event takes the default case iff its type is unhandled. Two events with the same handled type take the same case. |
| StripeWebhook.HandleEvent | src/app/api/webhooks/stripe/route.ts:49-81 | When both writes succeed, the tables change by the event's effect. When the second write throws, the first one stays: the billing event for invoices, the tenant row for subscriptions. The method reports false iff the handler threw. |
| StripeWebhook.RetriedPlanChangeIsNotLogged | src/app/api/webhooks/stripe/route.ts:258-280 | If the billing event of a plan change throws after the plan was stored, the retried event finds the plan unchanged and writes nothing. The change is never logged. |
| StripeWebhook.RetriedInvoiceIsLoggedTwice | src/app/api/webhooks/stripe/route.ts:104-128 | If the tenant update of a paid invoice throws after its renewal was logged, the retry logs the same renewal again and then resets usage. |
| StripeWebhook.PostStatuses | src/app/api/webhooks/stripe/route.ts:27-88 | 400 iff the signature is missing or does not verify, and then no table is read. 500 iff the handler throws, either for a missing tenant or because one of its writes failed. Otherwise the reply echoes the event type. |
| StripeWebhook.PostReply | src/app/api/webhooks/stripe/route.ts:27-88 | The reply of the route, as stated by StripeWebhook.PostStatuses. |
| StripeWebhook.Post | src/app/api/webhooks/stripe/route.ts:27-88 | The reply is Post's reply function. A missing or bad signature changes nothing. For a verified event, the tables change as StripeWebhook.HandleEvent states: by the event's effect, each write kept according to the outcome and the handler's write order, and nothing when the effect writes nothing. |
| UsageClient.Filter | src/app/dashboard/usage/usage-client.tsx:36-63 | Filtering never lengthens the list. |
| UsageClient.FilterIsSubsequence | src/app/dashboard/usage/usage-client.tsx:36-63 | A filter keeps elements in order. |
| UsageClient.SubsequenceSkip | src/app/dashboard/usage/usage-client.tsx:36-63 | A subsequence of the tail is a subsequence of the whole. |
| UsageClient.FilterCount | src/app/dashboard/usage/usage-client.tsx:36-63 | A kept element occurs as often as in the input. A dropped one does not occur. |
| UsageClient.FilterKeepsAll | src/app/dashboard/usage/usage-client.tsx:36-63 | An always-true filter changes nothing. |
| UsageClient.FilterFuse | src/app/dashboard/usage/usage-client.tsx:36-63 | Two filters in a row equal one filter by both. |
| UsageClient.FilterAppend | src/app/dashboard/usage/usage-client.tsx:36-63 | Filtering distributes over concatenation. |
| UsageClient.FilteredLogsIsOneFilter | src/app/dashboard/usage/usage-client.tsx:36-63 | The chain of five filters equals one filter by all conditions. |
| UsageClient.FilteredLogsSpec | src/app/dashboard/usage/usage-client.tsx:36-63 | The result is an ordered subsequence. A log is in it iff it is loaded and passes every set filter, as often as loaded. |
| UsageClient.FilteredLogs | src/app/dashboard/usage/usage-client.tsx:36-63 | The five filters in sequence, as stated by UsageClient.FilteredLogsSpec and FilteredLogsIsOneFilter. |
| UsageClient.LeadingZeroStatusMatchesNothing | src/app/dashboard/usage/usage-client.tsx:54-56 | Status is compared as decimal text, so "0200" matches no log. |
| UsageClient.TotalPages | src/app/dashboard/usage/usage-client.tsx:66 | `ceil(n/50)`: the fewest pages of 50 covering n. |
| UsageClient.PageSlice | src/app/dashboard/usage/usage-client.tsx:67-70 | Page p holds the elements at `(p-1)*50 …`, at most 50 of them. |
| UsageClient.PagesArePrefix | src/app/dashboard/usage/usage-client.tsx:67-70 | The first c pages together are the first `min(50c, n)` logs. |
| UsageClient.PagesCoverAll | src/app/dashboard/usage/usage-client.tsx:66-70 | All pages together give back the filtered logs. |
| UsageClient.UsageView.constructor | src/app/dashboard/usage/usage-client.tsx:29-30 | The view starts with no filters on page 1. |
| UsageClient.UsageView.ChangeFilters | src/app/dashboard/usage/usage-client.tsx:72-75 | New filters reset the page to 1. |
| UsageClient.UsageView.Previous | src/app/dashboard/usage/usage-client.tsx:226 | Moves one page back, never below 1. |
| UsageClient.UsageView.Next | src/app/dashboard/usage/usage-client.tsx:221-237 | Moves one page forward, never above totalPages. |
| UsageClient.VisibleMatchesCaption | src/app/dashboard/usage/usage-client.tsx:216-218 | The table shows exactly positions `(p-1)*50+1 … min(50p, n)` of "Showing a-b of n". |
| UsageClient.SuccessRateBounds | src/app/dashboard/usage/usage-client.tsx:149-153 | Shows "—" without logs. Otherwise the percentage of 2xx responses, rounded, in 0..100. |
| UsageClient.SuccessRateText | src/app/dashboard/usage/usage-client.tsx:149-153 | The success-rate card text, as stated by UsageClient.SuccessRateBounds. |
| UsageClient.QuoteAll | src/app/dashboard/usage/usage-client.tsx:92 | Wraps each cell in double quotes, with no escaping. |
| UsageClient.CsvRows | src/app/dashboard/usage/usage-client.tsx:81-92 | One row per log, in order. |
| UsageClient.JoinAvoids | src/app/dashboard/usage/usage-client.tsx:90-93 | Joining introduces no character absent from the parts and the separator. |
| UsageClient.CsvLines | src/app/dashboard/usage/usage-client.tsx:80-93 | The CSV is the header line followed by exactly one line per filtered log. |
| UsageClient.Csv | src/app/dashboard/usage/usage-client.tsx:80-93 | The CSV text, as stated by UsageClient.CsvLines. |
| UsageClient.QuotedAvoids | src/app/dashboard/usage/usage-client.tsx:92 | Quoting adds no character other than `"`. |
| UsageClient.CsvRowCells | src/app/dashboard/usage/usage-client.tsx:92 | A line without commas in its cells splits back into the quoted cells. |
| UsageClient.CommaInCellSplitsIt | src/app/dashboard/usage/usage-client.tsx:92 | A comma in a cell is not escaped and splits that cell. |
| Overview.Round | src/app/dashboard/overview/page.tsx:17 | `Math.round` gives the integer within half of x, with halves rounded up. |
| Overview.FormatPercentBounds | src/app/dashboard/overview/page.tsx:15-18 | A zero total gives "0%". Otherwise the rounded percentage plus "%", within half a percent of the exact share, and in 0..100 when 0 ≤ value ≤ total. |
| Overview.RoundedShare | src/app/dashboard/overview/page.tsx:17 | The rounded percentage is within half a percent of the exact share. |
| Overview.FormatPercent | src/app/dashboard/overview/page.tsx:15-18 | The percentage text, as stated by Overview.FormatPercentBounds. |
| Overview.ScaleBy | src/app/dashboard/overview/page.tsx:17 | Scaling by a positive total keeps the order. |
| Overview.RatioBounds | src/app/dashboard/overview/page.tsx:17 | A share of at most the total scales into 0..100. |
| Overview.OverQuotaShowsOverHundred | src/app/dashboard/overview/page.tsx:17 | The value is not clamped: 3 of 2 shows "150%". |
| Overview.Busiest | src/app/dashboard/overview/page.tsx:44-45 | The reduce is at least every day's requests, at least 0, and attained when positive. |
| Overview.MaxRequests | src/app/dashboard/overview/page.tsx:44-45 | `… \|\| 1` is at least 1 and bounds every day. |
| Overview.MaxRequestsIsAttained | src/app/dashboard/overview/page.tsx:44-45 | The scale is some day's requests, or 1 when no day has any. |
| Overview.BarPercent | src/app/dashboard/overview/page.tsx:104-166 | The bar is at least the floor, and otherwise proportional to the requests. |
| Overview.BarsWithinBounds | src/app/dashboard/overview/page.tsx:104-166 | Widths lie in 6..100% and heights in 8..100%. The usage page's bars are the same (usage-client.tsx:33,199). |
| Overview.StatusColourPartition | src/app/dashboard/overview/page.tsx:202-206 | [200,400) is green, ≥500 is red, and everything else is amber. The same split is used at usage-client.tsx:269-273. |
| Overview.StatusColour | src/app/dashboard/overview/page.tsx:202-206 | The colour of a status code, as stated by Overview.StatusColourPartition. |
| Db.ValueEnd | src/lib/db.ts:10-11 | `[^&]*` stops at the next `&` or at the end. |
| Db.DropTrailingQuestionMark | src/lib/db.ts:12 | Removes one trailing `?`, or nothing. |
| Db.ConnectionStringAsWritten | src/lib/db.ts:3-12 | An unset or empty `DATABASE_URL` throws its message before any rewriting. |
| Db.RemoveParamStartsAtSeparator | src/lib/db.ts:10-11 | After a removed match, what follows starts with `&` or is empty. |
| Db.PrefixSurvives | src/lib/db.ts:10-11 | The result's `&`-free prefix was already the input's prefix. |
| Db.MatchHasNoAmpersand | src/lib/db.ts:10-11 | The name and `=` of a match hold no `&`. |
| Db.ParamAtShift | src/lib/db.ts:10-11 | Matches shift with the text. |
| Db.NewMatchOnlyWhereOldOne | src/lib/db.ts:10-11 | A removal creates no new match of another name at the front. |
| Db.RemoveParamRemovesAll | src/lib/db.ts:10 | After the global replacement no `[?&]name=` match is left, in any case. |
| Db.ParamAtSuffix | src/lib/db.ts:10-11 | A match in a suffix is a match in the whole. |
| Db.ParamAtPrefix | src/lib/db.ts:10-11 | A match in a prefix is a match in the whole. |
| Db.RemoveParamKeepsOthersAbsent | src/lib/db.ts:10-11 | Removing sslaccept does not bring back sslmode. |
| Db.RemoveParamIdentity | src/lib/db.ts:10-11 | A string without a match is unchanged. |
| Db.RemoveParam | src/lib/db.ts:10-11 | One global replacement, as stated by Db.RemoveParamRemovesAll, RemoveParamKeepsOthersAbsent and RemoveParamIdentity. |
| Db.StripSslParamsSpec | src/lib/db.ts:9-12 | No sslmode or sslaccept parameter remains. A string with neither and no trailing `?` is unchanged. |
| Db.StripSslParams | src/lib/db.ts:9-12 | The sanitiser as written, as stated by Db.StripSslParamsSpec and Db.SeparatorLostAsWritten. |
| Db.ShortHasNoParam | src/lib/db.ts:10-11 | Too short to match means unchanged. |
| Db.SslModeMatch | src/lib/db.ts:10 | `?sslmode=require&x=1` matches at 0, and its value runs to the `&`. |
| Db.ExampleQueryRemoved | src/lib/db.ts:10 | `?sslmode=require&x=1` becomes `&x=1`. |
| Db.KeepsPrefix | src/lib/db.ts:10-11 | A prefix with no `?` or `&` is kept unchanged. |
| Db.SeparatorLostAsWritten | src/lib/db.ts:10 | For any path without `?` or `&`, `base?sslmode=require&x=1` becomes `base&x=1`, so `db?sslmode=require&x=1` becomes `db&x=1`: the query separator is lost. |
| Db.ValueEndStops | src/lib/db.ts:10-11 | The value ends at the first `&`. |
| Db.KeepParams | src/lib/db.ts:10-11 | Keeps only the given parameters that are not ssl parameters. |
| Db.ConnectionString | src/lib/db.ts:3-12 | The corrected version keeps the same error for an unset variable. |
| Db.CorrectedKeepsSeparator | src/lib/db.ts:9-12 | The corrected rewriting keeps the path and puts the remaining parameters, in order, behind one `?`. With none left it drops the `?`. |
| Db.StripSslParamsCorrected | src/lib/db.ts:9-12 | The corrected sanitiser, as stated by Db.CorrectedKeepsSeparator and Db.SeparatorKeptCorrected. |
| Db.ExampleKept | src/lib/db.ts:10 | Of `sslmode=require` and `x=1`, only `x=1` is kept. |
| Db.ExampleQuerySplit | src/lib/db.ts:10 | `sslmode=require&x=1` splits into its two parameters. |
| Db.CorrectedOnQuery | src/lib/db.ts:9-12 | The corrected rewriting of `base?query` depends on the query alone. |
| Db.ExampleQueryKept | src/lib/db.ts:10 | Of the query `sslmode=require&x=1`, only `x=1` is kept. |
| Db.CorrectedWithKept | src/lib/db.ts:9-12 | When some parameters survive, `base?query` becomes `base`, `?` and the surviving parameters joined by `&`. |
| Db.SeparatorKeptCorrected | src/lib/db.ts:10 | `base?sslmode=require&x=1` becomes `base?x=1` for any path without a `?`, such as `db`, which gives `db?x=1`. |
| Utils.Render | src/lib/utils.ts:4 | A truthy value renders as non-empty text: `true` as "true", and numbers in decimal. |
| Utils.ClassNames | src/lib/utils.ts:4 | The truthy arguments are kept in order, all non-empty. |
| Utils.ClassNamesConcat | src/lib/utils.ts:4 | Filtering distributes over concatenation. |
| Utils.ClassNamesEmpty | src/lib/utils.ts:4 | Nothing is kept iff every argument is falsy. |
| Utils.ClassNamesAvoid | src/lib/utils.ts:4 | Kept names carry no character their inputs lack. |
| Utils.JoinNonEmpty | src/lib/utils.ts:4 | Joining parts whose first part is non-empty gives a non-empty string. The full iff for `cn` is Utils.CnConcat. |
| Utils.CnConcat | src/lib/utils.ts:4 | The result is "" iff every argument is falsy. `cn(a+b)` is `cn(a)` and `cn(b)` with one space between them when both are non-empty. |
| Utils.Cn | src/lib/utils.ts:4 | `cn` joins the truthy arguments with one space, as stated by Utils.CnConcat, CnIgnoresFalsy and CnWords. |
| Utils.CnIgnoresFalsy | src/lib/utils.ts:4 | A falsy argument adds no text and no separator. |
| Utils.CnWords | src/lib/utils.ts:4 | Without spaces in the inputs, the words of the result are exactly the truthy arguments, in order. |
| Utils.CnRendersTrueAndNumbers | src/lib/utils.ts:4 | `true` renders as "true" and -3 as "-3". |
| Text.Split | src/lib/rate-limit.ts:112 | `split` gives at least one part, and no part holds the separator. |
| Text.SplitJoin | src/app/dashboard/usage/usage-client.tsx:90-93 | Splitting a join of separator-free parts gives the parts back. |

## Left out

- Upstash limiters (src/lib/rate-limit.ts:25-57): their sliding-window algorithm runs in a library and service outside the repository. Only the choice between them and the in-process limiters is modelled.
- The in-process limiter is a fixed window: a record's window end is set when the record is created and never moves, and the record expires only once `now > resetAt`, strictly. At `now == resetAt` the old window still counts.
- Concurrency: the limiter relies on the single-threaded event loop, so no interleaving of calls is modelled.
- RateLimit.CheckRateLimit: the "no limiter for this key" branch cannot happen with the typed keys. It is modelled as an absent (null) limiter set.
- I/O: SQL and Prisma calls, `bcrypt`, `randomBytes` and `Date.now()` are parameters. So are zod's e-mail check, ISO date rendering and `toFixed(6)`.
- Database failures are modelled where an operation writes without a transaction and then reads, so that a write can persist while the operation fails. Api.RotateApiKey and StripeWebhook.HandleEvent and Post take a `WriteOutcome`: both writes succeed, the first throws, or the second throws after the first persisted. Api.RotateApiKey also takes the failure of its listing re-read. Api.UpdateTenantProfile takes the failures of its UPDATE and of its re-read. The settings actions take the failure of their audit write, which the audit helper swallows after the tenant row was updated.
- Database failures beyond these writes and re-reads, such as `pool.connect()` failing, are not modelled. They throw before anything is written.
- Settings.ChangeHcsCodeAction: a failure of its tenant update is not modelled. It would throw with nothing written. A form field that is missing is not modelled either. It reaches zod as null, because `as string` only changes the static type. zod then reports "Expected string, received null" for that field in the field's place among the issues, and the refinements do not run.
- Headers are looked up by lower-case name, as the source always writes them. The case-insensitivity of `Headers.get` is not modelled.
- RateLimit.GetClientIp: header values are taken as the request carries them. The Fetch `Headers` object strips spaces and tabs from both ends of each value, which is not modelled. An `x-real-ip` of only spaces is therefore returned here, where the source reads it as empty and falls through to `cf-connecting-ip`.
- String lengths are counted in code points, not UTF-16 code units. A password or code with astral characters may differ by a few units from `.length`.
- Settings.ChangePasswordAction: a failure of its tenant update is not modelled. It would throw with nothing written. A form field that is missing is not modelled either. It reaches zod as null, because `as string` only changes the static type. zod then reports "Expected string, received null" for that field in the field's place among the issues, and the refinements do not run.
- The Next.js redirect in `requireTenantId` is an outcome value. The redirect and cache revalidation themselves are left out.
- Api.GetApiKeys: the rows are taken as the query returns them, newest first. The SQL ordering itself is not modelled.
- Api.Paginate: when a negative limit below -1 is requested, the query's `LIMIT` is negative, which the database refuses. For a limit of -1, hasMore holds with no logs. The source's cursor is then `undefined`, which the model shows as no cursor (`None`), the same as `null`.
- Api.ActiveKeysOf: `ORDER BY "createdAt" DESC` is taken as reverse storage order. Keys stored in the same millisecond are not ordered by the database, and the model picks storage order for them.
- Api.GetTenantProfile: the `createdAt` string fallbacks are left out.
- Api.UsageLogOf: the cost column is a real number, so the `Number(row.cost) || 0` conversion of the driver's NUMERIC text is not modelled. The timestamp is an epoch number, not its ISO text.
- Api.FormatUsageData: calendar days are whole day numbers. Time zones and `Date` arithmetic are left out, and cost is a real number, not a float.
- The SQL of `getUsageLogs` is modelled as the conditions and their bound meaning. Running the query, ILIKE matching, ordering and the row count query are left out.
- StripeWebhook.DeterminePlan: `toUpperCase` is modelled for ASCII letters only. JavaScript maps a few other letters to ASCII (`ı` to `I`), so `busıness` gets 500000 in the source but 10000 in the model.
- StripeWebhook.DeterminePlan: the price-id table lookup assumes the id is not an `Object.prototype` member name such as `constructor`. For such an id the source finds an inherited function instead of a plan.
- Stripe signature verification is the parameter `constructEvent`. `src/lib/stripe.ts`, the e-mails sent by the handlers, the billing period, `paidAt`, the payment-intent handler (it only logs) and the plan-change metadata are not part of this model. The stored amount is the provider's integer amount in minor units, not the float divided by 100.
- A missing tenant is assumed to make the billing-event insert fail, on the assumption that `billing_events.tenantId` is a foreign key to `tenants`. The schema is not part of this model. The model treats it as a thrown error with nothing written.
- UsageClient.UsageView.Next: modelled only when there is more than one page, since the button is shown only then.
- The average-response and total-cost cards of the usage page, and the date parsing of its filters (`startOf`/`endOf` parameters), are left out.
- UsageClient.SuccessRateBounds: the rate is exact real arithmetic rounded by `Math.round`, not floating point.
- Overview.FormatPercent: the share is exact real arithmetic rounded by `Math.round`, not a double. The source's doubles round some exact halves down. `formatPercent(29, 200)` computes `0.145 * 100` as 14.499999999999998 and shows "14%", where the model shows "15%". The same holds for (115, 200): "57%" against "58%", and for (201, 200): "100%" against "101%".
- Overview.FormatPercentBounds: states the exact-real rounding of Overview.FormatPercent. It does not capture the double results above, which can lie one below the exact rounding at an exact half.
- Overview.RoundedShare: the same exact-real rounding as Overview.FormatPercentBounds. It does not capture the double results at an exact half.
- Utils.Render: numbers are integers. `NaN`, floats and `-0` are left out.
- `src/lib/hcs-backend.ts`, `src/lib/email.ts`, the thin and debug routes, UI components, the static dashboard pages, the billing page's copy of `formatPercent`, `prisma/seed.cjs` and the Prisma singleton are not part of this model.

## Findings

| source | as written | input that shows it | evidently intended | confidence | as-written member | corrected member |
|---|---|---|---|---|---|---|
| src/lib/db.ts:10 | `.replace(/[?&]sslmode=[^&]*/gi, "")` removes the `?` along with a first parameter, and the following `&x=1` is glued to the database name | `postgres://u@h/db?sslmode=require&x=1` becomes `postgres://u@h/db&x=1` (modelled on `db?sslmode=require&x=1`, which becomes `db&x=1`) | `postgres://u@h/db?x=1`: the remaining parameters stay behind a `?` | not executed | Db.SeparatorLostAsWritten | Db.SeparatorKeptCorrected |

=== FILE: api.dfy ===
/**
 * The data shaping of the dashboard's server API: daily usage series with gaps
 * filled, API-key generation, masking, selection and rotation, the filtered
 * and keyset-paginated usage-log query, usage-row defaults, and tenant-profile
 * reads and COALESCE updates. SQL execution, hashing and randomness are
 * parameters; calendar days are whole day numbers.
 */
module Api {
  import opened Wrappers
  import opened Text
  import opened Store

  // ---------------------------------------------------------------------------
  // formatUsageData
  // ---------------------------------------------------------------------------

  /** A row of the per-day aggregate query. */
  datatype DailyRow = DailyRow(day: int, requests: int, cost: real)

  /** A point of the chart series. */
  datatype UsagePoint = UsagePoint(day: int, requests: int, cost: real)

  /** `new Map(rows.map(r => [day, r]))`: a later row for the same day replaces an earlier one. */
  function DayIndex(rows: seq<DailyRow>): map<int, DailyRow>
  {
    if rows == [] then map[]
    else DayIndex(rows[..|rows| - 1])[rows[|rows| - 1].day := rows[|rows| - 1]]
  }

  /** A day is indexed exactly when some row has it, and it maps to the last such row. */
  lemma {:induction false} DayIndexIsLastRow(rows: seq<DailyRow>, d: int)
    ensures d in DayIndex(rows) <==> exists k :: 0 <= k < |rows| && rows[k].day == d
    ensures d in DayIndex(rows) ==>
              exists k :: 0 <= k < |rows| && rows[k] == DayIndex(rows)[d]
                          && rows[k].day == d && forall j :: k < j < |rows| ==> rows[j].day != d
  {
    if rows != [] {
      var n := |rows| - 1;
      var init, last := rows[..n], rows[n];
      assert DayIndex(rows) == DayIndex(init)[last.day := last];
      assert forall k :: 0 <= k < n ==> rows[k] == init[k];
      DayIndexIsLastRow(init, d);
      if last.day == d {
        assert rows[n].day == d && rows[n] == DayIndex(rows)[d];
      } else if d in DayIndex(init) {
        var k :| 0 <= k < n && init[k] == DayIndex(init)[d] && init[k].day == d
                 && forall j :: k < j < n ==> init[j].day != d;
        assert rows[k] == DayIndex(rows)[d] && rows[k].day == d;
      }
    }
  }

  /** The point for day `d`: the indexed row's figures, or zero requests and zero cost. */
  function PointFor(index: map<int, DailyRow>, d: int): (p: UsagePoint)
    ensures p.day == d
    ensures d !in index ==> p.requests == 0 && p.cost == 0.0
    ensures d in index ==> p.requests == index[d].requests && p.cost == index[d].cost
  {
    if d in index then UsagePoint(d, index[d].requests, index[d].cost) else UsagePoint(d, 0, 0.0)
  }

  /**
   * `formatUsageData(rows, days)`: one point per day for the `days` days ending
   * `today`, oldest first, each carrying the last row for that day or zeros.
   */
  method FormatUsageData(rows: seq<DailyRow>, days: int, today: int) returns (result: seq<UsagePoint>)
    ensures |result| == if days > 0 then days else 0
    ensures forall k :: 0 <= k < |result| ==> result[k] == PointFor(DayIndex(rows), today - (days - 1 - k))
  {
    var dataMap := DayIndex(rows);
    result := [];
    var i := days - 1;
    while i >= 0
      invariant i <= days - 1 && (i >= -1 || i == days - 1)
      invariant |result| == days - 1 - i
      invariant forall k :: 0 <= k < |result| ==> result[k] == PointFor(dataMap, today - (days - 1 - k))
    {
      var date := today - i;
      var point := if date in dataMap then UsagePoint(date, dataMap[date].requests, dataMap[date].cost)
                   else UsagePoint(date, 0, 0.0);
      result := result + [point];
      i := i - 1;
    }
  }

  /** A day that no row mentions shows zero requests and zero cost. */
  lemma DayWithoutRowIsZero(rows: seq<DailyRow>, d: int)
    requires forall j :: 0 <= j < |rows| ==> rows[j].day != d
    ensures PointFor(DayIndex(rows), d) == UsagePoint(d, 0, 0.0)
  {
    DayIndexIsLastRow(rows, d);
  }

  /** A day shows the figures of the last row for it. */
  lemma DayShowsLastRow(rows: seq<DailyRow>, k: int)
    requires 0 <= k < |rows|
    requires forall j :: k < j < |rows| ==> rows[j].day != rows[k].day
    ensures PointFor(DayIndex(rows), rows[k].day) == UsagePoint(rows[k].day, rows[k].requests, rows[k].cost)
  {
    DayIndexIsLastRow(rows, rows[k].day);
  }

  /** The series runs over consecutive days, oldest first, and ends today. */
  lemma UsageSeriesConsecutive(rows: seq<DailyRow>, days: int, today: int, result: seq<UsagePoint>)
    requires days > 0 && |result| == days
    requires forall k :: 0 <= k < |result| ==> result[k] == PointFor(DayIndex(rows), today - (days - 1 - k))
    ensures result[0].day == today - (days - 1) && result[days - 1].day == today
    ensures forall k :: 0 < k < |result| ==> result[k].day == result[k - 1].day + 1
  {
  }

  // ---------------------------------------------------------------------------
  // API keys
  // ---------------------------------------------------------------------------

  datatype KeyType = Test | Live

  function EnvName(t: KeyType): string {
    if t == Test then "test" else "live"
  }

  /** The `environment` column a key type is stored under. */
  function Environment(t: KeyType): string {
    if t == Test then "DEVELOPMENT" else "PRODUCTION"
  }

  datatype GeneratedKey = GeneratedKey(fullKey: string, prefix: string, lastFour: string)

  /** `randomPart.slice(-4)`: the last four characters, or all of a shorter string. */
  function LastFour(s: string): (r: string)
    ensures EndsWith(s, r)
    ensures |r| == if |s| >= 4 then 4 else |s|
  {
    if |s| >= 4 then s[|s| - 4..] else s
  }

  /** `generateApiKey(type)` with the random part supplied. */
  function GenerateApiKey(t: KeyType, randomPart: string): (k: GeneratedKey)
    ensures k.prefix == "hcs_sk_" + EnvName(t)
    ensures StartsWith(k.fullKey, k.prefix + "_") && k.fullKey[|k.prefix| + 1..] == randomPart
    ensures EndsWith(k.fullKey, k.lastFour) && EndsWith(randomPart, k.lastFour)
    ensures |randomPart| >= 4 ==> |k.lastFour| == 4
  {
    var prefix := "hcs_sk_" + EnvName(t);
    var fullKey := prefix + "_" + randomPart;
    assert fullKey[|fullKey| - |LastFour(randomPart)|..] == randomPart[|randomPart| - |LastFour(randomPart)|..];
    GeneratedKey(fullKey, prefix, LastFour(randomPart))
  }

  /** The masked form shown for a stored key. */
  function MaskedKey(keyPrefix: string, lastFourChars: string): string {
    keyPrefix + "_****" + lastFourChars
  }

  /** The masked form is the prefix and separator, four asterisks, then the last four characters. */
  lemma MaskedKeyShape(prefix: string, lastFour: string)
    ensures var m := MaskedKey(prefix, lastFour);
            StartsWith(m, prefix + "_") && EndsWith(m, lastFour) && m[|prefix| + 1..|prefix| + 5] == "****"
  {
    var m := MaskedKey(prefix, lastFour);
    assert m == (prefix + "_") + "****" + lastFour;
    assert m[..|prefix| + 1] == prefix + "_";
    assert m[|prefix| + 1..|prefix| + 5] == "****";
    assert m[|m| - |lastFour|..] == lastFour;
  }

  /** A key's masked form agrees with the full key on the prefix and separator
      and on the last four characters, and hides everything between. */
  lemma MaskedKeyRevealsOnlyEnds(t: KeyType, randomPart: string)
    ensures var k := GenerateApiKey(t, randomPart);
            var m := MaskedKey(k.prefix, k.lastFour);
            StartsWith(m, k.prefix + "_") && StartsWith(k.fullKey, k.prefix + "_")
            && EndsWith(m, k.lastFour) && EndsWith(k.fullKey, k.lastFour)
            && m[|k.prefix| + 1..|k.prefix| + 5] == "****"
  {
    var k := GenerateApiKey(t, randomPart);
    MaskedKeyShape(k.prefix, k.lastFour);
  }

  /** A key as listed for the tenant. */
  datatype ApiKeyView = ApiKeyView(
    id: string, keyPrefix: string, lastFourChars: string, environment: string,
    name: Option<string>, createdAt: int, lastUsedAt: Option<int>, maskedKey: string)

  function KeyView(row: ApiKeyRow): (v: ApiKeyView)
    ensures v.maskedKey == MaskedKey(row.keyPrefix, row.lastFourChars)
  {
    ApiKeyView(row.id, row.keyPrefix, row.lastFourChars, row.environment, row.name, row.createdAt,
               row.lastUsedAt, MaskedKey(row.keyPrefix, row.lastFourChars))
  }

  predicate IsTestKey(k: ApiKeyView) {
    k.environment == "DEVELOPMENT" || Contains(k.keyPrefix, "test")
  }

  predicate IsLiveKey(k: ApiKeyView) {
    k.environment == "PRODUCTION" || Contains(k.keyPrefix, "live")
  }

  /** The first test key of the list, as `keys.find` returns it. */
  function FirstTestKey(keys: seq<ApiKeyView>): (r: Option<ApiKeyView>)
    ensures r.None? <==> forall k :: 0 <= k < |keys| ==> !IsTestKey(keys[k])
    ensures r.Some? ==> exists k :: 0 <= k < |keys| && keys[k] == r.value && IsTestKey(keys[k])
                                    && forall j :: 0 <= j < k ==> !IsTestKey(keys[j])
  {
    if keys == [] then None
    else if IsTestKey(keys[0]) then Some(keys[0])
    else
      var r := FirstTestKey(keys[1..]);
      assert forall k :: 1 <= k < |keys| ==> keys[k] == keys[1..][k - 1];
      r
  }

  /** The first live key of the list. */
  function FirstLiveKey(keys: seq<ApiKeyView>): (r: Option<ApiKeyView>)
    ensures r.None? <==> forall k :: 0 <= k < |keys| ==> !IsLiveKey(keys[k])
    ensures r.Some? ==> exists k :: 0 <= k < |keys| && keys[k] == r.value && IsLiveKey(keys[k])
                                    && forall j :: 0 <= j < k ==> !IsLiveKey(keys[j])
  {
    if keys == [] then None
    else if IsLiveKey(keys[0]) then Some(keys[0])
    else
      var r := FirstLiveKey(keys[1..]);
      assert forall k :: 1 <= k < |keys| ==> keys[k] == keys[1..][k - 1];
      r
  }

  /** `result.rows.map(...)`: every row as listed, in order. */
  function KeyViews(rows: seq<ApiKeyRow>): (r: seq<ApiKeyView>)
    ensures |r| == |rows| && forall k :: 0 <= k < |rows| ==> r[k] == KeyView(rows[k])
  {
    if rows == [] then [] else [KeyView(rows[0])] + KeyViews(rows[1..])
  }

  datatype ApiKeysResponse = ApiKeysResponse(keys: seq<ApiKeyView>, testKey: Option<string>, liveKeyMasked: string)

  const LiveKeyPlaceholder: string := "hcs_sk_live_****xxxx"

  /** `getApiKeys(tenantId)` given the query's rows: the tenant's active keys, newest first. */
  function GetApiKeys(rows: seq<ApiKeyRow>): (r: ApiKeysResponse)
    ensures |r.keys| == |rows| && forall k :: 0 <= k < |rows| ==> r.keys[k] == KeyView(rows[k])
    ensures r.testKey.None? <==> forall k :: 0 <= k < |r.keys| ==> !IsTestKey(r.keys[k])
    ensures r.testKey.Some? ==> exists k :: 0 <= k < |r.keys| && IsTestKey(r.keys[k])
                                 && r.testKey.value == r.keys[k].maskedKey
                                 && forall j :: 0 <= j < k ==> !IsTestKey(r.keys[j])
    ensures (forall k :: 0 <= k < |r.keys| ==> !IsLiveKey(r.keys[k])) ==> r.liveKeyMasked == LiveKeyPlaceholder
    ensures (exists k :: 0 <= k < |r.keys| && IsLiveKey(r.keys[k])) ==>
              exists k :: 0 <= k < |r.keys| && IsLiveKey(r.keys[k]) && r.liveKeyMasked == r.keys[k].maskedKey
                          && forall j :: 0 <= j < k ==> !IsLiveKey(r.keys[j])
  {
    var keys := KeyViews(rows);
    var testKey := FirstTestKey(keys);
    var liveKey := FirstLiveKey(keys);
    ApiKeysResponse(keys,
                    if testKey.Some? then Some(testKey.value.maskedKey) else None,
                    if liveKey.Some? then liveKey.value.maskedKey else LiveKeyPlaceholder)
  }

  /** The `UPDATE`: every active key of the tenant in the environment is
      deactivated and stamped; every other row is kept. */
  function Deactivate(keys: seq<ApiKeyRow>, tenantId: string, environment: string, now: int): (r: seq<ApiKeyRow>)
    ensures |r| == |keys|
  {
    seq(|keys|, k requires 0 <= k < |keys| =>
      if keys[k].tenantId == tenantId && keys[k].environment == environment && keys[k].isActive
      then keys[k].(isActive := false, updatedAt := Some(now))
      else keys[k])
  }

  /** The row `rotateApiKey` inserts. */
  function NewKeyRow(id: string, keyHash: string, k: GeneratedKey, t: KeyType, tenantId: string, now: int): ApiKeyRow {
    ApiKeyRow(id, keyHash, k.prefix, k.lastFour, Environment(t), tenantId, true, None, now, None, None)
  }

  /**
   * After a rotation the tenant has exactly one active key in the rotated
   * environment, the new one, stored last; rows of other tenants or other
   * environments are untouched, and no key of the tenant in that environment
   * is left active.
   */
  lemma RotationLeavesOneActiveKey(keys: seq<ApiKeyRow>, tenantId: string, t: KeyType, newRow: ApiKeyRow, now: int)
    requires newRow.tenantId == tenantId && newRow.environment == Environment(t) && newRow.isActive
    ensures var after := Deactivate(keys, tenantId, Environment(t), now) + [newRow];
            |after| == |keys| + 1
            && (forall k :: 0 <= k < |after| ==>
                  (after[k].isActive && after[k].tenantId == tenantId && after[k].environment == Environment(t)
                   <==> k == |keys|))
            && (forall k :: 0 <= k < |keys| && (keys[k].tenantId != tenantId || keys[k].environment != Environment(t)) ==>
                  after[k] == keys[k])
            && (forall k :: 0 <= k < |keys| ==> after[k].id == keys[k].id && after[k].keyHash == keys[k].keyHash)
  {
  }

  /**
   * The rows of the listing query `getApiKeys` runs: the tenant's active keys,
   * most recently stored first. `ORDER BY "createdAt" DESC` is taken as
   * reverse storage order, keys being stored as they are created.
   */
  function ActiveKeysOf(rows: seq<ApiKeyRow>, tenantId: string): (r: seq<ApiKeyRow>)
    ensures forall row :: row in r <==> row in rows && row.tenantId == tenantId && row.isActive
  {
    if rows == [] then []
    else
      var init, last := rows[..|rows| - 1], rows[|rows| - 1];
      assert rows == init + [last];
      (if last.tenantId == tenantId && last.isActive then [last] else []) + ActiveKeysOf(init, tenantId)
  }

  /**
   * `getApiKeys(tenantId)`: runs the listing query on the keys table, on a
   * connection of its own; `failure` is the error it throws, if any.
   */
  method ListApiKeys(db: Database, tenantId: string, failure: Option<string>) returns (listing: Result<ApiKeysResponse>)
    ensures failure.Some? ==> listing == Err(failure.value)
    ensures failure.None? ==> listing == Ok(GetApiKeys(ActiveKeysOf(db.apiKeys, tenantId)))
  {
    if failure.Some? {
      return Err(failure.value);
    }
    listing := Ok(GetApiKeys(ActiveKeysOf(db.apiKeys, tenantId)));
  }

  /** The `UPDATE` of a rotation. */
  method DeactivateKeys(db: Database, tenantId: string, environment: string, now: int)
    modifies db
    ensures db.apiKeys == Deactivate(old(db.apiKeys), tenantId, environment, now)
    ensures db.tenants == old(db.tenants) && db.billingEvents == old(db.billingEvents) && db.auditLogs == old(db.auditLogs)
  {
    db.apiKeys := Deactivate(db.apiKeys, tenantId, environment, now);
  }

  /** The `INSERT` of a rotation. */
  method InsertKey(db: Database, row: ApiKeyRow)
    modifies db
    ensures db.apiKeys == old(db.apiKeys) + [row]
    ensures db.tenants == old(db.tenants) && db.billingEvents == old(db.billingEvents) && db.auditLogs == old(db.auditLogs)
  {
    db.apiKeys := db.apiKeys + [row];
  }

  datatype RotateApiKeyResult = RotateApiKeyResult(newKey: string, keys: ApiKeysResponse)

  /**
   * The keys table after a rotation and its result, given how the `UPDATE`
   * and the `INSERT` end and whether the listing re-read after them throws.
   */
  function Rotation(keys: seq<ApiKeyRow>, tenantId: string, t: KeyType, randomPart: string, newKeyId: string,
                    keyHash: string, now: int, outcome: WriteOutcome, readFailure: Option<string>)
    : (seq<ApiKeyRow>, Result<RotateApiKeyResult>)
  {
    match outcome
    case FirstWriteFails(message) => (keys, Err(message))
    case SecondWriteFails(message) => (Deactivate(keys, tenantId, Environment(t), now), Err(message))
    case BothWritten =>
      var k := GenerateApiKey(t, randomPart);
      var after := Deactivate(keys, tenantId, Environment(t), now) + [NewKeyRow(newKeyId, keyHash, k, t, tenantId, now)];
      if readFailure.Some? then (after, Err(readFailure.value))
      else (after, Ok(RotateApiKeyResult(k.fullKey, GetApiKeys(ActiveKeysOf(after, tenantId)))))
  }

  /**
   * `rotateApiKey(tenantId, {type})` with the random key part, the new row id
   * and the hash function supplied: deactivate the environment's keys, insert
   * the new one, and hand back the full key (shown once) with the tenant's
   * listing re-read. The `UPDATE` and the `INSERT` run without a transaction,
   * so when the `INSERT` throws the deactivation stays; when the re-read
   * throws, both writes stay and the full key is never handed back.
   */
  method RotateApiKey(db: Database, tenantId: string, t: KeyType, randomPart: string, newKeyId: string,
                      hash: string -> string, now: int, outcome: WriteOutcome, readFailure: Option<string>)
    returns (r: Result<RotateApiKeyResult>)
    modifies db
    ensures db.tenants == old(db.tenants) && db.billingEvents == old(db.billingEvents) && db.auditLogs == old(db.auditLogs)
    ensures (db.apiKeys, r) == Rotation(old(db.apiKeys), tenantId, t, randomPart, newKeyId,
                                        hash(GenerateApiKey(t, randomPart).fullKey), now, outcome, readFailure)
  {
    var k := GenerateApiKey(t, randomPart);
    var keyHash := hash(k.fullKey);
    if outcome.FirstWriteFails? {
      return Err(outcome.message);
    }
    DeactivateKeys(db, tenantId, Environment(t), now);
    if outcome.SecondWriteFails? {
      return Err(outcome.message);
    }
    InsertKey(db, NewKeyRow(newKeyId, keyHash, k, t, tenantId, now));
    var keys := ListApiKeys(db, tenantId, readFailure);
    if keys.Err? {
      return Err(keys.message);
    }
    r := Ok(RotateApiKeyResult(k.fullKey, keys.value));
  }

  /**
   * The listing a successful rotation returns starts with the new key, and
   * that key is the one the dashboard shows for its kind.
   */
  lemma RotationListsNewKeyFirst(keys: seq<ApiKeyRow>, tenantId: string, t: KeyType, newRow: ApiKeyRow, now: int)
    requires newRow.tenantId == tenantId && newRow.environment == Environment(t) && newRow.isActive
    ensures var listing := GetApiKeys(ActiveKeysOf(Deactivate(keys, tenantId, Environment(t), now) + [newRow], tenantId));
            |listing.keys| >= 1 && listing.keys[0] == KeyView(newRow)
            && (t == Test ==> listing.testKey == Some(MaskedKey(newRow.keyPrefix, newRow.lastFourChars)))
            && (t == Live ==> listing.liveKeyMasked == MaskedKey(newRow.keyPrefix, newRow.lastFourChars))
  {
    var after := Deactivate(keys, tenantId, Environment(t), now) + [newRow];
    assert after[..|after| - 1] == Deactivate(keys, tenantId, Environment(t), now);
    var rows := ActiveKeysOf(after, tenantId);
    assert rows[0] == newRow;
    var listing := GetApiKeys(rows);
    assert listing.keys[0] == KeyView(newRow);
    if t == Test {
      assert IsTestKey(listing.keys[0]);
    } else {
      assert IsLiveKey(listing.keys[0]);
    }
  }

  /**
   * When the `INSERT` of a rotation throws, the tenant is left with no active
   * key in the rotated environment: the listing holds none.
   */
  lemma FailedInsertLeavesNoActiveKey(keys: seq<ApiKeyRow>, tenantId: string, t: KeyType, now: int)
    ensures var listed := ActiveKeysOf(Deactivate(keys, tenantId, Environment(t), now), tenantId);
            forall k :: 0 <= k < |listed| ==> listed[k].environment != Environment(t)
  {
    var after := Deactivate(keys, tenantId, Environment(t), now);
    var listed := ActiveKeysOf(after, tenantId);
    forall k | 0 <= k < |listed|
      ensures listed[k].environment != Environment(t)
    {
      var j :| 0 <= j < |after| && after[j] == listed[k];
    }
  }

  /**
   * What each ending of a rotation leaves: an `UPDATE` that throws changes
   * nothing; an `INSERT` that throws leaves the environment without an active
   * key; when both writes persist, the new key is the environment's only
   * active key. The full key is then returned once, with a listing that shows
   * its masked form first, unless the re-read throws: the key is then stored
   * and active but lost to the caller.
   */
  lemma RotationOutcomes(keys: seq<ApiKeyRow>, tenantId: string, t: KeyType, randomPart: string, newKeyId: string,
                         keyHash: string, now: int, outcome: WriteOutcome, readFailure: Option<string>)
    ensures var (after, r) := Rotation(keys, tenantId, t, randomPart, newKeyId, keyHash, now, outcome, readFailure);
            var k := GenerateApiKey(t, randomPart);
            (r.Err? <==> !outcome.BothWritten? || readFailure.Some?)
            && (outcome.FirstWriteFails? ==> after == keys && r == Err(outcome.message))
            && (outcome.SecondWriteFails? ==>
                  r == Err(outcome.message)
                  && forall row :: row in after && row.tenantId == tenantId && row.isActive ==> row.environment != Environment(t))
            && (outcome.BothWritten? ==>
                  |after| == |keys| + 1 && after[|keys|].keyHash == keyHash
                  && (forall j :: 0 <= j < |after| ==>
                        (after[j].isActive && after[j].tenantId == tenantId && after[j].environment == Environment(t)
                         <==> j == |keys|)))
            && (outcome.BothWritten? && readFailure.Some? ==> r == Err(readFailure.value))
            && (outcome.BothWritten? && readFailure.None? ==>
                  r.Ok? && r.value.newKey == k.fullKey
                  && |r.value.keys.keys| >= 1 && r.value.keys.keys[0].maskedKey == MaskedKey(k.prefix, k.lastFour))
  {
    var k := GenerateApiKey(t, randomPart);
    var newRow := NewKeyRow(newKeyId, keyHash, k, t, tenantId, now);
    match outcome
    case FirstWriteFails(_) =>
    case SecondWriteFails(_) =>
      var after := Deactivate(keys, tenantId, Environment(t), now);
      FailedInsertLeavesNoActiveKey(keys, tenantId, t, now);
      forall row | row in after && row.tenantId == tenantId && row.isActive
        ensures row.environment != Environment(t)
      {
        var listed := ActiveKeysOf(after, tenantId);
        var j :| 0 <= j < |listed| && listed[j] == row;
      }
    case BothWritten =>
      RotationLeavesOneActiveKey(keys, tenantId, t, newRow, now);
      RotationListsNewKeyFirst(keys, tenantId, t, newRow, now);
  }

  // ---------------------------------------------------------------------------
  // getUsageLogs: filter builder
  // ---------------------------------------------------------------------------

  datatype UsageLogsOptions = UsageLogsOptions(
    limit: Option<int>, cursor: Option<string>, startDate: Option<int>, endDate: Option<int>,
    endpoint: Option<string>, statusCode: Option<int>, httpMethod: Option<string>)

  /** A query parameter value. */
  datatype Param = TextParam(s: string) | NumberParam(n: int) | TimeParam(t: int)

  /** A `WHERE` condition with the numbers of the placeholders it uses. */
  datatype Condition =
    | TenantIs(p: nat)
    | IdBefore(p: nat)
    | CreatedBetween(p: nat, q: nat)
    | EndpointLike(p: nat)
    | StatusIs(p: nat)
    | MethodIs(p: nat)

  /** What a condition means once its placeholders are bound. */
  datatype Filter =
    | ForTenant(tenantId: string)
    | Before(cursor: string)
    | Between(start: int, end: int)
    | EndpointMatches(pattern: string)
    | WithStatus(code: int)
    | WithMethod(httpMethod: string)

  /** The SQL text of a condition before its first placeholder. */
  function ConditionHead(c: Condition): string {
    match c
    case TenantIs(_) => "\"tenantId\" = "
    case IdBefore(_) => "id < "
    case CreatedBetween(_, _) => "\"createdAt\" BETWEEN "
    case EndpointLike(_) => "endpoint ILIKE "
    case StatusIs(_) => "\"statusCode\" = "
    case MethodIs(_) => "method = "
  }

  /** The SQL text of a condition, as pushed on `whereConditions`. */
  function ConditionSql(c: Condition): string {
    ConditionHead(c) + "$" + NatToString(c.p) + (if c.CreatedBetween? then " AND " + "$" + NatToString(c.q) else "")
  }

  /** The texts of the conditions, in order, as `whereConditions` holds them. */
  function ConditionTexts(cs: seq<Condition>): (r: seq<string>)
    ensures |r| == |cs| && forall k :: 0 <= k < |cs| ==> r[k] == ConditionSql(cs[k])
  {
    if cs == [] then [] else [ConditionSql(cs[0])] + ConditionTexts(cs[1..])
  }

  /** `part` sits right after `before` in `before + part + after`. */
  lemma OccursBetween(before: string, part: string, after: string)
    ensures OccursAt(before + part + after, part, |before|)
  {
    var s := before + part + after;
    assert s[|before|..|before| + |part|] == part;
  }

  /** The text of a condition names each of its placeholders as `$n`. */
  lemma ConditionSqlNamesPlaceholders(c: Condition)
    ensures forall k :: 0 <= k < |Placeholders([c])| ==> Contains(ConditionSql(c), "$" + NatToString(Placeholders([c])[k]))
  {
    assert [c][..0] == [];
    var text := ConditionSql(c);
    var first := "$" + NatToString(c.p);
    var rest := if c.CreatedBetween? then " AND " + "$" + NatToString(c.q) else "";
    assert text == ConditionHead(c) + first + rest;
    OccursBetween(ConditionHead(c), first, rest);
    ContainsIff(text, first);
    if c.CreatedBetween? {
      var second := "$" + NatToString(c.q);
      assert text == ConditionHead(c) + first + " AND " + second + "";
      OccursBetween(ConditionHead(c) + first + " AND ", second, "");
      ContainsIff(text, second);
    }
  }

  /** The placeholders of the conditions, in the order they appear. */
  function Placeholders(cs: seq<Condition>): seq<nat> {
    if cs == [] then []
    else
      Placeholders(cs[..|cs| - 1]) +
      match cs[|cs| - 1]
      case CreatedBetween(p, q) => [p, q]
      case TenantIs(p) => [p]
      case IdBefore(p) => [p]
      case EndpointLike(p) => [p]
      case StatusIs(p) => [p]
      case MethodIs(p) => [p]
  }

  /** Binding a condition's placeholders (`$n` is `params[n - 1]`). */
  function Bind(c: Condition, params: seq<Param>): Option<Filter> {
    match c
    case TenantIs(p) => if 1 <= p <= |params| && params[p - 1].TextParam? then Some(ForTenant(params[p - 1].s)) else None
    case IdBefore(p) => if 1 <= p <= |params| && params[p - 1].TextParam? then Some(Before(params[p - 1].s)) else None
    case CreatedBetween(p, q) =>
      if 1 <= p <= |params| && 1 <= q <= |params| && params[p - 1].TimeParam? && params[q - 1].TimeParam?
      then Some(Between(params[p - 1].t, params[q - 1].t)) else None
    case EndpointLike(p) =>
      if 1 <= p <= |params| && params[p - 1].TextParam? then Some(EndpointMatches(params[p - 1].s)) else None
    case StatusIs(p) => if 1 <= p <= |params| && params[p - 1].NumberParam? then Some(WithStatus(params[p - 1].n)) else None
    case MethodIs(p) => if 1 <= p <= |params| && params[p - 1].TextParam? then Some(WithMethod(params[p - 1].s)) else None
  }

  function CursorFilter(o: UsageLogsOptions): seq<Filter> {
    if Truthy(o.cursor) then [Before(o.cursor.value)] else []
  }

  function DateFilter(o: UsageLogsOptions): seq<Filter> {
    if o.startDate.Some? && o.endDate.Some? then [Between(o.startDate.value, o.endDate.value)] else []
  }

  function EndpointFilter(o: UsageLogsOptions): seq<Filter> {
    if Truthy(o.endpoint) then [EndpointMatches("%" + o.endpoint.value + "%")] else []
  }

  function StatusFilter(o: UsageLogsOptions): seq<Filter> {
    if o.statusCode.Some? && o.statusCode.value != 0 then [WithStatus(o.statusCode.value)] else []
  }

  function MethodFilter(o: UsageLogsOptions): seq<Filter> {
    if Truthy(o.httpMethod) then [WithMethod(o.httpMethod.value)] else []
  }

  /** The filters the options ask for, in the order they are applied. */
  function UsageFilters(tenantId: string, o: UsageLogsOptions): seq<Filter> {
    [ForTenant(tenantId)] + CursorFilter(o) + DateFilter(o) + EndpointFilter(o) + StatusFilter(o) + MethodFilter(o)
  }

  /** `options.limit || 50`: the requested limit, or 50 when it is absent or 0. */
  function PageLimit(o: UsageLogsOptions): (limit: int)
    ensures limit != 0
    ensures limit == 50 || Some(limit) == o.limit
    ensures (o.limit.None? || o.limit.value >= 0) ==> limit >= 1
  {
    if o.limit.Some? && o.limit.value != 0 then o.limit.value else 50
  }

  /** The placeholders `$1 … $n` in order. */
  predicate Consecutive(ps: seq<nat>) {
    forall k :: 0 <= k < |ps| ==> ps[k] == k + 1
  }

  lemma PlaceholdersAppend(cs: seq<Condition>, c: Condition)
    ensures Placeholders(cs + [c]) == Placeholders(cs) + Placeholders([c])
  {
    assert (cs + [c])[..|cs + [c]| - 1] == cs;
    assert [c][..0] == [];
  }

  /** Binding a condition is unaffected by parameters appended later. */
  lemma BindAppend(c: Condition, params: seq<Param>, extra: seq<Param>)
    requires Bind(c, params).Some?
    ensures Bind(c, params + extra) == Bind(c, params)
  {
  }

  /** The builder's state: conditions and the filters they stand for in step,
      placeholders `$1 … $n` over `n` parameters, and `paramIndex` the next free one. */
  ghost predicate Built(conditions: seq<Condition>, params: seq<Param>, filters: seq<Filter>, paramIndex: nat) {
    |conditions| == |filters|
    && (forall k :: 0 <= k < |conditions| ==> Bind(conditions[k], params) == Some(filters[k]))
    && Consecutive(Placeholders(conditions)) && |Placeholders(conditions)| == |params|
    && paramIndex == |params| + 1
  }

  /** Pushing one condition whose placeholders are the next free ones keeps the builder's state. */
  lemma {:induction false} BuiltAppend(conditions: seq<Condition>, params: seq<Param>, filters: seq<Filter>,
                                       paramIndex: nat, c: Condition, extra: seq<Param>, f: Filter)
    requires Built(conditions, params, filters, paramIndex)
    requires |Placeholders([c])| == |extra| && forall k :: 0 <= k < |extra| ==> Placeholders([c])[k] == paramIndex + k
    requires Bind(c, params + extra) == Some(f)
    ensures Built(conditions + [c], params + extra, filters + [f], paramIndex + |extra|)
  {
    PlaceholdersAppend(conditions, c);
    forall k | 0 <= k < |conditions| ensures Bind((conditions + [c])[k], params + extra) == Some((filters + [f])[k]) {
      BindAppend(conditions[k], params, extra);
    }
  }

  /** One `conditions.push(...)` with its parameters: the builder's state is kept. */
  method Push(conditions: seq<Condition>, params: seq<Param>, paramIndex: nat, ghost filters: seq<Filter>,
              c: Condition, extra: seq<Param>, ghost f: Filter)
    returns (conditions': seq<Condition>, params': seq<Param>, paramIndex': nat)
    requires Built(conditions, params, filters, paramIndex)
    requires |Placeholders([c])| == |extra| && forall k :: 0 <= k < |extra| ==> Placeholders([c])[k] == paramIndex + k
    requires Bind(c, params + extra) == Some(f)
    ensures Built(conditions', params', filters + [f], paramIndex')
    ensures conditions' == conditions + [c] && params' == params + extra
  {
    BuiltAppend(conditions, params, filters, paramIndex, c, extra, f);
    conditions', params', paramIndex' := conditions + [c], params + extra, paramIndex + |extra|;
  }

  /** `if (cursor)`: `id < $n`. */
  method AddCursorCondition(conditions: seq<Condition>, params: seq<Param>, paramIndex: nat, ghost filters: seq<Filter>,
                           options: UsageLogsOptions)
    returns (conditions': seq<Condition>, params': seq<Param>, paramIndex': nat)
    requires Built(conditions, params, filters, paramIndex)
    ensures Built(conditions', params', filters + CursorFilter(options), paramIndex')
  {
    conditions', params', paramIndex' := conditions, params, paramIndex;
    if Truthy(options.cursor) {
      conditions', params', paramIndex' :=
        Push(conditions, params, paramIndex, filters, IdBefore(paramIndex), [TextParam(options.cursor.value)], Before(options.cursor.value));
    }
    assert filters + CursorFilter(options) == filters + (if Truthy(options.cursor) then [Before(options.cursor.value)] else []);
  }

  /** `if (startDate && endDate)`: `"createdAt" BETWEEN $n AND $n+1`. */
  method AddDateRangeCondition(conditions: seq<Condition>, params: seq<Param>, paramIndex: nat, ghost filters: seq<Filter>,
                           options: UsageLogsOptions)
    returns (conditions': seq<Condition>, params': seq<Param>, paramIndex': nat)
    requires Built(conditions, params, filters, paramIndex)
    ensures Built(conditions', params', filters + DateFilter(options), paramIndex')
  {
    conditions', params', paramIndex' := conditions, params, paramIndex;
    if options.startDate.Some? && options.endDate.Some? {
      conditions', params', paramIndex' :=
        Push(conditions, params, paramIndex, filters, CreatedBetween(paramIndex, paramIndex + 1), [TimeParam(options.startDate.value), TimeParam(options.endDate.value)], Between(options.startDate.value, options.endDate.value));
    }
    assert filters + DateFilter(options) == filters + (if options.startDate.Some? && options.endDate.Some? then [Between(options.startDate.value, options.endDate.value)] else []);
  }

  /** `if (endpoint)`: `endpoint ILIKE $n` bound to `%endpoint%`. */
  method AddEndpointCondition(conditions: seq<Condition>, params: seq<Param>, paramIndex: nat, ghost filters: seq<Filter>,
                           options: UsageLogsOptions)
    returns (conditions': seq<Condition>, params': seq<Param>, paramIndex': nat)
    requires Built(conditions, params, filters, paramIndex)
    ensures Built(conditions', params', filters + EndpointFilter(options), paramIndex')
  {
    conditions', params', paramIndex' := conditions, params, paramIndex;
    if Truthy(options.endpoint) {
      conditions', params', paramIndex' :=
        Push(conditions, params, paramIndex, filters, EndpointLike(paramIndex), [TextParam("%" + options.endpoint.value + "%")], EndpointMatches("%" + options.endpoint.value + "%"));
    }
    assert filters + EndpointFilter(options) == filters + (if Truthy(options.endpoint) then [EndpointMatches("%" + options.endpoint.value + "%")] else []);
  }

  /** `if (statusCode)`: `"statusCode" = $n`. */
  method AddStatusCondition(conditions: seq<Condition>, params: seq<Param>, paramIndex: nat, ghost filters: seq<Filter>,
                           options: UsageLogsOptions)
    returns (conditions': seq<Condition>, params': seq<Param>, paramIndex': nat)
    requires Built(conditions, params, filters, paramIndex)
    ensures Built(conditions', params', filters + StatusFilter(options), paramIndex')
  {
    conditions', params', paramIndex' := conditions, params, paramIndex;
    if options.statusCode.Some? && options.statusCode.value != 0 {
      conditions', params', paramIndex' :=
        Push(conditions, params, paramIndex, filters, StatusIs(paramIndex), [NumberParam(options.statusCode.value)], WithStatus(options.statusCode.value));
    }
    assert filters + StatusFilter(options) == filters + (if options.statusCode.Some? && options.statusCode.value != 0 then [WithStatus(options.statusCode.value)] else []);
  }

  /** `if (method)`: `method = $n`. */
  method AddMethodCondition(conditions: seq<Condition>, params: seq<Param>, paramIndex: nat, ghost filters: seq<Filter>,
                           options: UsageLogsOptions)
    returns (conditions': seq<Condition>, params': seq<Param>, paramIndex': nat)
    requires Built(conditions, params, filters, paramIndex)
    ensures Built(conditions', params', filters + MethodFilter(options), paramIndex')
  {
    conditions', params', paramIndex' := conditions, params, paramIndex;
    if Truthy(options.httpMethod) {
      conditions', params', paramIndex' :=
        Push(conditions, params, paramIndex, filters, MethodIs(paramIndex), [TextParam(options.httpMethod.value)], WithMethod(options.httpMethod.value));
    }
    assert filters + MethodFilter(options) == filters + (if Truthy(options.httpMethod) then [WithMethod(options.httpMethod.value)] else []);
  }

  /**
   * The condition list and parameter list `getUsageLogs` builds: binding each
   * condition's placeholders gives back exactly the requested filters; the
   * placeholders are `$1 … $n` in order with `n` parameters; `LIMIT` takes the
   * next placeholder, bound to one more than the page size. The `WHERE` clause
   * is the conditions' texts joined by `AND`.
   */
  method BuildUsageLogsQuery(tenantId: string, options: UsageLogsOptions)
    returns (conditions: seq<Condition>, params: seq<Param>, paramIndex: nat, limitParam: Param, whereClause: string)
    ensures |conditions| == |UsageFilters(tenantId, options)|
    ensures forall k :: 0 <= k < |conditions| ==> Bind(conditions[k], params) == Some(UsageFilters(tenantId, options)[k])
    ensures Consecutive(Placeholders(conditions)) && |Placeholders(conditions)| == |params|
    ensures paramIndex == |params| + 1
    ensures limitParam == NumberParam(PageLimit(options) + 1)
    ensures whereClause == Join(" AND ", ConditionTexts(conditions))
  {
    ghost var filters: seq<Filter> := [ForTenant(tenantId)];
    conditions := [TenantIs(1)];
    params := [TextParam(tenantId)];
    paramIndex := 2;
    assert Placeholders(conditions) == [1] by { assert conditions[..0] == []; }

    conditions, params, paramIndex := AddCursorCondition(conditions, params, paramIndex, filters, options);
    filters := filters + CursorFilter(options);
    conditions, params, paramIndex := AddDateRangeCondition(conditions, params, paramIndex, filters, options);
    filters := filters + DateFilter(options);
    conditions, params, paramIndex := AddEndpointCondition(conditions, params, paramIndex, filters, options);
    filters := filters + EndpointFilter(options);
    conditions, params, paramIndex := AddStatusCondition(conditions, params, paramIndex, filters, options);
    filters := filters + StatusFilter(options);
    conditions, params, paramIndex := AddMethodCondition(conditions, params, paramIndex, filters, options);
    filters := filters + MethodFilter(options);
    limitParam := NumberParam(PageLimit(options) + 1);
    whereClause := Join(" AND ", ConditionTexts(conditions));
  }

  /** The date range is applied only when both ends are given. */
  lemma DateRangeNeedsBothEnds(tenantId: string, o: UsageLogsOptions)
    ensures (exists k :: 0 <= k < |UsageFilters(tenantId, o)| && UsageFilters(tenantId, o)[k].Between?)
            <==> o.startDate.Some? && o.endDate.Some?
  {
    var fs := UsageFilters(tenantId, o);
    if o.startDate.Some? && o.endDate.Some? {
      var k := if Truthy(o.cursor) then 2 else 1;
      assert fs[k].Between?;
    }
  }

  // ---------------------------------------------------------------------------
  // getUsageLogs: pagination and row defaults
  // ---------------------------------------------------------------------------

  /** A row of the usage-log query; SQL NULL is `None`. */
  datatype UsageLogRow = UsageLogRow(
    id: string, timestamp: int, endpoint: Option<string>, status: Option<int>,
    cost: real, durationMs: Option<int>, httpMethod: Option<string>,
    ipAddress: Option<string>, userAgent: Option<string>)

  datatype Page = Page(logs: seq<UsageLogRow>, hasMore: bool, nextCursor: Option<string>)

  /** Splitting the `limit + 1` fetched rows into a page and its continuation. */
  function Paginate(rows: seq<UsageLogRow>, limit: int): (page: Page)
    ensures page.hasMore <==> |rows| > limit
    ensures page.logs == if page.hasMore && rows != [] then rows[..|rows| - 1] else rows
    ensures page.nextCursor.Some? <==> page.hasMore && page.logs != []
    ensures page.nextCursor.Some? ==> page.nextCursor.value == page.logs[|page.logs| - 1].id
  {
    var hasMore := |rows| > limit;
    var logs := if hasMore && rows != [] then rows[..|rows| - 1] else rows;
    Page(logs, hasMore, if hasMore && logs != [] then Some(logs[|logs| - 1].id) else None)
  }

  /** With at most `limit + 1` rows fetched (the query's `LIMIT`), a page holds
      at most `limit` rows, a prefix of what was fetched, and continues from
      its last row exactly when a further row was fetched. `PageLimit` never
      gives 0, and gives at least 1 unless a negative limit was requested. */
  lemma PageWithinLimit(rows: seq<UsageLogRow>, limit: int)
    requires limit >= 1 && |rows| <= limit + 1
    ensures var page := Paginate(rows, limit);
            |page.logs| <= limit && page.logs <= rows
            && (page.hasMore <==> |rows| == limit + 1)
            && (page.hasMore ==> |page.logs| == limit && page.nextCursor == Some(rows[limit - 1].id))
  {
  }

  /** A usage log as returned to the dashboard. */
  datatype UsageLog = UsageLog(id: string, timestamp: int, endpoint: string, status: int, cost: real,
                               durationMs: int, httpMethod: string,
                               ipAddress: Option<string>, userAgent: Option<string>)

  /** The row mapping with its fallbacks for missing or falsy columns. */
  function UsageLogOf(row: UsageLogRow): UsageLog {
    UsageLog(row.id, row.timestamp,
             if Truthy(row.endpoint) then row.endpoint.value else "/api/unknown",
             if row.status.Some? && row.status.value != 0 then row.status.value else 200,
             row.cost,
             if row.durationMs.Some? then row.durationMs.value else 0,
             if Truthy(row.httpMethod) then row.httpMethod.value else "POST",
             row.ipAddress, row.userAgent)
  }

  /** A mapped log never has an empty endpoint or method nor a zero status; a
      present, non-empty column is passed through unchanged, and so are the
      id, the time, the cost and the client's address and user agent. */
  lemma UsageLogDefaults(row: UsageLogRow)
    ensures UsageLogOf(row).endpoint != "" && UsageLogOf(row).httpMethod != "" && UsageLogOf(row).status != 0
    ensures Truthy(row.endpoint) ==> UsageLogOf(row).endpoint == row.endpoint.value
    ensures !Truthy(row.endpoint) ==> UsageLogOf(row).endpoint == "/api/unknown"
    ensures !(row.status.Some? && row.status.value != 0) ==> UsageLogOf(row).status == 200
    ensures !Truthy(row.httpMethod) ==> UsageLogOf(row).httpMethod == "POST"
    ensures row.durationMs.None? ==> UsageLogOf(row).durationMs == 0
    ensures row.durationMs.Some? ==> UsageLogOf(row).durationMs == row.durationMs.value
    ensures row.status.Some? && row.status.value != 0 ==> UsageLogOf(row).status == row.status.value
    ensures Truthy(row.httpMethod) ==> UsageLogOf(row).httpMethod == row.httpMethod.value
    ensures UsageLogOf(row).id == row.id && UsageLogOf(row).timestamp == row.timestamp && UsageLogOf(row).cost == row.cost
    ensures UsageLogOf(row).ipAddress == row.ipAddress && UsageLogOf(row).userAgent == row.userAgent
  {
  }

  // ---------------------------------------------------------------------------
  // Tenant profile
  // ---------------------------------------------------------------------------

  datatype TenantProfile = TenantProfile(
    id: string, email: string, fullName: string, company: Option<string>, website: Option<string>,
    plan: string, status: TenantStatus, monthlyQuota: int, currentUsage: int,
    trialEndsAt: Option<int>, subscriptionStartedAt: Option<int>)

  /** `getTenantProfile(tenantId)` */
  function GetTenantProfile(tenants: map<string, Tenant>, tenantId: string): (r: Result<TenantProfile>)
    ensures r.Err? <==> tenantId !in tenants
    ensures r.Err? ==> r.message == "Tenant not found"
  {
    if tenantId !in tenants then Err("Tenant not found")
    else
      var t := tenants[tenantId];
      Ok(TenantProfile(t.id, t.email, if t.fullName.Some? then t.fullName.value else "", t.company, t.website,
                       t.plan, t.status, if t.monthlyQuota != 0 then t.monthlyQuota else 10000,
                       t.currentUsage, t.trialEndsAt, t.subscriptionStartedAt))
  }

  /**
   * The profile of a stored tenant: a missing or empty name reads as "", a
   * zero quota as the default 10000; every other field is the stored one.
   */
  lemma TenantProfileDefaults(tenants: map<string, Tenant>, tenantId: string)
    requires tenantId in tenants
    ensures var r := GetTenantProfile(tenants, tenantId);
            var t := tenants[tenantId];
            r.Ok?
            && r.value.fullName == (if Truthy(t.fullName) then t.fullName.value else "")
            && r.value.monthlyQuota == (if t.monthlyQuota == 0 then 10000 else t.monthlyQuota)
            && r.value.monthlyQuota != 0
            && r.value.id == t.id && r.value.email == t.email
            && r.value.company == t.company && r.value.website == t.website
            && r.value.plan == t.plan && r.value.status == t.status && r.value.currentUsage == t.currentUsage
            && r.value.trialEndsAt == t.trialEndsAt && r.value.subscriptionStartedAt == t.subscriptionStartedAt
  {
  }

  /** `COALESCE(value || null, column)` */
  function Coalesce(supplied: Option<string>, stored: Option<string>): (r: Option<string>)
    ensures Truthy(supplied) ==> r == supplied
    ensures !Truthy(supplied) ==> r == stored
  {
    if Truthy(supplied) then supplied else stored
  }

  datatype ProfileUpdate = ProfileUpdate(fullName: Option<string>, company: Option<string>, website: Option<string>)

  /** The tenant row after the `UPDATE`. */
  function ApplyProfileUpdate(t: Tenant, u: ProfileUpdate, now: int): Tenant {
    t.(fullName := Coalesce(u.fullName, t.fullName), company := Coalesce(u.company, t.company),
       website := Coalesce(u.website, t.website), updatedAt := now)
  }

  /** A stored profile field can never be cleared: it stays present through any
      update. Repeating an update changes nothing further but the timestamp. */
  lemma ProfileFieldsNeverCleared(t: Tenant, u: ProfileUpdate, now: int, later: int)
    ensures var t1 := ApplyProfileUpdate(t, u, now);
            (t.fullName.Some? ==> t1.fullName.Some?) && (t.company.Some? ==> t1.company.Some?)
            && (t.website.Some? ==> t1.website.Some?)
            && ApplyProfileUpdate(t1, u, later) == t1.(updatedAt := later)
  {
  }

  /** `getTenantProfile(tenantId)` run on the tenants table; `failure` is the
      error its query throws, if any. */
  method ReadTenantProfile(db: Database, tenantId: string, failure: Option<string>) returns (r: Result<TenantProfile>)
    ensures failure.Some? ==> r == Err(failure.value)
    ensures failure.None? ==> r == GetTenantProfile(db.tenants, tenantId)
  {
    if failure.Some? {
      return Err(failure.value);
    }
    r := GetTenantProfile(db.tenants, tenantId);
  }

  /**
   * `updateTenantProfile(tenantId, data)`: the `UPDATE` (which touches no row
   * for an unknown id), then the re-read profile. `updateFailure` and
   * `readFailure` are the errors the two queries throw, if any; a re-read that
   * throws leaves the update in place.
   */
  method UpdateTenantProfile(db: Database, tenantId: string, u: ProfileUpdate, now: int,
                             updateFailure: Option<string>, readFailure: Option<string>)
    returns (r: Result<TenantProfile>)
    requires db.Valid()
    modifies db
    ensures db.Valid()
    ensures db.apiKeys == old(db.apiKeys) && db.billingEvents == old(db.billingEvents) && db.auditLogs == old(db.auditLogs)
    ensures updateFailure.Some? ==> db.tenants == old(db.tenants) && r == Err(updateFailure.value)
    ensures updateFailure.None? ==>
              db.tenants == (if tenantId in old(db.tenants)
                             then old(db.tenants)[tenantId := ApplyProfileUpdate(old(db.tenants)[tenantId], u, now)]
                             else old(db.tenants))
    ensures updateFailure.None? && readFailure.Some? ==> r == Err(readFailure.value)
    ensures updateFailure.None? && readFailure.None? ==>
              (tenantId !in old(db.tenants) ==> r == Err("Tenant not found"))
              && (tenantId in old(db.tenants) ==> r.Ok? && r == GetTenantProfile(db.tenants, tenantId))
  {
    if updateFailure.Some? {
      return Err(updateFailure.value);
    }
    if tenantId in db.tenants {
      db.tenants := db.tenants[tenantId := ApplyProfileUpdate(db.tenants[tenantId], u, now)];
    }
    r := ReadTenantProfile(db, tenantId, readFailure);
  }
}

=== FILE: audit.dfy ===
/**
 * The audit trail: request metadata from proxy headers, the record
 * `createAuditLog` stores (with its defaults and the tenant e-mail lookup),
 * the per-event helpers, and the filter `getTenantAuditLogs` builds.
 */
module Audit {
  import opened Wrappers
  import opened Store
  import RateLimit
  import Text

  // ---------------------------------------------------------------------------
  // getRequestMetadata
  // ---------------------------------------------------------------------------

  datatype RequestMetadata = RequestMetadata(ipAddress: string, userAgent: string)

  /** `headers.get(name) || fallback` */
  function HeaderOr(h: RateLimit.Headers, name: string, fallback: string): (v: string)
    ensures RateLimit.HasHeader(h, name) ==> v == h[name]
    ensures !RateLimit.HasHeader(h, name) ==> v == fallback
  {
    if RateLimit.HasHeader(h, name) then h[name] else fallback
  }

  /** The trimmed first element of `x-forwarded-for`, or "" when the header is absent. */
  function ForwardedFirst(h: RateLimit.Headers): string {
    if "x-forwarded-for" in h then RateLimit.ForwardedClient(h) else ""
  }

  /** `getRequestMetadata(req)` */
  function GetRequestMetadata(h: RateLimit.Headers): RequestMetadata {
    var ip :=
      if RateLimit.HasHeader(h, "cf-connecting-ip") then h["cf-connecting-ip"]
      else if ForwardedFirst(h) != "" then ForwardedFirst(h)
      else HeaderOr(h, "x-real-ip", HeaderOr(h, "x-client-ip", "unknown"));
    RequestMetadata(ip, HeaderOr(h, "user-agent", "unknown"))
  }

  /** The address comes from `cf-connecting-ip`, then the first forwarded
      address, then `x-real-ip`, then `x-client-ip`, then `unknown`; an empty
      value falls through to the next source. */
  lemma RequestIpPrecedence(h: RateLimit.Headers)
    ensures var ip := GetRequestMetadata(h).ipAddress;
            (RateLimit.HasHeader(h, "cf-connecting-ip") ==> ip == h["cf-connecting-ip"])
            && ((!RateLimit.HasHeader(h, "cf-connecting-ip") && ForwardedFirst(h) != "") ==> ip == ForwardedFirst(h))
            && ((!RateLimit.HasHeader(h, "cf-connecting-ip") && ForwardedFirst(h) == ""
                 && RateLimit.HasHeader(h, "x-real-ip")) ==> ip == h["x-real-ip"])
            && ((!RateLimit.HasHeader(h, "cf-connecting-ip") && ForwardedFirst(h) == ""
                 && !RateLimit.HasHeader(h, "x-real-ip") && RateLimit.HasHeader(h, "x-client-ip")) ==> ip == h["x-client-ip"])
            && ((!RateLimit.HasHeader(h, "cf-connecting-ip") && ForwardedFirst(h) == ""
                 && !RateLimit.HasHeader(h, "x-real-ip") && !RateLimit.HasHeader(h, "x-client-ip")) ==> ip == "unknown")
  {
  }

  /** Unlike the rate limiter's `getClientIp`, the audit metadata never carries
      an empty address or user agent. */
  lemma RequestMetadataNeverEmpty(h: RateLimit.Headers)
    ensures GetRequestMetadata(h).ipAddress != ""
    ensures GetRequestMetadata(h).userAgent != ""
  {
  }

  /** A single address, without commas or surrounding whitespace. */
  predicate PlainAddress(v: string) {
    |v| > 0 && ',' !in v && !Text.IsJsWhitespace(v[0]) && !Text.IsJsWhitespace(v[|v| - 1])
  }

  /** The two extractors disagree when Cloudflare and a proxy both set their
      header: the audit trail takes Cloudflare's address, the rate limiter the
      proxy's. */
  lemma ExtractorsDisagree(h: RateLimit.Headers, cf: string, forwarded: string)
    requires h == map["cf-connecting-ip" := cf, "x-forwarded-for" := forwarded]
    requires cf != "" && PlainAddress(forwarded)
    ensures GetRequestMetadata(h).ipAddress == cf
    ensures RateLimit.GetClientIp(h) == forwarded
  {
    PlainForwardedAddress(h);
    assert RateLimit.HasHeader(h, "cf-connecting-ip") && RateLimit.HasHeader(h, "x-forwarded-for");
  }

  /** A single forwarded address is taken as it is. */
  lemma PlainForwardedAddress(h: RateLimit.Headers)
    requires "x-forwarded-for" in h && PlainAddress(h["x-forwarded-for"])
    ensures RateLimit.ForwardedClient(h) == h["x-forwarded-for"]
  {
    assert Text.FirstField(h["x-forwarded-for"], ',') == h["x-forwarded-for"];
  }

  // ---------------------------------------------------------------------------
  // createAuditLog
  // ---------------------------------------------------------------------------

  /** The argument of `createAuditLog`; absent optional fields are `None`. */
  datatype AuditLogData = AuditLogData(
    tenantId: string,
    tenantEmail: Option<string>,
    action: AuditAction,
    entityType: Option<string>,
    entityId: Option<string>,
    changes: Option<map<string, string>>,
    ipAddress: Option<string>,
    userAgent: Option<string>,
    metadata: Option<map<string, string>>,
    succeeded: Option<bool>)

  /** The e-mail recorded: the supplied one, else the stored tenant's, else `unknown`. */
  function AuditEmail(data: AuditLogData, tenants: map<string, Tenant>): string {
    if data.tenantEmail.Some? && data.tenantEmail.value != "" then data.tenantEmail.value
    else if data.tenantId in tenants then OrElse(Some(tenants[data.tenantId].email), "unknown")
    else "unknown"
  }

  /** The row `createAuditLog` inserts at time `now`. */
  function BuildAuditRecord(data: AuditLogData, tenants: map<string, Tenant>, now: int): (r: AuditRecord)
    ensures r.adminUserId == data.tenantId && r.action == data.action && r.createdAt == now
    ensures r.adminEmail == AuditEmail(data, tenants)
    ensures r.entityType == OrElse(data.entityType, "Tenant")
    ensures r.entityId == OrElse(data.entityId, data.tenantId)
    ensures r.changes == (if data.changes.Some? then data.changes.value else map[])
    ensures r.ipAddress == OrElse(data.ipAddress, "unknown") && r.userAgent == OrElse(data.userAgent, "unknown")
  {
    AuditRecord(data.tenantId, AuditEmail(data, tenants), data.action, OrElse(data.entityType, "Tenant"),
                OrElse(data.entityId, data.tenantId), if data.changes.Some? then data.changes.value else map[],
                OrElse(data.ipAddress, "unknown"), OrElse(data.userAgent, "unknown"), now)
  }

  /** With every optional field absent, the record is attributed to the tenant
      itself with empty changes and unknown origin; the e-mail is the stored
      tenant's, or `unknown` for a tenant that does not exist. */
  lemma AuditRecordDefaults(tenantId: string, action: AuditAction, tenants: map<string, Tenant>, now: int)
    ensures var r := BuildAuditRecord(AuditLogData(tenantId, None, action, None, None, None, None, None, None, None),
                                      tenants, now);
            r.entityType == "Tenant" && r.entityId == tenantId && r.changes == map[]
            && r.ipAddress == "unknown" && r.userAgent == "unknown"
            && r.adminEmail == (if tenantId in tenants && tenants[tenantId].email != "" then tenants[tenantId].email
                                else "unknown")
  {
  }

  /** A supplied e-mail makes the stored tenants irrelevant: no lookup is needed. */
  lemma SuppliedEmailNeedsNoLookup(data: AuditLogData, tenants1: map<string, Tenant>, tenants2: map<string, Tenant>, now: int)
    requires data.tenantEmail.Some? && data.tenantEmail.value != ""
    ensures BuildAuditRecord(data, tenants1, now) == BuildAuditRecord(data, tenants2, now)
  {
  }

  /** The outcome flag and the free-form metadata are not part of the stored record. */
  lemma ResultAndMetadataNotStored(data: AuditLogData, metadata: Option<map<string, string>>, succeeded: Option<bool>,
                                   tenants: map<string, Tenant>, now: int)
    ensures BuildAuditRecord(data.(metadata := metadata, succeeded := succeeded), tenants, now)
            == BuildAuditRecord(data, tenants, now)
  {
  }

  /**
   * `createAuditLog(data)`: appends the record and returns it, or, when the
   * lookup or the insert fails (`fails`), returns nothing and writes nothing.
   * It never fails itself.
   */
  method CreateAuditLog(db: Database, data: AuditLogData, now: int, fails: bool) returns (r: Option<AuditRecord>)
    modifies db
    ensures db.tenants == old(db.tenants) && db.apiKeys == old(db.apiKeys) && db.billingEvents == old(db.billingEvents)
    ensures fails ==> r.None? && db.auditLogs == old(db.auditLogs)
    ensures !fails ==> r == Some(BuildAuditRecord(data, db.tenants, now)) && db.auditLogs == old(db.auditLogs) + [r.value]
  {
    if fails {
      return None;
    }
    var record := BuildAuditRecord(data, db.tenants, now);
    db.auditLogs := db.auditLogs + [record];
    return Some(record);
  }

  /** What a helper passes: optional `ipAddress` and `userAgent` spread over the entry. */
  datatype Origin = Origin(ipAddress: Option<string>, userAgent: Option<string>)

  /** `auditPasswordChanged(tenantId, metadata)` */
  function PasswordChangedEntry(tenantId: string, origin: Origin): (d: AuditLogData)
    ensures d.tenantId == tenantId && d.action == PasswordChanged && d.tenantEmail.None?
  {
    AuditLogData(tenantId, None, PasswordChanged, None, None, None, origin.ipAddress, origin.userAgent, None, Some(true))
  }

  /** `auditHcsCodeChanged(tenantId, metadata)` */
  function HcsCodeChangedEntry(tenantId: string, origin: Origin): (d: AuditLogData)
    ensures d.tenantId == tenantId && d.action == HcsCodeChanged && d.tenantEmail.None?
  {
    AuditLogData(tenantId, None, HcsCodeChanged, None, None, None, origin.ipAddress, origin.userAgent, None, Some(true))
  }

  // ---------------------------------------------------------------------------
  // getTenantAuditLogs
  // ---------------------------------------------------------------------------

  datatype TimeRange = TimeRange(gte: int, lte: int)

  /** The `where` object. */
  datatype AuditLogWhere = AuditLogWhere(adminUserId: string, action: Option<AuditAction>, createdAt: Option<TimeRange>)

  datatype AuditLogOptions = AuditLogOptions(
    limit: Option<int>, offset: Option<int>, action: Option<AuditAction>,
    startDate: Option<int>, endDate: Option<int>)

  datatype AuditLogQuery = AuditLogQuery(filter: AuditLogWhere, take: int, skip: int)

  /** `n || fallback` on an optional number. */
  function NumberOr(n: Option<int>, fallback: int): (r: int)
    ensures n.Some? && n.value != 0 ==> r == n.value
    ensures n.None? || n.value == 0 ==> r == fallback
  {
    if n.Some? && n.value != 0 then n.value else fallback
  }

  /** The query `getTenantAuditLogs(tenantId, options)` runs. */
  function TenantAuditLogQuery(tenantId: string, options: Option<AuditLogOptions>): AuditLogQuery {
    if options.None? then AuditLogQuery(AuditLogWhere(tenantId, None, None), 50, 0)
    else
      var o := options.value;
      var range := if o.startDate.Some? && o.endDate.Some? then Some(TimeRange(o.startDate.value, o.endDate.value)) else None;
      AuditLogQuery(AuditLogWhere(tenantId, o.action, range), NumberOr(o.limit, 50), NumberOr(o.offset, 0))
  }

  /** Whether a stored record satisfies the filter. */
  predicate Matches(r: AuditRecord, w: AuditLogWhere) {
    r.adminUserId == w.adminUserId
    && (w.action.Some? ==> r.action == w.action.value)
    && (w.createdAt.Some? ==> w.createdAt.value.gte <= r.createdAt <= w.createdAt.value.lte)
  }

  /**
   * The filter selects exactly the tenant's own records, of the requested
   * action when one is given, inside the date range only when both ends are
   * given; a lone start or end date filters nothing. Page size defaults to 50
   * and offset to 0.
   */
  lemma AuditLogQuerySelects(tenantId: string, options: Option<AuditLogOptions>, r: AuditRecord)
    ensures var q := TenantAuditLogQuery(tenantId, options);
            Matches(r, q.filter) <==>
              r.adminUserId == tenantId
              && (options.Some? && options.value.action.Some? ==> r.action == options.value.action.value)
              && (options.Some? && options.value.startDate.Some? && options.value.endDate.Some? ==>
                    options.value.startDate.value <= r.createdAt <= options.value.endDate.value)
    ensures var q := TenantAuditLogQuery(tenantId, options);
            q.take == (if options.Some? then NumberOr(options.value.limit, 50) else 50)
            && q.skip == (if options.Some? then NumberOr(options.value.offset, 0) else 0)
  {
  }
}

=== FILE: auth.dfy ===
/**
 * Sign-in with e-mail, password and HCS-U7 code, and the two callbacks that
 * carry the signed-in tenant's identity into the JWT and from there into the
 * session. The tenant lookup and the bcrypt comparison are parameters; either
 * may fail, which `authorize` swallows.
 */
module Auth {
  import opened Wrappers
  import opened Validation
  import opened Store

  /** The submitted form; a missing field is `None`. */
  datatype Credentials = Credentials(email: Option<string>, password: Option<string>, hcsCode: Option<string>)

  /** The user object handed back on success. */
  datatype AuthorizedUser = AuthorizedUser(
    id: string,
    email: string,
    name: string,
    company: Option<string>,
    plan: string,
    mustChangePassword: bool)

  /** One call of the hash comparison: the plain text and the stored hash. */
  datatype HashCheck = HashCheck(plain: string, hash: string)

  /** What `authorize` returned, with the e-mail addresses it looked up and the
      hash comparisons it made, in order. */
  datatype AuthTrace = AuthTrace(user: Option<AuthorizedUser>, lookups: seq<string>, checks: seq<HashCheck>)

  /** A status that refuses sign-in. */
  predicate IsBlocked(status: TenantStatus) {
    status == Suspended || status == Cancelled || status == Churned
  }

  /** `loginSchema.safeParse` over the submitted fields: every field must be present. */
  predicate CredentialsValid(isEmail: string -> bool, c: Credentials) {
    c.email.Some? && c.password.Some? && c.hcsCode.Some?
    && LoginIssues(isEmail, c.email.value, c.password.value, c.hcsCode.value) == []
  }

  /** `tenant.fullName || tenant.company || email` */
  function DisplayName(fullName: Option<string>, company: Option<string>, email: string): string {
    OrElse(fullName, OrElse(company, email))
  }

  /** The display name is the full name, else the company, else the e-mail,
      the first that is present and non-empty. */
  lemma DisplayNamePrecedence(fullName: Option<string>, company: Option<string>, email: string)
    ensures fullName.Some? && fullName.value != "" ==> DisplayName(fullName, company, email) == fullName.value
    ensures (fullName.None? || fullName.value == "") && company.Some? && company.value != "" ==>
              DisplayName(fullName, company, email) == company.value
    ensures (fullName.None? || fullName.value == "") && (company.None? || company.value == "") ==>
              DisplayName(fullName, company, email) == email
  {
  }

  /**
   * `authorize(credentials)`. `findByEmail` is the unique-e-mail tenant lookup
   * and `compare(plain, hash)` the hash comparison; `Err` stands for a thrown error.
   */
  function Authorize(credentials: Option<Credentials>, isEmail: string -> bool,
                     findByEmail: string -> Result<Option<Tenant>>,
                     compare: (string, string) -> Result<bool>): AuthTrace
  {
    if credentials.None? || !CredentialsValid(isEmail, credentials.value) then AuthTrace(None, [], [])
    else
      var email, password, hcsCode :=
        credentials.value.email.value, credentials.value.password.value, credentials.value.hcsCode.value;
      var found := findByEmail(email);
      if found.Err? || found.value.None? then AuthTrace(None, [email], [])
      else
        var tenant := found.value.value;
        if IsBlocked(tenant.status) then AuthTrace(None, [email], [])
        else
          var passwordCheck := HashCheck(password, tenant.passwordHash);
          var validPassword := compare(password, tenant.passwordHash);
          if validPassword.Err? || !validPassword.value then AuthTrace(None, [email], [passwordCheck])
          else
            var codeCheck := HashCheck(hcsCode, tenant.hcsCodeHash);
            var validCode := compare(hcsCode, tenant.hcsCodeHash);
            if validCode.Err? || !validCode.value then AuthTrace(None, [email], [passwordCheck, codeCheck])
            else
              AuthTrace(Some(AuthorizedUser(tenant.id, tenant.email, DisplayName(tenant.fullName, tenant.company, email),
                                            tenant.company, tenant.plan, tenant.mustChangePassword)),
                        [email], [passwordCheck, codeCheck])
  }

  /** Missing or invalid credentials are refused before the tenant table is read. */
  lemma InvalidCredentialsRefusedWithoutLookup(credentials: Option<Credentials>, isEmail: string -> bool,
                                               findByEmail: string -> Result<Option<Tenant>>,
                                               compare: (string, string) -> Result<bool>)
    requires credentials.None? || !CredentialsValid(isEmail, credentials.value)
    ensures Authorize(credentials, isEmail, findByEmail, compare) == AuthTrace(None, [], [])
  {
  }

  /** A suspended, cancelled or churned tenant is refused before any hash comparison. */
  lemma BlockedTenantRefusedBeforeHashing(credentials: Option<Credentials>, isEmail: string -> bool,
                                          findByEmail: string -> Result<Option<Tenant>>,
                                          compare: (string, string) -> Result<bool>)
    requires credentials.Some? && CredentialsValid(isEmail, credentials.value)
    requires findByEmail(credentials.value.email.value).Ok?
    requires findByEmail(credentials.value.email.value).value.Some?
    requires IsBlocked(findByEmail(credentials.value.email.value).value.value.status)
    ensures Authorize(credentials, isEmail, findByEmail, compare).user.None?
    ensures Authorize(credentials, isEmail, findByEmail, compare).checks == []
  {
  }

  /**
   * Sign-in succeeds exactly when the credentials are valid, the lookup finds a
   * tenant whose status is neither suspended, cancelled nor churned, and both
   * the password and then the code match their stored hashes; the user returned
   * is that tenant, named by its full name, company or the submitted e-mail.
   */
  lemma AuthorizeSucceedsIff(credentials: Option<Credentials>, isEmail: string -> bool,
                             findByEmail: string -> Result<Option<Tenant>>,
                             compare: (string, string) -> Result<bool>)
    ensures var trace := Authorize(credentials, isEmail, findByEmail, compare);
            trace.user.Some? <==>
              credentials.Some? && CredentialsValid(isEmail, credentials.value)
              && findByEmail(credentials.value.email.value).Ok?
              && findByEmail(credentials.value.email.value).value.Some?
              && var tenant := findByEmail(credentials.value.email.value).value.value;
                 !IsBlocked(tenant.status)
                 && compare(credentials.value.password.value, tenant.passwordHash) == Ok(true)
                 && compare(credentials.value.hcsCode.value, tenant.hcsCodeHash) == Ok(true)
    ensures var trace := Authorize(credentials, isEmail, findByEmail, compare);
            trace.user.Some? ==>
              var tenant := findByEmail(credentials.value.email.value).value.value;
              trace.user.value == AuthorizedUser(tenant.id, tenant.email,
                                                 DisplayName(tenant.fullName, tenant.company, credentials.value.email.value),
                                                 tenant.company, tenant.plan, tenant.mustChangePassword)
              && trace.checks == [HashCheck(credentials.value.password.value, tenant.passwordHash),
                                  HashCheck(credentials.value.hcsCode.value, tenant.hcsCodeHash)]
  {
  }

  /** The password is always compared first, and the code only after the password matched. */
  lemma PasswordCheckedFirst(credentials: Option<Credentials>, isEmail: string -> bool,
                             findByEmail: string -> Result<Option<Tenant>>,
                             compare: (string, string) -> Result<bool>)
    ensures var trace := Authorize(credentials, isEmail, findByEmail, compare);
            |trace.checks| <= 2
            && (|trace.checks| >= 1 ==>
                  trace.checks[0].plain == credentials.value.password.value
                  && |trace.lookups| == 1
                  && trace.checks[0].hash == findByEmail(trace.lookups[0]).value.value.passwordHash)
            && (|trace.checks| == 2 ==> compare(trace.checks[0].plain, trace.checks[0].hash) == Ok(true))
  {
  }

  // ---------------------------------------------------------------------------
  // jwt and session callbacks
  // ---------------------------------------------------------------------------

  /** The claims the `jwt` callback maintains. */
  class Token {
    var id: Option<string>
    var company: Option<string>
    var plan: Option<string>
    var mustChangePassword: Option<bool>

    constructor()
      ensures id.None? && company.None? && plan.None? && mustChangePassword.None?
    {
      id, company, plan, mustChangePassword := None, None, None, None;
    }

    /** `jwt({token, user})`: the claims are copied from the user only at sign-in,
        when a user is present; on later calls the token is left as it was. */
    method Jwt(user: Option<AuthorizedUser>)
      modifies this
      ensures user.Some? ==>
                id == Some(user.value.id) && company == user.value.company
                && plan == Some(user.value.plan) && mustChangePassword == Some(user.value.mustChangePassword)
      ensures user.None? ==>
                id == old(id) && company == old(company) && plan == old(plan)
                && mustChangePassword == old(mustChangePassword)
    {
      if user.Some? {
        id := Some(user.value.id);
        company := user.value.company;
        plan := Some(user.value.plan);
        mustChangePassword := Some(user.value.mustChangePassword);
      }
    }
  }

  /** `session.user`, with the fields the `session` callback writes. */
  class SessionUser {
    var id: Option<string>
    var company: Option<string>
    var plan: Option<string>
    var mustChangePassword: Option<bool>

    constructor()
      ensures id.None? && company.None? && plan.None? && mustChangePassword.None?
    {
      id, company, plan, mustChangePassword := None, None, None, None;
    }
  }

  class Session {
    var user: SessionUser?

    constructor(user: SessionUser?)
      ensures this.user == user
    {
      this.user := user;
    }
  }

  /** `session({session, token})`: when the session has a user, the token's
      claims are copied onto it; the token itself is not changed. */
  method SessionCallback(session: Session, token: Token)
    modifies session.user
    ensures session.user != null ==>
              session.user.id == token.id && session.user.company == token.company
              && session.user.plan == token.plan && session.user.mustChangePassword == token.mustChangePassword
  {
    if session.user != null {
      session.user.id := token.id;
      session.user.company := token.company;
      session.user.plan := token.plan;
      session.user.mustChangePassword := token.mustChangePassword;
    }
  }

  /**
   * A sign-in followed by the two callbacks: no session when `authorize`
   * refuses; otherwise the session's user id is the id of the tenant the lookup
   * found for the submitted e-mail.
   */
  method SignIn(credentials: Option<Credentials>, isEmail: string -> bool,
                findByEmail: string -> Result<Option<Tenant>>,
                compare: (string, string) -> Result<bool>)
    returns (session: Session?, trace: AuthTrace)
    ensures trace == Authorize(credentials, isEmail, findByEmail, compare)
    ensures session == null <==> trace.user.None?
    ensures session != null ==>
              fresh(session) && session.user != null
              && session.user.id == Some(findByEmail(credentials.value.email.value).value.value.id)
  {
    trace := Authorize(credentials, isEmail, findByEmail, compare);
    if trace.user.None? {
      return null, trace;
    }
    AuthorizeSucceedsIff(credentials, isEmail, findByEmail, compare);
    var token := new Token();
    token.Jwt(trace.user);
    var user := new SessionUser();
    session := new Session(user);
    SessionCallback(session, token);
  }
}

=== FILE: db.dfy ===
/**
 * The database connection string handed to the pool: `DATABASE_URL` with its
 * `sslmode` and `sslaccept` query parameters removed (SSL is configured on
 * the pool instead) and a dangling `?` dropped. An unset variable is an error.
 *
 * The regular expression `/[?&]name=[^&]*\/gi` is modelled by `ParamAt` (a
 * match starts here) and `RemoveParam` (the global replacement, scanning left
 * to right and resuming after each removed match). Case-insensitive matching
 * of a regular expression without the `u` flag folds ASCII letters only.
 */
module Db {
  import opened Wrappers
  import opened Text

  const UnsetMessage := "DATABASE_URL is not set. Configure it in your environment."

  /** A parameter name of the pattern: lower-case ASCII letters. */
  predicate ValidName(name: string) {
    |name| >= 1 && forall k :: 0 <= k < |name| ==> 'a' <= name[k] <= 'z'
  }

  /** The two names the rewriting removes are valid names. */
  lemma SslNamesValid()
    ensures ValidName("sslmode") && ValidName("sslaccept")
  {
  }

  /** `a` and `b` are equal up to ASCII letter case. */
  predicate SameLetters(a: string, b: string) {
    |a| == |b| && forall k :: 0 <= k < |a| ==> LowerChar(a[k]) == LowerChar(b[k])
  }

  /** `[?&]name=` matches at position `i`. */
  predicate ParamAt(s: string, i: int, name: string) {
    0 <= i && i + |name| + 2 <= |s| && (s[i] == '?' || s[i] == '&')
    && SameLetters(s[i + 1..i + 1 + |name|], name) && s[i + 1 + |name|] == '='
  }

  /** No match of `[?&]name=` anywhere in `s`. */
  predicate NoParam(s: string, name: string) {
    forall i :: 0 <= i < |s| ==> !ParamAt(s, i, name)
  }

  /** Where `[^&]*` starting at `j` stops: the next `&`, or the end. */
  function ValueEnd(s: string, j: nat): (e: nat)
    requires j <= |s|
    ensures j <= e <= |s| && (e == |s| || s[e] == '&')
    ensures forall k :: j <= k < e ==> s[k] != '&'
    decreases |s| - j
  {
    if j == |s| || s[j] == '&' then j else ValueEnd(s, j + 1)
  }

  /** `s.replace(/[?&]name=[^&]*\/gi, "")` */
  function RemoveParam(s: string, name: string): string
    requires ValidName(name)
    decreases |s|
  {
    if s == [] then []
    else if ParamAt(s, 0, name) then RemoveParam(s[ValueEnd(s, |name| + 2)..], name)
    else [s[0]] + RemoveParam(s[1..], name)
  }

  /** `s.replace(/\?$/, "")` */
  function DropTrailingQuestionMark(s: string): (r: string)
    ensures r == s || (s == r + "?")
  {
    if s != [] && s[|s| - 1] == '?' then s[..|s| - 1] else s
  }

  /** The rewriting of `db.ts`, as written. */
  function StripSslParams(url: string): string {
    DropTrailingQuestionMark(RemoveParam(RemoveParam(url, "sslmode"), "sslaccept"))
  }

  /** The connection string the pool receives, as written. */
  function ConnectionStringAsWritten(databaseUrl: Option<string>): (r: Result<string>)
    ensures r.Err? <==> !Truthy(databaseUrl)
    ensures r.Err? ==> r.message == UnsetMessage
  {
    if !Truthy(databaseUrl) then Err(UnsetMessage) else Ok(StripSslParams(databaseUrl.value))
  }

  // ---------------------------------------------------------------------------
  // what a removal leaves behind
  // ---------------------------------------------------------------------------

  /** What follows a removed match is an `&` or nothing, and so is what
      follows it after the removal. */
  lemma {:induction false} RemoveParamStartsAtSeparator(s: string, name: string)
    requires ValidName(name)
    requires s == [] || s[0] == '&'
    ensures RemoveParam(s, name) == [] || RemoveParam(s, name)[0] == '&'
    decreases |s|
  {
    if s != [] && ParamAt(s, 0, name) {
      RemoveParamStartsAtSeparator(s[ValueEnd(s, |name| + 2)..], name);
    }
  }

  /** Text without `&` at the start of the result was there, in the same
      place, at the start of the input. */
  lemma {:induction false} PrefixSurvives(s: string, name: string, p: string)
    requires ValidName(name)
    requires '&' !in p
    requires |p| <= |RemoveParam(s, name)| && RemoveParam(s, name)[..|p|] == p
    ensures |p| <= |s| && s[..|p|] == p
    decreases |s|
  {
    if p != [] && s != [] {
      assert RemoveParam(s, name)[0] == p[0];
      if ParamAt(s, 0, name) {
        RemoveParamStartsAtSeparator(s[ValueEnd(s, |name| + 2)..], name);
        assert false;
      } else {
        var rest := RemoveParam(s[1..], name);
        assert RemoveParam(s, name) == [s[0]] + rest;
        assert rest[..|p| - 1] == p[1..];
        PrefixSurvives(s[1..], name, p[1..]);
        assert s == [s[0]] + s[1..];
      }
    }
  }

  /** The characters a match covers after its separator are letters and `=`. */
  lemma MatchHasNoAmpersand(s: string, name: string)
    requires ValidName(name) && ParamAt(s, 0, name)
    ensures '&' !in s[1..|name| + 2]
  {
    forall k | 1 <= k < |name| + 1
      ensures s[k] != '&'
    {
      assert LowerChar(s[1..1 + |name|][k - 1]) == LowerChar(name[k - 1]);
    }
  }

  /** A match in `[c] + t` past its first character is a match in `t`. */
  lemma ParamAtShift(c: char, t: string, i: int, name: string)
    requires i >= 1
    ensures ParamAt([c] + t, i, name) == ParamAt(t, i - 1, name)
  {
    var s := [c] + t;
    if i + |name| + 2 <= |s| {
      assert s[i + 1..i + 1 + |name|] == t[i..i + |name|];
    }
  }

  /** If the result of a removal starts with a match of `other`, so did the
      input (the characters of a match have no `&`, which a removal always
      leaves at its place). */
  lemma NewMatchOnlyWhereOldOne(s: string, name: string, other: string)
    requires ValidName(name) && ValidName(other) && s != [] && !ParamAt(s, 0, name)
    requires ParamAt([s[0]] + RemoveParam(s[1..], name), 0, other)
    ensures ParamAt(s, 0, other)
  {
    var r := [s[0]] + RemoveParam(s[1..], name);
    var p := r[1..|other| + 2];
    MatchHasNoAmpersand(r, other);
    assert RemoveParam(s[1..], name)[..|p|] == p;
    PrefixSurvives(s[1..], name, p);
    forall k | 1 <= k < |other| + 2
      ensures s[k] == r[k]
    {
      assert s[1..][..|p|][k - 1] == p[k - 1];
    }
    assert s[1..1 + |other|] == r[1..1 + |other|];
  }

  /** After `RemoveParam(s, name)` no match of `name` is left. */
  lemma {:induction false} RemoveParamRemovesAll(s: string, name: string)
    requires ValidName(name)
    ensures NoParam(RemoveParam(s, name), name)
    decreases |s|
  {
    if s != [] {
      if ParamAt(s, 0, name) {
        RemoveParamRemovesAll(s[ValueEnd(s, |name| + 2)..], name);
      } else {
        var t := RemoveParam(s[1..], name);
        RemoveParamRemovesAll(s[1..], name);
        forall i | 0 <= i < 1 + |t|
          ensures !ParamAt([s[0]] + t, i, name)
        {
          if i == 0 {
            if ParamAt([s[0]] + t, 0, name) {
              NewMatchOnlyWhereOldOne(s, name, name);
            }
          } else {
            ParamAtShift(s[0], t, i, name);
          }
        }
      }
    }
  }

  /** A match in a suffix is a match in the whole string. */
  lemma ParamAtSuffix(s: string, e: nat, i: int, name: string)
    requires e <= |s| && ParamAt(s[e..], i, name)
    ensures ParamAt(s, e + i, name)
  {
    assert s[e..][i + 1..i + 1 + |name|] == s[e + i + 1..e + i + 1 + |name|];
  }

  /** A match in a prefix is a match in the whole string. */
  lemma ParamAtPrefix(s: string, m: nat, i: int, name: string)
    requires m <= |s| && ParamAt(s[..m], i, name)
    ensures ParamAt(s, i, name)
  {
    assert s[..m][i + 1..i + 1 + |name|] == s[i + 1..i + 1 + |name|];
  }

  /** Removing one parameter creates no match of another. */
  lemma {:induction false} RemoveParamKeepsOthersAbsent(s: string, name: string, other: string)
    requires ValidName(name) && ValidName(other) && NoParam(s, other)
    ensures NoParam(RemoveParam(s, name), other)
    decreases |s|
  {
    if s != [] {
      if ParamAt(s, 0, name) {
        var e := ValueEnd(s, |name| + 2);
        forall i | 0 <= i < |s[e..]|
          ensures !ParamAt(s[e..], i, other)
        {
          if ParamAt(s[e..], i, other) {
            ParamAtSuffix(s, e, i, other);
          }
        }
        RemoveParamKeepsOthersAbsent(s[e..], name, other);
      } else {
        var t := RemoveParam(s[1..], name);
        forall i | 0 <= i < |s[1..]|
          ensures !ParamAt(s[1..], i, other)
        {
          if ParamAt(s[1..], i, other) {
            ParamAtSuffix(s, 1, i, other);
          }
        }
        RemoveParamKeepsOthersAbsent(s[1..], name, other);
        forall i | 0 <= i < 1 + |t|
          ensures !ParamAt([s[0]] + t, i, other)
        {
          if i == 0 {
            if ParamAt([s[0]] + t, 0, other) {
              NewMatchOnlyWhereOldOne(s, name, other);
            }
          } else {
            ParamAtShift(s[0], t, i, other);
          }
        }
      }
    }
  }

  /** A string without a match is left as it is. */
  lemma {:induction false} RemoveParamIdentity(s: string, name: string)
    requires ValidName(name) && NoParam(s, name)
    ensures RemoveParam(s, name) == s
    decreases |s|
  {
    if s != [] {
      forall i | 0 <= i < |s[1..]|
        ensures !ParamAt(s[1..], i, name)
      {
        if ParamAt(s[1..], i, name) {
          ParamAtSuffix(s, 1, i, name);
        }
      }
      RemoveParamIdentity(s[1..], name);
      assert s == [s[0]] + s[1..];
    }
  }

  /**
   * The rewritten string has no `sslmode=` nor `sslaccept=` parameter left, in
   * any letter case; a string that had neither and does not end in `?` is
   * returned unchanged.
   */
  lemma StripSslParamsSpec(url: string)
    ensures NoParam(StripSslParams(url), "sslmode") && NoParam(StripSslParams(url), "sslaccept")
    ensures NoParam(url, "sslmode") && NoParam(url, "sslaccept") && (url == [] || url[|url| - 1] != '?') ==>
              StripSslParams(url) == url
  {
    SslNamesValid();
    var a := RemoveParam(url, "sslmode");
    var b := RemoveParam(a, "sslaccept");
    RemoveParamRemovesAll(url, "sslmode");
    RemoveParamKeepsOthersAbsent(a, "sslaccept", "sslmode");
    RemoveParamRemovesAll(a, "sslaccept");
    var r := DropTrailingQuestionMark(b);
    forall i | 0 <= i < |r|
      ensures !ParamAt(r, i, "sslmode") && !ParamAt(r, i, "sslaccept")
    {
      if r != b {
        assert r == b[..|b| - 1];
        if ParamAt(r, i, "sslmode") { ParamAtPrefix(b, |b| - 1, i, "sslmode"); }
        if ParamAt(r, i, "sslaccept") { ParamAtPrefix(b, |b| - 1, i, "sslaccept"); }
      }
    }
    if NoParam(url, "sslmode") && NoParam(url, "sslaccept") {
      RemoveParamIdentity(url, "sslmode");
      RemoveParamIdentity(url, "sslaccept");
    }
  }

  // ---------------------------------------------------------------------------
  // the lost query separator
  // ---------------------------------------------------------------------------

  /** A string too short to hold `[?&]name=` has no match and is left as it is. */
  lemma ShortHasNoParam(s: string, name: string)
    requires ValidName(name) && |s| < |name| + 2
    ensures NoParam(s, name) && RemoveParam(s, name) == s
  {
    RemoveParamIdentity(s, name);
  }

  /** The query of the example starts with a match of `sslmode` running up to its `&`. */
  lemma SslModeMatch()
    ensures ParamAt("?sslmode=require&x=1", 0, "sslmode")
    ensures ValueEnd("?sslmode=require&x=1", 9) == 16
  {
    var q := "?sslmode=require&x=1";
    assert q[1..8] == "sslmode";
    ValueEndStops(q, 9, 16);
  }

  /** Once `sslmode` is removed from the example's query, `&x=1` is left. */
  lemma ExampleQueryRemoved(q: string)
    requires q == "?sslmode=require&x=1"
    ensures RemoveParam(q, "sslmode") == "&x=1"
  {
    SslNamesValid();
    SslModeMatch();
    assert q[16..] == "&x=1";
    ShortHasNoParam("&x=1", "sslmode");
  }

  /** A prefix without separators is kept as it is. */
  lemma {:induction false} KeepsPrefix(base: string, t: string, name: string)
    requires ValidName(name) && '?' !in base && '&' !in base
    ensures RemoveParam(base + t, name) == base + RemoveParam(t, name)
    decreases |base|
  {
    if base != [] {
      var s := base + t;
      assert s[0] == base[0] && base[0] in base && s[1..] == base[1..] + t;
      assert RemoveParam(s, name) == [s[0]] + RemoveParam(s[1..], name);
      KeepsPrefix(base[1..], t, name);
      assert base + RemoveParam(t, name) == [base[0]] + (base[1..] + RemoveParam(t, name));
    } else {
      assert base + t == t;
    }
  }

  /** Behind a path without separators, the rewriting as written acts on the
      query alone. */
  lemma AsWrittenOnQuery(base: string, query: string, rest: string)
    requires '?' !in base && '&' !in base
    requires RemoveParam(query, "sslmode") == rest && RemoveParam(rest, "sslaccept") == rest
    requires rest != [] && rest[|rest| - 1] != '?'
    ensures StripSslParams(base + query) == base + rest
  {
    SslNamesValid();
    RemovedBehindPath(base, query, "sslmode", rest);
    RemovedBehindPath(base, rest, "sslaccept", rest);
    KeepsLastCharacter(base, rest);
  }

  /** Removing a parameter from `base + t` removes it from `t` alone. */
  lemma RemovedBehindPath(base: string, t: string, name: string, r: string)
    requires ValidName(name) && '?' !in base && '&' !in base
    requires RemoveParam(t, name) == r
    ensures RemoveParam(base + t, name) == base + r
  {
    KeepsPrefix(base, t, name);
  }

  /** A string not ending in `?` keeps its end behind any path. */
  lemma KeepsLastCharacter(base: string, rest: string)
    requires rest != [] && rest[|rest| - 1] != '?'
    ensures DropTrailingQuestionMark(base + rest) == base + rest
  {
    var n := base + rest;
    assert n[|n| - 1] == rest[|rest| - 1];
  }

  /** With `sslmode` first among other parameters, the `?` goes with it and the
      next parameter is glued to the path by its `&`. */
  lemma SeparatorLostAsWritten(base: string, query: string)
    requires '?' !in base && '&' !in base && query == "?sslmode=require&x=1"
    ensures StripSslParams(base + query) == base + "&x=1"
  {
    SslNamesValid();
    ExampleQueryRemoved(query);
    ShortHasNoParam("&x=1", "sslaccept");
    AsWrittenOnQuery(base, query, "&x=1");
  }

  /** `ValueEnd` stops at the first `&` from `j` on. */
  lemma {:induction false} ValueEndStops(s: string, j: nat, e: nat)
    requires j <= e < |s| && s[e] == '&' && forall k :: j <= k < e ==> s[k] != '&'
    ensures ValueEnd(s, j) == e
    decreases e - j
  {
    if j < e {
      ValueEndStops(s, j + 1, e);
    }
  }

  // the intended rewriting: drop the SSL parameters from the query, keep the others behind one `?`

  /** A query parameter the rewriting drops: `sslmode=…` or `sslaccept=…`, in any letter case. */
  predicate IsSslParam(p: string) {
    (|p| >= 8 && SameLetters(p[..7], "sslmode") && p[7] == '=')
    || (|p| >= 10 && SameLetters(p[..9], "sslaccept") && p[9] == '=')
  }

  function KeepParams(ps: seq<string>): (r: seq<string>)
    ensures |r| <= |ps|
    ensures forall k :: 0 <= k < |r| ==> r[k] in ps && !IsSslParam(r[k])
  {
    if ps == [] then []
    else (if IsSslParam(ps[0]) then [] else [ps[0]]) + KeepParams(ps[1..])
  }

  /** The rewriting with the separator kept: the part before the first `?`, then
      the remaining parameters behind a `?`, or nothing when none remains. */
  function StripSslParamsCorrected(url: string): string {
    if '?' !in url then url
    else
      var i := IndexOf(url, '?');
      var query := Join("&", KeepParams(Split(url[i + 1..], '&')));
      if query == "" then url[..i] else url[..i] + "?" + query
  }

  /** The connection string the pool should receive. */
  function ConnectionString(databaseUrl: Option<string>): (r: Result<string>)
    ensures r.Err? <==> !Truthy(databaseUrl)
    ensures r.Err? ==> r.message == UnsetMessage
  {
    if !Truthy(databaseUrl) then Err(UnsetMessage) else Ok(StripSslParamsCorrected(databaseUrl.value))
  }

  /**
   * The corrected rewriting keeps the path and puts the parameters that are
   * neither `sslmode` nor `sslaccept`, in their order, behind a single `?`.
   */
  lemma CorrectedKeepsSeparator(url: string)
    requires '?' in url
    ensures var i := IndexOf(url, '?');
            var kept := KeepParams(Split(url[i + 1..], '&'));
            var r := StripSslParamsCorrected(url);
            StartsWith(r, url[..i])
            && (Join("&", kept) != "" ==>
                  |r| > i && r[i] == '?' && Split(r[i + 1..], '&') == kept)
            && (Join("&", kept) == "" ==> r == url[..i])
  {
    var i := IndexOf(url, '?');
    var ps := Split(url[i + 1..], '&');
    var kept := KeepParams(ps);
    var q := Join("&", kept);
    if q != "" {
      var r := url[..i] + "?" + q;
      assert r[..i] == url[..i] && r[i] == '?' && r[i + 1..] == q;
      KeptHaveNoSeparator(ps);
      SplitJoin(kept, '&');
    }
  }

  /** Parameters taken from a split on `&` hold no `&`, and neither do the kept ones. */
  lemma KeptHaveNoSeparator(ps: seq<string>)
    requires forall k :: 0 <= k < |ps| ==> '&' !in ps[k]
    ensures forall k :: 0 <= k < |KeepParams(ps)| ==> '&' !in KeepParams(ps)[k]
  {
    var kept := KeepParams(ps);
    forall k | 0 <= k < |kept|
      ensures '&' !in kept[k]
    {
      var j :| 0 <= j < |ps| && ps[j] == kept[k];
    }
  }

  /** Of the example's parameters, only `x=1` is kept. */
  lemma ExampleKept(ps: seq<string>)
    requires ps == ["sslmode=require", "x=1"]
    ensures KeepParams(ps) == ["x=1"]
  {
    assert IsSslParam(ps[0]) by {
      assert ps[0][..7] == "sslmode";
    }
    assert ps[1..] == ["x=1"];
    assert !IsSslParam(ps[1]);
  }

  /** The parameters of the example's query. */
  lemma ExampleQuerySplit(query: string)
    requires query == "sslmode=require&x=1"
    ensures Split(query, '&') == ["sslmode=require", "x=1"]
  {
    var parts := ["sslmode=require", "x=1"];
    assert Join("&", parts) == query by {
      assert parts[1..] == ["x=1"];
    }
    assert '&' !in parts[0] && '&' !in parts[1];
    SplitJoin(parts, '&');
  }

  /** The corrected rewriting of `base?query` works on `query` alone. */
  lemma CorrectedOnQuery(base: string, query: string)
    requires '?' !in base
    ensures var q := Join("&", KeepParams(Split(query, '&')));
            StripSslParamsCorrected(base + "?" + query) == if q == "" then base else base + "?" + q
  {
    var url := base + "?" + query;
    assert url[|base|] == '?' && url[..|base|] == base;
    assert IndexOf(url, '?') == |base|;
    assert url[|base| + 1..] == query;
  }

  /** Of the example's query, only `x=1` is kept. */
  lemma ExampleQueryKept(query: string)
    requires query == "sslmode=require&x=1"
    ensures Join("&", KeepParams(Split(query, '&'))) == "x=1"
  {
    ExampleQuerySplit(query);
    ExampleKept(Split(query, '&'));
    assert KeepParams(Split(query, '&')) == ["x=1"];
  }

  /** When some parameter is kept, the corrected rewriting of `base?query` is
      `base`, `?` and the kept parameters. */
  lemma CorrectedWithKept(base: string, query: string, kept: string)
    requires '?' !in base && kept != ""
    requires Join("&", KeepParams(Split(query, '&'))) == kept
    ensures StripSslParamsCorrected(base + "?" + query) == base + "?" + kept
  {
    CorrectedOnQuery(base, query);
  }

  /** The same query keeps its `?` behind any path without one. */
  lemma SeparatorKeptCorrected(base: string, query: string)
    requires '?' !in base && query == "sslmode=require&x=1"
    ensures StripSslParamsCorrected(base + "?" + query) == base + "?" + "x=1"
  {
    ExampleQueryKept(query);
    CorrectedWithKept(base, query, "x=1");
  }
}

=== FILE: overview.dfy ===
/**
 * The presentation arithmetic of the overview page: the quota percentage, the
 * normalisation of the daily bars by the busiest day, and the colour given to
 * a response status. The usage page repeats the same bar and colour
 * expressions and uses the definitions here.
 */
module Overview {
  import opened Text
  import Api

  /** `Math.round(x)`: the nearest integer, halves rounded up. */
  function Round(x: real): (r: int)
    ensures r as real - 0.5 <= x < r as real + 0.5
  {
    (x + 0.5).Floor
  }

  /** `formatPercent(value, total)` */
  function FormatPercent(value: int, total: int): string {
    if total == 0 then "0%"
    else IntToString(Round(value as real / total as real * 100.0)) + "%"
  }

  /**
   * A zero total shows `0%`; otherwise the share rounded to the nearest whole
   * percent, which lies in 0..100 for a usage within the quota and is not
   * clamped above it.
   */
  lemma FormatPercentBounds(value: int, total: int)
    ensures total == 0 ==> FormatPercent(value, total) == "0%"
    ensures total > 0 ==>
              var r := Round(value as real / total as real * 100.0);
              FormatPercent(value, total) == IntToString(r) + "%"
              && (r as real - 0.5) * total as real <= 100.0 * value as real < (r as real + 0.5) * total as real
    ensures 0 <= value <= total && total > 0 ==>
              FormatPercent(value, total) == IntToString(Round(value as real / total as real * 100.0)) + "%"
              && 0 <= Round(value as real / total as real * 100.0) <= 100
  {
    if total > 0 {
      RoundedShare(value, total);
      if value >= 0 && value <= total {
        RatioBounds(value, total);
      }
    }
  }

  /** The rounded share is within half a percent of the exact one. */
  lemma RoundedShare(value: int, total: int)
    requires total > 0
    ensures var r := Round(value as real / total as real * 100.0);
            (r as real - 0.5) * total as real <= 100.0 * value as real < (r as real + 0.5) * total as real
  {
    var t, v := total as real, value as real;
    var x := v / t * 100.0;
    var r := Round(x);
    ScaleRounding(x, r, t);
    ShareTimesTotal(v, t);
    calc {
      (r as real - 0.5) * t;
    <=
      x * t;
    ==
      100.0 * v;
    }
    calc {
      100.0 * v;
    ==
      x * t;
    <
      (r as real + 0.5) * t;
    }
  }

  /** Scaling `r - 0.5 <= x < r + 0.5` by a positive `t`. */
  lemma ScaleRounding(x: real, r: int, t: real)
    requires t > 0.0 && r as real - 0.5 <= x < r as real + 0.5
    ensures (r as real - 0.5) * t <= x * t < (r as real + 0.5) * t
  {
    ScaleBy(r as real - 0.5, x, t);
    ScaleBy(x, r as real + 0.5, t);
  }

  /** `(v / t * 100) * t == 100 * v` for a positive `t`. */
  lemma ShareTimesTotal(v: real, t: real)
    requires t > 0.0
    ensures (v / t * 100.0) * t == 100.0 * v
  {
    var q := v / t;
    assert q * t == v;
  }

  /** Multiplying by a positive number keeps the order. */
  lemma ScaleBy(a: real, b: real, t: real)
    requires t > 0.0
    ensures a <= b ==> a * t <= b * t
    ensures a < b ==> a * t < b * t
  {
    if a < b {
      assert (b - a) * t > 0.0;
    }
  }

  /** For `0 <= value <= total`, the scaled share lies in `[0, 100]`. */
  lemma RatioBounds(value: int, total: int)
    requires 0 <= value <= total && total > 0
    ensures 0.0 <= value as real / total as real * 100.0 <= 100.0
  {
    var t, v := total as real, value as real;
    var q := v / t;
    assert q * t == v;
    ScaleBy(1.0, q, t);
    ScaleBy(q, 0.0, t);
  }

  /** Usage above the quota shows a share above 100%. */
  lemma OverQuotaShowsOverHundred()
    ensures FormatPercent(3, 2) == "150%"
  {
    assert Round(3.0 / 2.0 * 100.0) == 150;
    assert NatToString(150) == "150" by {
      assert NatToString(15) == "15" by { assert NatToString(1) == "1"; }
    }
  }

  // ---------------------------------------------------------------------------
  // bars
  // ---------------------------------------------------------------------------

  /** `points.reduce((max, day) => Math.max(max, day.requests), 0)` */
  function Busiest(points: seq<Api.UsagePoint>): (m: int)
    ensures m >= 0
    ensures forall k :: 0 <= k < |points| ==> points[k].requests <= m
    ensures m == 0 || exists k :: 0 <= k < |points| && points[k].requests == m
  {
    if points == [] then 0
    else
      var m := Busiest(points[..|points| - 1]);
      var last := points[|points| - 1].requests;
      assert forall k :: 0 <= k < |points| - 1 ==> points[..|points| - 1][k] == points[k];
      if last > m then last else m
  }

  /** `... || 1`: the busiest day's requests, or 1 when every day is empty. */
  function MaxRequests(points: seq<Api.UsagePoint>): (m: int)
    ensures m >= 1
    ensures forall k :: 0 <= k < |points| ==> points[k].requests <= m
  {
    var m := Busiest(points);
    if m == 0 then 1 else m
  }

  /** The busiest day sets the scale: some day has exactly `MaxRequests`
      requests unless no day has any. */
  lemma MaxRequestsIsAttained(points: seq<Api.UsagePoint>)
    ensures MaxRequests(points) == 1
            || exists k :: 0 <= k < |points| && points[k].requests == MaxRequests(points)
    ensures (forall k :: 0 <= k < |points| ==> points[k].requests <= 0) ==> MaxRequests(points) == 1
  {
  }

  /** `Math.max(floor, requests / maxRequests * 100)`, a length in percent. */
  function BarPercent(requests: int, maxRequests: int, floor: real): (p: real)
    requires maxRequests >= 1
    ensures p >= floor
    ensures p == floor || p * maxRequests as real == requests as real * 100.0
  {
    var scaled := requests as real / maxRequests as real * 100.0;
    if floor > scaled then floor else scaled
  }

  /** The 7-day rows are at least 6% wide and the 30-day bars at least 8% high;
      no bar is longer than 100% when its day is not above the scale. */
  lemma BarsWithinBounds(points: seq<Api.UsagePoint>, k: int)
    requires 0 <= k < |points| && points[k].requests >= 0
    ensures 6.0 <= BarPercent(points[k].requests, MaxRequests(points), 6.0) <= 100.0
    ensures 8.0 <= BarPercent(points[k].requests, MaxRequests(points), 8.0) <= 100.0
  {
    RatioBounds(points[k].requests, MaxRequests(points));
  }

  // ---------------------------------------------------------------------------
  // status colours
  // ---------------------------------------------------------------------------

  datatype Colour = Green | Amber | Red

  /** The text colour of a status code in the call tables. */
  function StatusColour(status: int): Colour {
    if 200 <= status < 400 then Green
    else if status >= 500 then Red
    else Amber
  }

  /** The colours partition the codes: [200, 400) green, from 500 red, the
      rest (below 200 and [400, 500)) amber. */
  lemma StatusColourPartition(status: int)
    ensures StatusColour(status) == Green <==> 200 <= status < 400
    ensures StatusColour(status) == Red <==> status >= 500
    ensures StatusColour(status) == Amber <==> status < 200 || 400 <= status < 500
  {
  }
}

=== FILE: rate_limit.dfy ===
/**
 * The rate-limiting front: the backend chosen once at load, `checkRateLimit`
 * with its fail-open path, client-IP extraction from proxy headers, and the
 * middleware that turns a denial into an HTTP 429 response (section 4 of
 * RFC 6585) carrying `Retry-After` in delta-seconds (section 10.2.3 of RFC 9110).
 */
module RateLimit {
  import opened Wrappers
  import opened Text
  import opened RateLimitMemory

  // ---------------------------------------------------------------------------
  // Backend selection
  // ---------------------------------------------------------------------------

  /** The limiter set bound to `rateLimiters` when the module loads. */
  datatype Backend = Upstash | InMemory

  /** The shared store is used only with both its URL and its token; otherwise
      every purpose falls back to the in-process limiters. */
  function SelectBackend(restUrl: Option<string>, restToken: Option<string>): (b: Backend)
    ensures b == InMemory <==> !Truthy(restUrl) || !Truthy(restToken)
  {
    if Truthy(restUrl) && Truthy(restToken) then Upstash else InMemory
  }

  // ---------------------------------------------------------------------------
  // checkRateLimit
  // ---------------------------------------------------------------------------

  /** The answer given when there is no limiter to ask. */
  function FailOpen(now: int): LimitResult {
    LimitResult(true, 999999, 999999, now + 3600000)
  }

  /**
   * `checkRateLimit(limiterKey, identifier)` over the in-process limiters:
   * with no limiter set it fails open; otherwise it returns exactly what the
   * purpose's limiter answers, and the limiters of the other purposes are untouched.
   */
  method CheckRateLimit(limiters: MemoryRateLimiters?, key: Purpose, identifier: string, now: int)
    returns (result: LimitResult)
    requires limiters != null ==> limiters.Valid()
    modifies if limiters != null then {limiters.For(key)} else {}
    ensures limiters == null ==> result == FailOpen(now)
    ensures limiters != null ==> limiters.Valid()
    ensures limiters != null ==>
              (limiters.For(key).attempts, result)
              == LimitOutcome(old(limiters.For(key).attempts), limiters.For(key).maxAttempts,
                              limiters.For(key).windowMs, identifier, now)
    ensures limiters != null ==>
              forall other :: other != key ==> limiters.For(other).attempts == old(limiters.For(other).attempts)
  {
    if limiters == null {
      return FailOpen(now);
    }
    limiters.ForIsInRepr(key);
    var limiter := limiters.For(key);
    var answer := limiter.Limit(identifier, now);
    result := LimitResult(answer.success, answer.limit, answer.remaining, answer.reset);
  }

  // ---------------------------------------------------------------------------
  // getClientIp
  // ---------------------------------------------------------------------------

  /** Request headers by lower-case name. */
  type Headers = map<string, string>

  function HeaderValue(h: Headers, name: string): Option<string> {
    if name in h then Some(h[name]) else None
  }

  /** A header is used only when present and non-empty. */
  predicate HasHeader(h: Headers, name: string) {
    Truthy(HeaderValue(h, name))
  }

  /** The first comma-separated element of `x-forwarded-for`, trimmed. */
  function ForwardedClient(h: Headers): string
    requires "x-forwarded-for" in h
  {
    Trim(FirstField(h["x-forwarded-for"], ','))
  }

  /** `getClientIp(request)` */
  function GetClientIp(h: Headers): string {
    if HasHeader(h, "x-forwarded-for") then ForwardedClient(h)
    else if HasHeader(h, "x-real-ip") then h["x-real-ip"]
    else if HasHeader(h, "cf-connecting-ip") then h["cf-connecting-ip"]
    else "unknown"
  }

  /** Header precedence: `x-forwarded-for`, then `x-real-ip`, then
      `cf-connecting-ip`, then the literal `unknown`; an empty header is skipped. */
  lemma ClientIpPrecedence(h: Headers)
    ensures HasHeader(h, "x-forwarded-for") ==> GetClientIp(h) == ForwardedClient(h)
    ensures !HasHeader(h, "x-forwarded-for") && HasHeader(h, "x-real-ip") ==>
              GetClientIp(h) == h["x-real-ip"]
    ensures (!HasHeader(h, "x-forwarded-for") && !HasHeader(h, "x-real-ip") &&
             HasHeader(h, "cf-connecting-ip")) ==> GetClientIp(h) == h["cf-connecting-ip"]
    ensures (!HasHeader(h, "x-forwarded-for") && !HasHeader(h, "x-real-ip") &&
             !HasHeader(h, "cf-connecting-ip")) ==> GetClientIp(h) == "unknown"
  {
  }

  /** The extracted address is empty exactly when `x-forwarded-for` is set but
      its first element is blank; in every other case it is a non-empty string. */
  lemma ClientIpEmptyIffBlankFirstForward(h: Headers)
    ensures GetClientIp(h) == "" <==>
              HasHeader(h, "x-forwarded-for") &&
              forall k :: 0 <= k < |FirstField(h["x-forwarded-for"], ',')| ==>
                IsJsWhitespace(FirstField(h["x-forwarded-for"], ',')[k])
  {
  }

  /** `" ,1.2.3.4"` yields the empty string, not the second address. */
  lemma BlankFirstForwardGivesEmpty()
    ensures GetClientIp(map["x-forwarded-for" := " ,1.2.3.4", "x-real-ip" := "10.0.0.1"]) == ""
  {
    var h := map["x-forwarded-for" := " ,1.2.3.4", "x-real-ip" := "10.0.0.1"];
    assert h["x-forwarded-for"][1] == ',';
    assert IndexOf(h["x-forwarded-for"], ',') == 1;
    assert FirstField(h["x-forwarded-for"], ',') == " ";
    assert IsJsWhitespace(' ');
  }

  // ---------------------------------------------------------------------------
  // rateLimitMiddleware
  // ---------------------------------------------------------------------------

  /** `identifier || getClientIp(request)` */
  function RequestIdentifier(identifier: Option<string>, h: Headers): (id: string)
    ensures Truthy(identifier) ==> id == identifier.value
    ensures !Truthy(identifier) ==> id == GetClientIp(h)
  {
    if Truthy(identifier) then identifier.value else GetClientIp(h)
  }

  /** `Math.ceil(ms / 1000)`: the fewest whole seconds covering `ms` milliseconds. */
  function CeilSeconds(ms: int): (s: int)
    ensures (s - 1) * 1000 < ms <= s * 1000
  {
    -((-ms) / 1000)
  }

  /** The 429 response: a JSON body `{error, retryAfter}` and its headers. */
  datatype Response = Response(status: int, error: string, retryAfter: int, headers: map<string, string>)

  /**
   * The response to a denied request. `nowBody` and `nowHeader` are the two
   * clock readings the source takes for the body and the `Retry-After` header;
   * `iso` renders a timestamp as an ISO-8601 string.
   */
  function TooManyRequests(result: LimitResult, nowBody: int, nowHeader: int, iso: int -> string): (r: Response)
    ensures r.status == 429 && r.error == "Too many requests"
    ensures (r.retryAfter - 1) * 1000 < result.reset - nowBody <= r.retryAfter * 1000
    ensures r.headers.Keys == {"Content-Type", "X-RateLimit-Limit", "X-RateLimit-Remaining",
                               "X-RateLimit-Reset", "Retry-After"}
    ensures r.headers["X-RateLimit-Limit"] == IntToString(result.limit)
    ensures r.headers["X-RateLimit-Remaining"] == IntToString(result.remaining)
    ensures r.headers["X-RateLimit-Reset"] == iso(result.reset)
    ensures r.headers["Retry-After"] == IntToString(CeilSeconds(result.reset - nowHeader))
  {
    Response(429, "Too many requests", CeilSeconds(result.reset - nowBody),
      map["Content-Type" := "application/json",
          "X-RateLimit-Limit" := IntToString(result.limit),
          "X-RateLimit-Remaining" := IntToString(result.remaining),
          "X-RateLimit-Reset" := iso(result.reset),
          "Retry-After" := IntToString(CeilSeconds(result.reset - nowHeader))])
  }

  /** A denial by an in-process limiter answered on the same millisecond carries
      a `Retry-After` of plain digits (delta-seconds) and no more than the window. */
  lemma DenialRetryAfterIsDeltaSeconds(attempts: Attempts, maxAttempts: int, windowMs: int,
                                       identifier: string, now: int, iso: int -> string)
    requires windowMs >= 0
    requires forall id :: id in attempts ==> attempts[id].resetAt <= now + windowMs
    ensures var result := LimitOutcome(attempts, maxAttempts, windowMs, identifier, now).1;
            var retry := CeilSeconds(result.reset - now);
            0 <= retry && (retry - 1) * 1000 < windowMs &&
            forall k :: 0 <= k < |TooManyRequests(result, now, now, iso).headers["Retry-After"]| ==>
              IsDigit(TooManyRequests(result, now, now, iso).headers["Retry-After"][k])
  {
    var out := LimitOutcome(attempts, maxAttempts, windowMs, identifier, now);
    assert now <= out.1.reset <= now + windowMs;
  }

  /**
   * `rateLimitMiddleware(request, limiterKey, identifier)`: no response (let the
   * request through) on success, the 429 response on denial. `checked` is the
   * limiter's answer for the chosen identifier.
   */
  method RateLimitMiddleware(limiters: MemoryRateLimiters?, h: Headers, key: Purpose, identifier: Option<string>,
                             now: int, nowBody: int, nowHeader: int, iso: int -> string)
    returns (response: Option<Response>, ghost checked: LimitResult)
    requires limiters != null ==> limiters.Valid()
    modifies if limiters != null then {limiters.For(key)} else {}
    ensures limiters == null ==> checked == FailOpen(now)
    ensures limiters != null ==> limiters.Valid()
    ensures limiters != null ==>
              (limiters.For(key).attempts, checked)
              == LimitOutcome(old(limiters.For(key).attempts), limiters.For(key).maxAttempts,
                              limiters.For(key).windowMs, RequestIdentifier(identifier, h), now)
    ensures limiters != null ==>
              forall other :: other != key ==> limiters.For(other).attempts == old(limiters.For(other).attempts)
    ensures response.None? <==> checked.success
    ensures response.Some? ==> response.value == TooManyRequests(checked, nowBody, nowHeader, iso)
  {
    var id := RequestIdentifier(identifier, h);
    var result := CheckRateLimit(limiters, key, id, now);
    checked := result;
    if !result.success {
      return Some(TooManyRequests(result, nowBody, nowHeader, iso)), checked;
    }
    return None, checked;
  }
}

=== FILE: rate_limit_memory.dfy ===
/**
 * The in-process fixed-window rate limiter. Each limiter owns a map from
 * identifier to `{count, resetAt}`; one `limit(identifier)` call either opens a
 * new window, counts one more attempt in the current window, or denies.
 * `Date.now()` is the parameter `now` (epoch milliseconds).
 */
module RateLimitMemory {

  /** `{ count, resetAt }`: attempts counted so far and the end of the window. */
  datatype AttemptRecord = AttemptRecord(count: int, resetAt: int)

  /** What `limit` resolves to. */
  datatype LimitResult = LimitResult(success: bool, limit: int, remaining: int, reset: int)

  type Attempts = map<string, AttemptRecord>

  /** A record is live at `now` unless `now` is strictly past its `resetAt`. */
  predicate IsLive(attempts: Attempts, identifier: string, now: int) {
    identifier in attempts && !(now > attempts[identifier].resetAt)
  }

  /** The largest count a limiter stores: `maxAttempts`, or 1 for a limiter
      configured below 1 (opening a window always stores a count of 1). */
  function CountCap(maxAttempts: int): int {
    if maxAttempts >= 1 then maxAttempts else 1
  }

  /** The limiter's invariant: every stored count is in `1..CountCap(maxAttempts)`. */
  predicate CountsInRange(attempts: Attempts, maxAttempts: int) {
    forall id :: id in attempts ==> 1 <= attempts[id].count <= CountCap(maxAttempts)
  }

  /**
   * The new map and the result of one `limit(identifier)` call at time `now`.
   * Only the entry of `identifier` can change, the reported `reset` is the
   * stored window end, the count bounds are kept, and with `maxAttempts >= 1`
   * the reported `remaining` lies in `0..maxAttempts - 1`.
   */
  function LimitOutcome(attempts: Attempts, maxAttempts: int, windowMs: int, identifier: string, now: int)
    : (out: (Attempts, LimitResult))
    ensures forall id :: id != identifier ==> (id in out.0 <==> id in attempts)
    ensures forall id :: id != identifier && id in attempts ==> out.0[id] == attempts[id]
    ensures identifier in out.0 && out.1.reset == out.0[identifier].resetAt
    ensures out.1.limit == maxAttempts
    ensures CountsInRange(attempts, maxAttempts) ==> CountsInRange(out.0, maxAttempts)
    ensures maxAttempts >= 1 && CountsInRange(attempts, maxAttempts) ==> 0 <= out.1.remaining < maxAttempts
  {
    var current := if identifier in attempts && now > attempts[identifier].resetAt
                   then attempts - {identifier} else attempts;
    if identifier !in current then
      (current[identifier := AttemptRecord(1, now + windowMs)],
       LimitResult(true, maxAttempts, maxAttempts - 1, now + windowMs))
    else if current[identifier].count >= maxAttempts then
      (current, LimitResult(false, maxAttempts, 0, current[identifier].resetAt))
    else
      var record := current[identifier];
      var bumped := AttemptRecord(record.count + 1, record.resetAt);
      (current[identifier := bumped],
       LimitResult(true, maxAttempts, maxAttempts - bumped.count, bumped.resetAt))
  }

  class MemoryRateLimiter {
    var attempts: Attempts
    const maxAttempts: int
    const windowMs: int

    ghost predicate Valid()
      reads this
    {
      CountsInRange(attempts, maxAttempts)
    }

    constructor(maxAttempts: int, windowMs: int)
      ensures Valid()
      ensures attempts == map[]
      ensures this.maxAttempts == maxAttempts && this.windowMs == windowMs
    {
      this.maxAttempts := maxAttempts;
      this.windowMs := windowMs;
      attempts := map[];
    }

    /** `limit(identifier)`: drops an expired entry, then opens a window,
        denies, or counts one more attempt. */
    method Limit(identifier: string, now: int) returns (result: LimitResult)
      requires Valid()
      modifies this
      ensures Valid()
      ensures (attempts, result) == LimitOutcome(old(attempts), maxAttempts, windowMs, identifier, now)
    {
      if identifier in attempts && now > attempts[identifier].resetAt {
        attempts := attempts - {identifier};
      }
      if identifier !in attempts {
        attempts := attempts[identifier := AttemptRecord(1, now + windowMs)];
        return LimitResult(true, maxAttempts, maxAttempts - 1, now + windowMs);
      }
      var current := attempts[identifier];
      if current.count >= maxAttempts {
        return LimitResult(false, maxAttempts, 0, current.resetAt);
      }
      current := current.(count := current.count + 1);
      attempts := attempts[identifier := current];
      return LimitResult(true, maxAttempts, maxAttempts - current.count, current.resetAt);
    }
  }

  // ---------------------------------------------------------------------------
  // One call, case by case
  // ---------------------------------------------------------------------------

  /** No live record (absent, or strictly expired): a window of `windowMs` opens now. */
  lemma OpensWindowWithoutLiveRecord(attempts: Attempts, maxAttempts: int, windowMs: int, identifier: string, now: int)
    requires !IsLive(attempts, identifier, now)
    ensures LimitOutcome(attempts, maxAttempts, windowMs, identifier, now)
         == (attempts[identifier := AttemptRecord(1, now + windowMs)],
             LimitResult(true, maxAttempts, maxAttempts - 1, now + windowMs))
  {
    var current := if identifier in attempts then attempts - {identifier} else attempts;
    assert current[identifier := AttemptRecord(1, now + windowMs)]
        == attempts[identifier := AttemptRecord(1, now + windowMs)];
  }

  /** Expiry is strict: at `now == resetAt` the record is live and keeps its window end. */
  lemma ExpiryIsStrict(attempts: Attempts, maxAttempts: int, windowMs: int, identifier: string)
    requires identifier in attempts
    ensures var now := attempts[identifier].resetAt;
            var out := LimitOutcome(attempts, maxAttempts, windowMs, identifier, now);
            IsLive(attempts, identifier, now) &&
            out.0[identifier].resetAt == now &&
            (attempts[identifier].count >= maxAttempts ==> !out.1.success)
  {
  }

  /** A live record at the cap: denied, nothing stored changes. */
  lemma DeniesAtCap(attempts: Attempts, maxAttempts: int, windowMs: int, identifier: string, now: int)
    requires IsLive(attempts, identifier, now)
    requires attempts[identifier].count >= maxAttempts
    ensures LimitOutcome(attempts, maxAttempts, windowMs, identifier, now)
         == (attempts, LimitResult(false, maxAttempts, 0, attempts[identifier].resetAt))
  {
  }

  /** A live record under the cap: one more attempt is counted in the same window. */
  lemma CountsUnderCap(attempts: Attempts, maxAttempts: int, windowMs: int, identifier: string, now: int)
    requires IsLive(attempts, identifier, now)
    requires attempts[identifier].count < maxAttempts
    ensures var record := attempts[identifier];
            LimitOutcome(attempts, maxAttempts, windowMs, identifier, now) ==
              (attempts[identifier := AttemptRecord(record.count + 1, record.resetAt)],
               LimitResult(true, maxAttempts, maxAttempts - record.count - 1, record.resetAt))
  {
  }

  // ---------------------------------------------------------------------------
  // Many calls for one identifier
  // ---------------------------------------------------------------------------

  /** The map and the results of successive calls for `identifier` at the given times. */
  function RunCalls(attempts: Attempts, maxAttempts: int, windowMs: int, identifier: string, times: seq<int>)
    : (out: (Attempts, seq<LimitResult>))
    ensures |out.1| == |times|
    decreases |times|
  {
    if times == [] then (attempts, [])
    else
      var first := LimitOutcome(attempts, maxAttempts, windowMs, identifier, times[0]);
      var rest := RunCalls(first.0, maxAttempts, windowMs, identifier, times[1..]);
      (rest.0, [first.1] + rest.1)
  }

  function Min(a: int, b: int): int {
    if a <= b then a else b
  }

  /** Calls that stay inside a live window with `count` attempts recorded: the
      count climbs to the cap and stays there, and every call reports the same window end. */
  lemma {:induction false} RunInsideWindow(attempts: Attempts, maxAttempts: int, windowMs: int,
                                           identifier: string, count: int, resetAt: int, times: seq<int>)
    requires maxAttempts >= 1 && 1 <= count <= maxAttempts
    requires identifier in attempts && attempts[identifier] == AttemptRecord(count, resetAt)
    requires forall k :: 0 <= k < |times| ==> times[k] <= resetAt
    ensures var out := RunCalls(attempts, maxAttempts, windowMs, identifier, times);
            identifier in out.0 &&
            out.0[identifier] == AttemptRecord(Min(count + |times|, maxAttempts), resetAt) &&
            forall k :: 0 <= k < |times| ==>
              out.1[k].reset == resetAt &&
              (out.1[k].success <==> count + k < maxAttempts) &&
              out.1[k].remaining == (if count + k < maxAttempts then maxAttempts - count - k - 1 else 0)
    decreases |times|
  {
    if times != [] {
      var first := LimitOutcome(attempts, maxAttempts, windowMs, identifier, times[0]);
      var next := Min(count + 1, maxAttempts);
      assert first.0[identifier] == AttemptRecord(next, resetAt);
      RunInsideWindow(first.0, maxAttempts, windowMs, identifier, next, resetAt, times[1..]);
      var rest := RunCalls(first.0, maxAttempts, windowMs, identifier, times[1..]);
      var out := RunCalls(attempts, maxAttempts, windowMs, identifier, times);
      assert out.1 == [first.1] + rest.1;
      forall k | 1 <= k < |times|
        ensures out.1[k].reset == resetAt
        ensures out.1[k].success <==> count + k < maxAttempts
        ensures out.1[k].remaining == (if count + k < maxAttempts then maxAttempts - count - k - 1 else 0)
      {
        assert out.1[k] == rest.1[k - 1];
      }
    }
  }

  /**
   * Within one window exactly `maxAttempts` calls succeed: a first call with no
   * live record opens the window at `t0`; of it and every later call made no
   * later than `t0 + windowMs`, call `k` (from 0) succeeds iff `k < maxAttempts`,
   * reports `remaining = maxAttempts - 1 - k` (0 once denied), and all report
   * the same `reset = t0 + windowMs`.
   */
  lemma {:induction false} ExactlyMaxAttemptsPerWindow(attempts: Attempts, maxAttempts: int, windowMs: int,
                                                       identifier: string, t0: int, later: seq<int>)
    requires maxAttempts >= 1
    requires !IsLive(attempts, identifier, t0)
    requires forall k :: 0 <= k < |later| ==> later[k] <= t0 + windowMs
    ensures var after := RunCalls(attempts, maxAttempts, windowMs, identifier, [t0] + later).0;
            identifier in after &&
            after[identifier] == AttemptRecord(Min(1 + |later|, maxAttempts), t0 + windowMs)
    ensures var results := RunCalls(attempts, maxAttempts, windowMs, identifier, [t0] + later).1;
            |results| == |later| + 1 &&
            forall k :: 0 <= k < |results| ==>
              results[k].reset == t0 + windowMs &&
              (results[k].success <==> k < maxAttempts) &&
              results[k].remaining == (if k < maxAttempts then maxAttempts - 1 - k else 0)
  {
    var times := [t0] + later;
    OpensWindowWithoutLiveRecord(attempts, maxAttempts, windowMs, identifier, t0);
    var first := LimitOutcome(attempts, maxAttempts, windowMs, identifier, t0);
    assert times[1..] == later;
    RunInsideWindow(first.0, maxAttempts, windowMs, identifier, 1, t0 + windowMs, later);
    var rest := RunCalls(first.0, maxAttempts, windowMs, identifier, later);
    var results := RunCalls(attempts, maxAttempts, windowMs, identifier, times).1;
    assert RunCalls(attempts, maxAttempts, windowMs, identifier, times).0 == rest.0;
    assert results == [first.1] + rest.1;
    forall k | 1 <= k < |results|
      ensures results[k].reset == t0 + windowMs
      ensures results[k].success <==> k < maxAttempts
      ensures results[k].remaining == (if k < maxAttempts then maxAttempts - 1 - k else 0)
    {
      assert results[k] == rest.1[k - 1];
    }
  }

  /** Running two batches of calls one after the other is running their concatenation. */
  lemma {:induction false} RunCallsAppend(attempts: Attempts, maxAttempts: int, windowMs: int,
                                          identifier: string, first: seq<int>, second: seq<int>)
    ensures var a := RunCalls(attempts, maxAttempts, windowMs, identifier, first);
            var b := RunCalls(a.0, maxAttempts, windowMs, identifier, second);
            RunCalls(attempts, maxAttempts, windowMs, identifier, first + second) == (b.0, a.1 + b.1)
    decreases |first|
  {
    if first == [] {
      assert first + second == second;
      var b := RunCalls(attempts, maxAttempts, windowMs, identifier, second);
      assert [] + b.1 == b.1;
    } else {
      var step := LimitOutcome(attempts, maxAttempts, windowMs, identifier, first[0]);
      assert (first + second)[0] == first[0];
      assert (first + second)[1..] == first[1..] + second;
      RunCallsAppend(step.0, maxAttempts, windowMs, identifier, first[1..], second);
      var a := RunCalls(step.0, maxAttempts, windowMs, identifier, first[1..]);
      assert [step.1] + (a.1 + RunCalls(a.0, maxAttempts, windowMs, identifier, second).1)
          == ([step.1] + a.1) + RunCalls(a.0, maxAttempts, windowMs, identifier, second).1;
    }
  }

  /**
   * A login limiter (5 per 15 minutes) and one client: five calls within the
   * first second succeed, the sixth is denied with nothing remaining, and a
   * call 900001 ms after the first opens a new window with 4 remaining.
   */
  lemma LoginScenario(attempts: Attempts, t0: int)
    requires "203.0.113.7" !in attempts
    ensures var results := RunCalls(attempts, 5, 15 * MinuteMs, "203.0.113.7",
                                    [t0, t0 + 200, t0 + 400, t0 + 600, t0 + 800, t0 + 1000, t0 + 900001]).1;
            results[0].success && results[1].success && results[2].success &&
            results[3].success && results[4].success &&
            !results[5].success && results[5].remaining == 0 &&
            results[6].success && results[6].remaining == 4 && results[6].reset == t0 + 900001 + 15 * MinuteMs
  {
    var id := "203.0.113.7";
    var window := [t0, t0 + 200, t0 + 400, t0 + 600, t0 + 800, t0 + 1000];
    ExactlyMaxAttemptsPerWindow(attempts, 5, 15 * MinuteMs, id, t0, window[1..]);
    assert [t0] + window[1..] == window;
    var a := RunCalls(attempts, 5, 15 * MinuteMs, id, window);
    OpensWindowWithoutLiveRecord(a.0, 5, 15 * MinuteMs, id, t0 + 900001);
    RunCallsAppend(attempts, 5, 15 * MinuteMs, id, window, [t0 + 900001]);
    assert window + [t0 + 900001] == [t0, t0 + 200, t0 + 400, t0 + 600, t0 + 800, t0 + 1000, t0 + 900001];
  }

  /** Calls for one identifier never change the entry of another. */
  lemma {:induction false} RunLeavesOtherIdentifiers(attempts: Attempts, maxAttempts: int, windowMs: int,
                                                     identifier: string, times: seq<int>, other: string)
    requires other != identifier
    ensures var after := RunCalls(attempts, maxAttempts, windowMs, identifier, times).0;
            (other in after <==> other in attempts) &&
            (other in attempts ==> after[other] == attempts[other])
    decreases |times|
  {
    if times != [] {
      var first := LimitOutcome(attempts, maxAttempts, windowMs, identifier, times[0]);
      RunLeavesOtherIdentifiers(first.0, maxAttempts, windowMs, identifier, times[1..], other);
    }
  }

  // ---------------------------------------------------------------------------
  // The four configured limiters
  // ---------------------------------------------------------------------------

  /** The keys of `memoryRateLimiters`. */
  datatype Purpose = ApiRequest | Login | SecurityChange | KeyRotation

  const MinuteMs: int := 60 * 1000
  const HourMs: int := 60 * MinuteMs
  const DayMs: int := 24 * HourMs

  /** `memoryRateLimiters`: one limiter, with its own map, per purpose. */
  class MemoryRateLimiters {
    const apiRequest: MemoryRateLimiter
    const login: MemoryRateLimiter
    const securityChange: MemoryRateLimiter
    const keyRotation: MemoryRateLimiter

    function For(purpose: Purpose): MemoryRateLimiter {
      match purpose
      case ApiRequest => apiRequest
      case Login => login
      case SecurityChange => securityChange
      case KeyRotation => keyRotation
    }

    ghost function Repr(): set<object> {
      {apiRequest, login, securityChange, keyRotation}
    }

    /** Four distinct limiter objects, each keeping its invariant. */
    ghost predicate Valid()
      reads Repr()
    {
      apiRequest != login && apiRequest != securityChange && apiRequest != keyRotation &&
      login != securityChange && login != keyRotation && securityChange != keyRotation &&
      apiRequest.Valid() && login.Valid() && securityChange.Valid() && keyRotation.Valid()
    }

    /** 1000 per hour, 5 per 15 minutes, 3 per hour and 5 per day, all empty. */
    constructor()
      ensures Valid() && fresh(Repr())
      ensures apiRequest.maxAttempts == 1000 && apiRequest.windowMs == HourMs
      ensures login.maxAttempts == 5 && login.windowMs == 15 * MinuteMs
      ensures securityChange.maxAttempts == 3 && securityChange.windowMs == HourMs
      ensures keyRotation.maxAttempts == 5 && keyRotation.windowMs == DayMs
      ensures forall p :: For(p).attempts == map[]
    {
      apiRequest := new MemoryRateLimiter(1000, HourMs);
      login := new MemoryRateLimiter(5, 15 * MinuteMs);
      securityChange := new MemoryRateLimiter(3, HourMs);
      keyRotation := new MemoryRateLimiter(5, DayMs);
    }

    lemma ForIsInRepr(purpose: Purpose)
      requires Valid()
      ensures For(purpose) in Repr() && For(purpose).Valid()
      ensures forall other :: other != purpose ==> For(other) != For(purpose)
    {
    }
  }
}

=== FILE: settings.dfy ===
/**
 * The two credential-change server actions of the settings page. Each runs its
 * checks in a fixed order and stops at the first that fails: a signed-in
 * tenant, the schema (its first issue is the error), the tenant row, the
 * current secret; only then is the tenant row updated and, after that, the
 * audit entry written. The hash comparison and the hash function are parameters.
 */
module Settings {
  import opened Wrappers
  import opened Store
  import opened Validation
  import Audit

  /** How an action ends: normally, by throwing an error with a message, or by
      the redirect to the sign-in page. */
  datatype Outcome = Done | Failed(message: string) | RedirectToLogin

  /** `requireTenantId()`: the session's tenant id, when present and non-empty. */
  predicate SignedIn(sessionTenantId: Option<string>) {
    sessionTenantId.Some? && sessionTenantId.value != ""
  }

  /** The order of checks shared by both actions. */
  function CheckOrder(tenants: map<string, Tenant>, sessionTenantId: Option<string>, issues: seq<Issue>,
                      secretCheck: Tenant -> Result<bool>, wrongSecret: string): Outcome
  {
    if !SignedIn(sessionTenantId) then RedirectToLogin
    else if issues != [] then Failed(issues[0].message)
    else if sessionTenantId.value !in tenants then Failed("Tenant not found")
    else match secretCheck(tenants[sessionTenantId.value])
      case Err(m) => Failed(m)
      case Ok(valid) => if valid then Done else Failed(wrongSecret)
  }

  // ---------------------------------------------------------------------------
  // changePasswordAction
  // ---------------------------------------------------------------------------

  /** The outcome of `changePasswordAction`; `compare(plain, hash)` is the hash comparison. */
  function PasswordChangeOutcome(tenants: map<string, Tenant>, sessionTenantId: Option<string>,
                                 currentPassword: string, newPassword: string, confirmPassword: string,
                                 compare: (string, string) -> Result<bool>): Outcome
  {
    CheckOrder(tenants, sessionTenantId, ChangePasswordIssues(currentPassword, newPassword, confirmPassword),
               (t: Tenant) => compare(currentPassword, t.passwordHash), "Current password is incorrect")
  }

  /** The tenant row after a password change at time `now`. */
  function WithNewPassword(t: Tenant, newHash: string, now: int): Tenant {
    t.(passwordHash := newHash, mustChangePassword := false, updatedAt := now)
  }

  /**
   * The password change completes exactly when the tenant is signed in, the
   * schema accepts the input, the tenant row exists and the current password
   * matches its hash. A schema failure reports the first issue and does not
   * depend on the stored tenants, since none is read.
   */
  lemma PasswordChangeOutcomeCases(tenants: map<string, Tenant>, sessionTenantId: Option<string>,
                                   currentPassword: string, newPassword: string, confirmPassword: string,
                                   compare: (string, string) -> Result<bool>, otherTenants: map<string, Tenant>)
    ensures var out := PasswordChangeOutcome(tenants, sessionTenantId, currentPassword, newPassword, confirmPassword, compare);
            var issues := ChangePasswordIssues(currentPassword, newPassword, confirmPassword);
            (out == Done <==>
               SignedIn(sessionTenantId) && issues == [] && sessionTenantId.value in tenants
               && compare(currentPassword, tenants[sessionTenantId.value].passwordHash) == Ok(true))
            && (SignedIn(sessionTenantId) && issues != [] ==>
                  out == Failed(issues[0].message)
                  && out == PasswordChangeOutcome(otherTenants, sessionTenantId, currentPassword, newPassword,
                                                  confirmPassword, compare))
            && (SignedIn(sessionTenantId) && issues == [] && sessionTenantId.value !in tenants ==>
                  out == Failed("Tenant not found"))
            && (SignedIn(sessionTenantId) && issues == [] && sessionTenantId.value in tenants
                && compare(currentPassword, tenants[sessionTenantId.value].passwordHash) == Ok(false) ==>
                  out == Failed("Current password is incorrect"))
  {
  }

  /** The first message for a too-short current password is the length rule,
      whatever is wrong with the other fields. */
  lemma ShortCurrentPasswordReportedFirst(tenants: map<string, Tenant>, tenantId: string,
                                          currentPassword: string, newPassword: string, confirmPassword: string,
                                          compare: (string, string) -> Result<bool>)
    requires tenantId != "" && |currentPassword| < 8
    ensures PasswordChangeOutcome(tenants, Some(tenantId), currentPassword, newPassword, confirmPassword, compare)
            == Failed("Password must be at least 8 characters")
  {
  }

  /**
   * `changePasswordAction(formData)`: on success the tenant's password hash
   * becomes `hash(newPassword)`, `mustChangePassword` is cleared and
   * `updatedAt` is `now`, and then the audit entry is appended (unless its
   * write fails, which is swallowed). On any other outcome nothing is written.
   */
  method ChangePasswordAction(db: Database, sessionTenantId: Option<string>,
                              currentPassword: string, newPassword: string, confirmPassword: string,
                              compare: (string, string) -> Result<bool>, hash: string -> string,
                              now: int, auditFails: bool)
    returns (outcome: Outcome)
    requires db.Valid()
    modifies db
    ensures db.Valid()
    ensures outcome == PasswordChangeOutcome(old(db.tenants), sessionTenantId, currentPassword, newPassword,
                                             confirmPassword, compare)
    ensures db.apiKeys == old(db.apiKeys) && db.billingEvents == old(db.billingEvents)
    ensures outcome != Done ==> db.tenants == old(db.tenants) && db.auditLogs == old(db.auditLogs)
    ensures outcome == Done ==>
              var id := sessionTenantId.value;
              db.tenants == old(db.tenants)[id := WithNewPassword(old(db.tenants)[id], hash(newPassword), now)]
              && db.auditLogs == old(db.auditLogs)
                                 + (if auditFails then []
                                    else [Audit.BuildAuditRecord(Audit.PasswordChangedEntry(id, Audit.Origin(None, None)),
                                                                 db.tenants, now)])
  {
    if !SignedIn(sessionTenantId) {
      return RedirectToLogin;
    }
    var tenantId := sessionTenantId.value;
    var issues := ChangePasswordIssues(currentPassword, newPassword, confirmPassword);
    if issues != [] {
      return Failed(issues[0].message);
    }
    if tenantId !in db.tenants {
      return Failed("Tenant not found");
    }
    var tenant := db.tenants[tenantId];
    var validPassword := compare(currentPassword, tenant.passwordHash);
    if validPassword.Err? {
      return Failed(validPassword.message);
    }
    if !validPassword.value {
      return Failed("Current password is incorrect");
    }
    db.tenants := db.tenants[tenantId := WithNewPassword(tenant, hash(newPassword), now)];
    var _ := Audit.CreateAuditLog(db, Audit.PasswordChangedEntry(tenantId, Audit.Origin(None, None)), now, auditFails);
    return Done;
  }

  // ---------------------------------------------------------------------------
  // changeHcsCodeAction
  // ---------------------------------------------------------------------------

  /** The outcome of `changeHcsCodeAction`. */
  function HcsCodeChangeOutcome(tenants: map<string, Tenant>, sessionTenantId: Option<string>,
                                currentHcsCode: string, newHcsCode: string, confirmHcsCode: string,
                                compare: (string, string) -> Result<bool>): Outcome
  {
    CheckOrder(tenants, sessionTenantId, ChangeHcsCodeIssues(currentHcsCode, newHcsCode, confirmHcsCode),
               (t: Tenant) => compare(currentHcsCode, t.hcsCodeHash), "Current HCS-U7 code is incorrect")
  }

  /** The tenant row after a code change: the password fields are kept. */
  function WithNewHcsCode(t: Tenant, newHash: string, now: int): Tenant {
    t.(hcsCodeHash := newHash, updatedAt := now)
  }

  /** The code change completes exactly when the tenant is signed in, the schema
      accepts the input, the row exists and the current code matches its hash;
      a wrong current code gives its own message. */
  lemma HcsCodeChangeOutcomeCases(tenants: map<string, Tenant>, sessionTenantId: Option<string>,
                                  currentHcsCode: string, newHcsCode: string, confirmHcsCode: string,
                                  compare: (string, string) -> Result<bool>)
    ensures var out := HcsCodeChangeOutcome(tenants, sessionTenantId, currentHcsCode, newHcsCode, confirmHcsCode, compare);
            var issues := ChangeHcsCodeIssues(currentHcsCode, newHcsCode, confirmHcsCode);
            (out == Done <==>
               SignedIn(sessionTenantId) && issues == [] && sessionTenantId.value in tenants
               && compare(currentHcsCode, tenants[sessionTenantId.value].hcsCodeHash) == Ok(true))
            && (SignedIn(sessionTenantId) && issues != [] ==> out == Failed(issues[0].message))
            && (SignedIn(sessionTenantId) && issues == [] && sessionTenantId.value in tenants
                && compare(currentHcsCode, tenants[sessionTenantId.value].hcsCodeHash) == Ok(false) ==>
                  out == Failed("Current HCS-U7 code is incorrect"))
  {
  }

  /** A successful code change leaves the password hash and `mustChangePassword` as they were. */
  lemma HcsCodeChangeKeepsPassword(t: Tenant, newHash: string, now: int)
    ensures WithNewHcsCode(t, newHash, now).passwordHash == t.passwordHash
    ensures WithNewHcsCode(t, newHash, now).mustChangePassword == t.mustChangePassword
    ensures WithNewHcsCode(t, newHash, now).(hcsCodeHash := t.hcsCodeHash, updatedAt := t.updatedAt) == t
  {
  }

  /**
   * `changeHcsCodeAction(formData)`: on success only `hcsCodeHash` (to
   * `hash(newHcsCode)`) and `updatedAt` change, then the audit entry is
   * appended; on any other outcome nothing is written.
   */
  method ChangeHcsCodeAction(db: Database, sessionTenantId: Option<string>,
                             currentHcsCode: string, newHcsCode: string, confirmHcsCode: string,
                             compare: (string, string) -> Result<bool>, hash: string -> string,
                             now: int, auditFails: bool)
    returns (outcome: Outcome)
    requires db.Valid()
    modifies db
    ensures db.Valid()
    ensures outcome == HcsCodeChangeOutcome(old(db.tenants), sessionTenantId, currentHcsCode, newHcsCode,
                                            confirmHcsCode, compare)
    ensures db.apiKeys == old(db.apiKeys) && db.billingEvents == old(db.billingEvents)
    ensures outcome != Done ==> db.tenants == old(db.tenants) && db.auditLogs == old(db.auditLogs)
    ensures outcome == Done ==>
              var id := sessionTenantId.value;
              db.tenants == old(db.tenants)[id := WithNewHcsCode(old(db.tenants)[id], hash(newHcsCode), now)]
              && db.auditLogs == old(db.auditLogs)
                                 + (if auditFails then []
                                    else [Audit.BuildAuditRecord(Audit.HcsCodeChangedEntry(id, Audit.Origin(None, None)),
                                                                 db.tenants, now)])
  {
    if !SignedIn(sessionTenantId) {
      return RedirectToLogin;
    }
    var tenantId := sessionTenantId.value;
    var issues := ChangeHcsCodeIssues(currentHcsCode, newHcsCode, confirmHcsCode);
    if issues != [] {
      return Failed(issues[0].message);
    }
    if tenantId !in db.tenants {
      return Failed("Tenant not found");
    }
    var tenant := db.tenants[tenantId];
    var validCode := compare(currentHcsCode, tenant.hcsCodeHash);
    if validCode.Err? {
      return Failed(validCode.message);
    }
    if !validCode.value {
      return Failed("Current HCS-U7 code is incorrect");
    }
    db.tenants := db.tenants[tenantId := WithNewHcsCode(tenant, hash(newHcsCode), now)];
    var _ := Audit.CreateAuditLog(db, Audit.HcsCodeChangedEntry(tenantId, Audit.Origin(None, None)), now, auditFails);
    return Done;
  }
}

=== FILE: store.dfy ===
/**
 * The persistent tables the application reads and writes through Prisma and
 * raw SQL, reduced to the columns its logic touches. The database itself is
 * an object whose fields the operations of the other modules update in place.
 */
module Store {
  import opened Wrappers

  /** `tenants.status` */
  datatype TenantStatus = Trial | Active | Suspended | Cancelled | Churned

  /** A row of `tenants`. Timestamps are epoch milliseconds. */
  datatype Tenant = Tenant(
    id: string,
    email: string,
    fullName: Option<string>,
    company: Option<string>,
    website: Option<string>,
    plan: string,
    status: TenantStatus,
    monthlyQuota: int,
    currentUsage: int,
    passwordHash: string,
    hcsCodeHash: string,
    mustChangePassword: bool,
    subscriptionStartedAt: Option<int>,
    trialEndsAt: Option<int>,
    updatedAt: int)

  /** `billing_events.type` */
  datatype BillingEventType =
    | SubscriptionRenewed
    | PaymentFailed
    | SubscriptionCreated
    | TrialStarted
    | PlanUpgraded
    | PlanDowngraded
    | SubscriptionCancelled

  /** A row of `billing_events`. `amountCents` is the provider's amount in minor
      units (the stored amount is a hundredth of it); a `None` for `stripePaid`
      leaves the column at its default. */
  datatype BillingEvent = BillingEvent(
    tenantId: string,
    eventType: BillingEventType,
    amountCents: int,
    currency: string,
    stripePaid: Option<bool>,
    stripeInvoiceId: Option<string>,
    description: string)

  /** The `AuditAction` enumeration. */
  datatype AuditAction =
    | LoginSuccess | LoginFailed | Logout | SessionExpired
    | PasswordChanged | HcsCodeChanged
    | ApiKeyRotated | ApiKeyCreated | ApiKeyDeleted | ApiKeyViewed
    | ProfileUpdated | ProfileViewed
    | QuotaExceeded | QuotaWarning80 | UsageExport
    | PlanUpgradedAction | PlanDowngradedAction | PaymentMethodUpdated
    | ScaConfigUpdated | SecuritySettingsUpdated

  /** A row of `audit_logs`; `changes` stands for the JSON object of changed fields. */
  datatype AuditRecord = AuditRecord(
    adminUserId: string,
    adminEmail: string,
    action: AuditAction,
    entityType: string,
    entityId: string,
    changes: map<string, string>,
    ipAddress: string,
    userAgent: string,
    createdAt: int)

  /** A row of `api_keys`: only a hash, a prefix and the last four characters of a key are kept. */
  datatype ApiKeyRow = ApiKeyRow(
    id: string,
    keyHash: string,
    keyPrefix: string,
    lastFourChars: string,
    environment: string,
    tenantId: string,
    isActive: bool,
    name: Option<string>,
    createdAt: int,
    lastUsedAt: Option<int>,
    updatedAt: Option<int>)

  /**
   * How an operation that issues two writes without a transaction ends: both
   * writes persist, the first one throws, or the first persists and the
   * second throws. `message` is the driver's error.
   */
  datatype WriteOutcome =
    | BothWritten
    | FirstWriteFails(message: string)
    | SecondWriteFails(message: string)

  class Database {
    var tenants: map<string, Tenant>
    var billingEvents: seq<BillingEvent>
    var auditLogs: seq<AuditRecord>
    var apiKeys: seq<ApiKeyRow>

    /** Tenants are stored under their own id. */
    ghost predicate Valid()
      reads this
    {
      forall id :: id in tenants ==> tenants[id].id == id
    }

    constructor(tenants: map<string, Tenant>, apiKeys: seq<ApiKeyRow>)
      requires forall id :: id in tenants ==> tenants[id].id == id
      ensures Valid()
      ensures this.tenants == tenants && this.apiKeys == apiKeys
      ensures billingEvents == [] && auditLogs == []
    {
      this.tenants := tenants;
      this.apiKeys := apiKeys;
      billingEvents := [];
      auditLogs := [];
    }
  }
}

=== FILE: stripe_webhook.dfy ===
/**
 * The billing webhook: a verified provider event becomes a change of one
 * tenant row (status, plan, quota, usage counter) and one appended billing
 * event. The tenant is named by the `tenantId` entry of the event object's
 * metadata; an event without one changes nothing. Signature verification is
 * the parameter `constructEvent`; the e-mails sent along the way are not part
 * of this model.
 */
module StripeWebhook {
  import opened Wrappers
  import opened Text
  import opened Store

  // ---------------------------------------------------------------------------
  // event objects
  // ---------------------------------------------------------------------------

  /** The first price item of a subscription: its id and its `metadata.plan`. */
  datatype Price = Price(id: string, planMetadata: Option<string>)

  /** The fields of a subscription object the handlers read; times are epoch seconds. */
  datatype Subscription = Subscription(
    tenantId: Option<string>,
    firstPrice: Option<Price>,
    created: int,
    trialEnd: Option<int>,
    cancelAtPeriodEnd: bool)

  /** The fields of an invoice object the handlers read; amounts are in minor units. */
  datatype Invoice = Invoice(
    id: string,
    tenantId: Option<string>,
    amountPaid: int,
    amountDue: int,
    currency: Option<string>,
    description: Option<string>)

  /** A verified event, by its `type`, with its data object. */
  datatype Event =
    | InvoicePaidEvent(invoice: Invoice)
    | InvoicePaymentFailedEvent(invoice: Invoice)
    | SubscriptionCreatedEvent(subscription: Subscription)
    | SubscriptionUpdatedEvent(subscription: Subscription)
    | SubscriptionDeletedEvent(subscription: Subscription)
    | TrialWillEndEvent(subscription: Subscription)
    | PaymentIntentSucceededEvent
    | OtherEvent(otherType: string)

  /** The type names the route has a case for. */
  const HandledTypes: set<string> := {
    "invoice.paid", "invoice.payment_failed", "customer.subscription.created",
    "customer.subscription.updated", "customer.subscription.deleted",
    "customer.subscription.trial_will_end", "payment_intent.succeeded"}

  /** An event of a type the route does not handle carries none of the handled names. */
  predicate WellFormedEvent(e: Event) {
    e.OtherEvent? ==> e.otherType !in HandledTypes
  }

  /** `event.type` */
  function EventType(e: Event): string {
    match e
    case InvoicePaidEvent(_) => "invoice.paid"
    case InvoicePaymentFailedEvent(_) => "invoice.payment_failed"
    case SubscriptionCreatedEvent(_) => "customer.subscription.created"
    case SubscriptionUpdatedEvent(_) => "customer.subscription.updated"
    case SubscriptionDeletedEvent(_) => "customer.subscription.deleted"
    case TrialWillEndEvent(_) => "customer.subscription.trial_will_end"
    case PaymentIntentSucceededEvent => "payment_intent.succeeded"
    case OtherEvent(t) => t
  }

  /**
   * Of well-formed events, the type name selects the case: an event falls to
   * the route's default case exactly when its name is not handled, and two
   * events with the same handled name take the same case.
   */
  lemma EventTypeSelectsCase(e: Event, f: Event)
    requires WellFormedEvent(e) && WellFormedEvent(f)
    ensures e.OtherEvent? <==> EventType(e) !in HandledTypes
    ensures EventType(e) == EventType(f) && EventType(e) in HandledTypes ==>
              e.InvoicePaidEvent? == f.InvoicePaidEvent?
              && e.InvoicePaymentFailedEvent? == f.InvoicePaymentFailedEvent?
              && e.SubscriptionCreatedEvent? == f.SubscriptionCreatedEvent?
              && e.SubscriptionUpdatedEvent? == f.SubscriptionUpdatedEvent?
              && e.SubscriptionDeletedEvent? == f.SubscriptionDeletedEvent?
              && e.TrialWillEndEvent? == f.TrialWillEndEvent?
              && e.PaymentIntentSucceededEvent? == f.PaymentIntentSucceededEvent?
  {
  }

  /** `subscription.trial_end` is truthy: present and not zero. */
  predicate HasTrial(s: Subscription) {
    s.trialEnd.Some? && s.trialEnd.value != 0
  }

  // ---------------------------------------------------------------------------
  // plans and quotas
  // ---------------------------------------------------------------------------

  /** The `quotas` table, keyed by upper-case plan name. */
  function QuotaTable(plan: string): Option<int> {
    if plan == "FREE" then Some(1000)
    else if plan == "STARTER" then Some(10000)
    else if plan == "PRO" then Some(100000)
    else if plan == "BUSINESS" then Some(500000)
    else if plan == "ENTERPRISE" then Some(999999999)
    else None
  }

  /** `getQuotaForPlan(plan)`: the table entry for the upper-cased plan, else 10000. */
  function GetQuotaForPlan(plan: string): (quota: int)
    ensures quota > 0
  {
    var entry := QuotaTable(ToUpper(plan));
    if entry.Some? then entry.value else 10000
  }

  /**
   * The quota of each named plan, whatever its letter case, and the quotas grow
   * with the tier; a plan the table does not name gets the STARTER quota.
   */
  lemma QuotaPerPlan(plan: string)
    ensures ToUpper(plan) == "FREE" ==> GetQuotaForPlan(plan) == 1000
    ensures ToUpper(plan) == "STARTER" ==> GetQuotaForPlan(plan) == 10000
    ensures ToUpper(plan) == "PRO" ==> GetQuotaForPlan(plan) == 100000
    ensures ToUpper(plan) == "BUSINESS" ==> GetQuotaForPlan(plan) == 500000
    ensures ToUpper(plan) == "ENTERPRISE" ==> GetQuotaForPlan(plan) == 999999999
    ensures QuotaTable(ToUpper(plan)).None? ==> GetQuotaForPlan(plan) == GetQuotaForPlan("STARTER")
    ensures GetQuotaForPlan("FREE") < GetQuotaForPlan("STARTER") < GetQuotaForPlan("PRO")
            < GetQuotaForPlan("BUSINESS") < GetQuotaForPlan("ENTERPRISE")
  {
    assert ToUpper("STARTER") == "STARTER";
    assert ToUpper("FREE") == "FREE";
    assert ToUpper("PRO") == "PRO";
    assert ToUpper("BUSINESS") == "BUSINESS";
    assert ToUpper("ENTERPRISE") == "ENTERPRISE";
  }

  /** The quota depends only on the upper-cased plan name. */
  lemma QuotaIgnoresCase(a: string, b: string)
    requires ToUpper(a) == ToUpper(b)
    ensures GetQuotaForPlan(a) == GetQuotaForPlan(b)
  {
  }

  /** The `priceIdToPlan` table. */
  function PlanForPriceId(priceId: string): Option<string> {
    if priceId == "price_1QYH72HMNZWvMcNZ0p8Nf3D2" then Some("STARTER")
    else if priceId == "price_1QYH73HMNZWvMcNZZKFz7p7L" then Some("PRO")
    else if priceId == "price_1QYH74HMNZWvMcNZBMrjCmek" then Some("BUSINESS")
    else if priceId == "price_1QYH75HMNZWvMcNZEywFQBPR" then Some("ENTERPRISE")
    else None
  }

  /** A string without lower-case ASCII letters. */
  predicate IsUpperCase(s: string) {
    forall k :: 0 <= k < |s| ==> !('a' <= s[k] <= 'z')
  }

  /**
   * `determinePlanFromSubscription`: the first price's `metadata.plan`,
   * upper-cased, when it is truthy; otherwise the plan its id maps to, or
   * STARTER. Either way the plan has no lower-case letter.
   */
  function DeterminePlan(firstPrice: Option<Price>): (plan: string)
    ensures firstPrice.Some? && Truthy(firstPrice.value.planMetadata) ==>
              plan == ToUpper(firstPrice.value.planMetadata.value)
    ensures !(firstPrice.Some? && Truthy(firstPrice.value.planMetadata)) ==>
              plan in {"STARTER", "PRO", "BUSINESS", "ENTERPRISE"}
              && (firstPrice.Some? && PlanForPriceId(firstPrice.value.id).Some? ==>
                    plan == PlanForPriceId(firstPrice.value.id).value)
    ensures IsUpperCase(plan) && ToUpper(plan) == plan
  {
    if firstPrice.Some? && Truthy(firstPrice.value.planMetadata) then
      ToUpper(firstPrice.value.planMetadata.value)
    else
      var priceId := if firstPrice.Some? then firstPrice.value.id else "";
      var mapped := PlanForPriceId(priceId);
      if mapped.Some? then mapped.value else "STARTER"
  }

  // ---------------------------------------------------------------------------
  // tenant transitions
  // ---------------------------------------------------------------------------

  /** What handling an event does to the tables: nothing, throw before writing,
      or write one tenant row and append one billing event. */
  datatype Effect = Unchanged | Fails | Writes(tenant: Tenant, billing: BillingEvent)

  /** The invoice handlers create the billing event and then update the
      tenant; the subscription handlers update the tenant first. */
  predicate BillingWrittenFirst(e: Event) {
    e.InvoicePaidEvent? || e.InvoicePaymentFailedEvent?
  }

  /** Whether a handler's tenant update persists, given how its two writes end. */
  predicate TenantPersists(e: Event, outcome: WriteOutcome) {
    outcome.BothWritten? || (outcome.SecondWriteFails? && !BillingWrittenFirst(e))
  }

  /** Whether a handler's billing event persists, given how its two writes end. */
  predicate BillingPersists(e: Event, outcome: WriteOutcome) {
    outcome.BothWritten? || (outcome.SecondWriteFails? && BillingWrittenFirst(e))
  }

  /** `invoice.currency?.toUpperCase() || 'EUR'` */
  function Currency(c: Option<string>): string {
    if Truthy(c) then ToUpper(c.value) else "EUR"
  }

  /** The `metadata.tenantId` an event names, if its object carries metadata. */
  function TenantIdOf(e: Event): Option<string> {
    match e
    case InvoicePaidEvent(inv) => inv.tenantId
    case InvoicePaymentFailedEvent(inv) => inv.tenantId
    case SubscriptionCreatedEvent(s) => s.tenantId
    case SubscriptionUpdatedEvent(s) => s.tenantId
    case SubscriptionDeletedEvent(s) => s.tenantId
    case TrialWillEndEvent(s) => s.tenantId
    case PaymentIntentSucceededEvent => None
    case OtherEvent(_) => None
  }

  /** `PLAN_UPGRADED` when the new plan's quota is strictly larger, `PLAN_DOWNGRADED` otherwise. */
  function PlanChangeType(oldPlan: string, newPlan: string): BillingEventType {
    if GetQuotaForPlan(newPlan) > GetQuotaForPlan(oldPlan) then PlanUpgraded else PlanDowngraded
  }

  /**
   * The effect of the handler the event's type selects, at time `now` (epoch
   * milliseconds). A tenant id that names no row makes the first write throw.
   */
  function EventEffect(tenants: map<string, Tenant>, e: Event, now: int): Effect {
    var tenantId := TenantIdOf(e);
    if !Truthy(tenantId) || e.TrialWillEndEvent? then Unchanged
    else
      var id := tenantId.value;
      match e
      case InvoicePaidEvent(inv) =>
        if id !in tenants then Fails
        else Writes(tenants[id].(currentUsage := 0, status := Active, updatedAt := now),
                    BillingEvent(id, SubscriptionRenewed, inv.amountPaid, Currency(inv.currency), Some(true),
                                 Some(inv.id), OrElse(inv.description, "Monthly subscription")))
      case InvoicePaymentFailedEvent(inv) =>
        if id !in tenants then Fails
        else Writes(tenants[id].(status := Suspended, updatedAt := now),
                    BillingEvent(id, PaymentFailed, inv.amountDue, Currency(inv.currency), Some(false),
                                 Some(inv.id), "Payment failed: " + OrElse(inv.description, "Monthly subscription")))
      case SubscriptionCreatedEvent(s) =>
        var plan := DeterminePlan(s.firstPrice);
        if id !in tenants then Fails
        else Writes(tenants[id].(status := Active, plan := plan, subscriptionStartedAt := Some(s.created * 1000),
                                 trialEndsAt := if HasTrial(s) then Some(s.trialEnd.value * 1000) else None,
                                 monthlyQuota := GetQuotaForPlan(plan), updatedAt := now),
                    BillingEvent(id, if HasTrial(s) then TrialStarted else SubscriptionCreated, 0, "EUR", None,
                                 None, "Subscription created: " + plan + " plan"))
      case SubscriptionUpdatedEvent(s) =>
        var newPlan := DeterminePlan(s.firstPrice);
        // a missing row has no plan, which differs from any new plan; the update then throws
        if id !in tenants then Fails
        else if tenants[id].plan == newPlan then Unchanged
        else
          var oldPlan := tenants[id].plan;
          Writes(tenants[id].(plan := newPlan, monthlyQuota := GetQuotaForPlan(newPlan), updatedAt := now),
                 BillingEvent(id, PlanChangeType(oldPlan, newPlan), 0, "EUR", None, None,
                              "Plan changed from " + oldPlan + " to " + newPlan))
      case SubscriptionDeletedEvent(s) =>
        if id !in tenants then Fails
        else Writes(tenants[id].(status := if s.cancelAtPeriodEnd then Cancelled else Churned, updatedAt := now),
                    BillingEvent(id, SubscriptionCancelled, 0, "EUR", None, None, "Subscription cancelled"))
      case _ => Unchanged
  }

  /** An event that names no tenant changes nothing; only the five billing
      events can write, and what they write is that tenant's own row. */
  lemma EffectIsConfinedToItsTenant(tenants: map<string, Tenant>, e: Event, now: int)
    requires forall id :: id in tenants ==> tenants[id].id == id
    ensures !Truthy(TenantIdOf(e)) ==> EventEffect(tenants, e, now) == Unchanged
    ensures EventEffect(tenants, e, now).Fails? ==> TenantIdOf(e).value !in tenants
    ensures EventEffect(tenants, e, now).Writes? ==>
              var id := TenantIdOf(e).value;
              !(e.TrialWillEndEvent? || e.PaymentIntentSucceededEvent? || e.OtherEvent?)
              && id in tenants
              && EventEffect(tenants, e, now).tenant.id == id
              && EventEffect(tenants, e, now).billing.tenantId == id
  {
  }

  /** A paid invoice for a known tenant resets its usage counter and activates
      it, and records a paid renewal for the amount paid; nothing else changes. */
  lemma InvoicePaidResetsUsage(tenants: map<string, Tenant>, inv: Invoice, now: int)
    requires Truthy(inv.tenantId) && inv.tenantId.value in tenants
    ensures var effect := EventEffect(tenants, InvoicePaidEvent(inv), now);
            var t := tenants[inv.tenantId.value];
            effect.Writes?
            && effect.tenant.currentUsage == 0 && effect.tenant.status == Active
            && effect.tenant.(currentUsage := t.currentUsage, status := t.status, updatedAt := t.updatedAt) == t
            && effect.billing.eventType == SubscriptionRenewed && effect.billing.stripePaid == Some(true)
            && effect.billing.amountCents == inv.amountPaid
  {
  }

  /** A failed payment suspends the tenant and keeps its usage, plan and quota. */
  lemma PaymentFailedSuspends(tenants: map<string, Tenant>, inv: Invoice, now: int)
    requires Truthy(inv.tenantId) && inv.tenantId.value in tenants
    ensures var effect := EventEffect(tenants, InvoicePaymentFailedEvent(inv), now);
            var t := tenants[inv.tenantId.value];
            effect.Writes?
            && effect.tenant.status == Suspended
            && effect.tenant.currentUsage == t.currentUsage && effect.tenant.plan == t.plan
            && effect.tenant.monthlyQuota == t.monthlyQuota
            && effect.tenant.(status := t.status, updatedAt := t.updatedAt) == t
            && effect.billing.eventType == PaymentFailed && effect.billing.stripePaid == Some(false)
            && effect.billing.amountCents == inv.amountDue
  {
  }

  /** A new subscription activates the tenant on the plan it determines, with
      that plan's quota; the event is a trial start exactly when a trial end is set. */
  lemma SubscriptionCreatedActivates(tenants: map<string, Tenant>, s: Subscription, now: int)
    requires Truthy(s.tenantId) && s.tenantId.value in tenants
    ensures var effect := EventEffect(tenants, SubscriptionCreatedEvent(s), now);
            effect.Writes?
            && effect.tenant.status == Active
            && effect.tenant.plan == DeterminePlan(s.firstPrice)
            && effect.tenant.monthlyQuota == GetQuotaForPlan(DeterminePlan(s.firstPrice))
            && effect.tenant.currentUsage == tenants[s.tenantId.value].currentUsage
            && (effect.billing.eventType == TrialStarted <==> HasTrial(s))
            && (effect.billing.eventType == SubscriptionCreated <==> !HasTrial(s))
            && (effect.tenant.trialEndsAt.Some? <==> HasTrial(s))
  {
  }

  /**
   * A subscription update writes nothing when the determined plan equals the
   * stored one; otherwise it sets the plan and its quota and logs an upgrade
   * exactly when the new quota is strictly larger, a downgrade in every other
   * case, equal quotas included.
   */
  lemma SubscriptionUpdatedClassifies(tenants: map<string, Tenant>, s: Subscription, now: int)
    requires Truthy(s.tenantId) && s.tenantId.value in tenants
    ensures var effect := EventEffect(tenants, SubscriptionUpdatedEvent(s), now);
            var t := tenants[s.tenantId.value];
            var newPlan := DeterminePlan(s.firstPrice);
            (effect == Unchanged <==> t.plan == newPlan)
            && (effect.Writes? ==>
                  effect.tenant.plan == newPlan && effect.tenant.monthlyQuota == GetQuotaForPlan(newPlan)
                  && effect.tenant.status == t.status && effect.tenant.currentUsage == t.currentUsage
                  && (effect.billing.eventType == PlanUpgraded <==> GetQuotaForPlan(newPlan) > GetQuotaForPlan(t.plan))
                  && (effect.billing.eventType == PlanDowngraded <==> GetQuotaForPlan(newPlan) <= GetQuotaForPlan(t.plan)))
  {
  }

  /** A plan stored in lower case and sent back upper-cased by the price metadata
      counts as a change, and, its quota being equal, it is logged as a downgrade. */
  lemma CaseOnlyPlanChangeIsDowngrade(tenants: map<string, Tenant>, id: string, now: int)
    requires id != "" && id in tenants && tenants[id].plan == "pro"
    ensures var s := Subscription(Some(id), Some(Price("price_x", Some("pro"))), 0, None, false);
            var effect := EventEffect(tenants, SubscriptionUpdatedEvent(s), now);
            effect.Writes? && effect.tenant.plan == "PRO" && effect.billing.eventType == PlanDowngraded
  {
    var s := Subscription(Some(id), Some(Price("price_x", Some("pro"))), 0, None, false);
    assert DeterminePlan(s.firstPrice) == "PRO";
    assert ToUpper("pro") == "PRO";
    QuotaIgnoresCase("pro", "PRO");
  }

  /** A deleted subscription cancels the tenant when it was set to end at the
      period's end, and churns it otherwise. */
  lemma SubscriptionDeletedEndsAccount(tenants: map<string, Tenant>, s: Subscription, now: int)
    requires Truthy(s.tenantId) && s.tenantId.value in tenants
    ensures var effect := EventEffect(tenants, SubscriptionDeletedEvent(s), now);
            effect.Writes?
            && effect.tenant.status == (if s.cancelAtPeriodEnd then Cancelled else Churned)
            && effect.tenant.plan == tenants[s.tenantId.value].plan
            && effect.billing.eventType == SubscriptionCancelled
  {
  }

  /** A tenant id that names no row makes every writing handler throw, except
      the subscription update, which throws too because a missing row has no plan. */
  lemma UnknownTenantFails(tenants: map<string, Tenant>, e: Event, now: int)
    requires e.InvoicePaidEvent? || e.InvoicePaymentFailedEvent? || e.SubscriptionCreatedEvent?
             || e.SubscriptionUpdatedEvent? || e.SubscriptionDeletedEvent?
    requires Truthy(TenantIdOf(e)) && TenantIdOf(e).value !in tenants
    ensures EventEffect(tenants, e, now) == Fails
  {
  }

  // ---------------------------------------------------------------------------
  // trial reminder
  // ---------------------------------------------------------------------------

  const DayMs := 86400000

  /** `Math.ceil((trial_end * 1000 - now) / 86400000)` when the trial end is set, else 3. */
  function TrialDaysRemaining(s: Subscription, now: int): (days: int)
    ensures HasTrial(s) ==> (days - 1) * DayMs < s.trialEnd.value * 1000 - now <= days * DayMs
    ensures !HasTrial(s) ==> days == 3
  {
    if HasTrial(s) then -((now - s.trialEnd.value * 1000) / DayMs) else 3
  }

  /** `handleTrialWillEnd`: the recipient and the number of days of the reminder,
      when the event names a stored tenant; it writes nothing. */
  function TrialReminder(tenants: map<string, Tenant>, s: Subscription, now: int): (r: Option<(string, int)>)
    ensures r.Some? <==> Truthy(s.tenantId) && s.tenantId.value in tenants
    ensures r.Some? ==> r.value == (tenants[s.tenantId.value].email, TrialDaysRemaining(s, now))
  {
    if Truthy(s.tenantId) && s.tenantId.value in tenants
    then Some((tenants[s.tenantId.value].email, TrialDaysRemaining(s, now)))
    else None
  }

  /** A trial ending exactly now has zero days left, one ending a millisecond
      later has one day left. */
  lemma TrialDaysRoundUp(s: Subscription, now: int)
    requires HasTrial(s)
    ensures s.trialEnd.value * 1000 == now ==> TrialDaysRemaining(s, now) == 0
    ensures s.trialEnd.value * 1000 == now + 1 ==> TrialDaysRemaining(s, now) == 1
  {
  }

  // ---------------------------------------------------------------------------
  // the route
  // ---------------------------------------------------------------------------

  /**
   * Applies the handler the event selects to the tables. The two writes of a
   * handler run without a transaction: when the second one throws, the first
   * stays. Returns false when the handler threw.
   */
  method HandleEvent(db: Database, e: Event, now: int, outcome: WriteOutcome) returns (handled: bool)
    requires db.Valid()
    modifies db
    ensures db.Valid()
    ensures handled <==> EventEffect(old(db.tenants), e, now).Unchanged?
                         || (EventEffect(old(db.tenants), e, now).Writes? && outcome.BothWritten?)
    ensures db.apiKeys == old(db.apiKeys) && db.auditLogs == old(db.auditLogs)
    ensures EventEffect(old(db.tenants), e, now).Writes? ==>
              var effect := EventEffect(old(db.tenants), e, now);
              db.tenants == (if TenantPersists(e, outcome) then old(db.tenants)[TenantIdOf(e).value := effect.tenant]
                             else old(db.tenants))
              && db.billingEvents == (if BillingPersists(e, outcome) then old(db.billingEvents) + [effect.billing]
                                      else old(db.billingEvents))
    ensures !EventEffect(old(db.tenants), e, now).Writes? ==>
              db.tenants == old(db.tenants) && db.billingEvents == old(db.billingEvents)
  {
    EffectIsConfinedToItsTenant(db.tenants, e, now);
    var effect := EventEffect(db.tenants, e, now);
    match effect
    case Unchanged =>
      return true;
    case Fails =>
      return false;
    case Writes(tenant, billing) =>
      if outcome.FirstWriteFails? {
        return false;
      }
      if TenantPersists(e, outcome) {
        db.tenants := db.tenants[TenantIdOf(e).value := tenant];
      }
      if BillingPersists(e, outcome) {
        db.billingEvents := db.billingEvents + [billing];
      }
      return outcome.BothWritten?;
  }

  /**
   * A plan change whose billing event failed after the plan was stored is
   * answered 500; the provider's retry finds the new plan already stored and
   * writes nothing, so the change is never logged.
   */
  lemma RetriedPlanChangeIsNotLogged(tenants: map<string, Tenant>, s: Subscription, now: int, later: int,
                                     outcome: WriteOutcome)
    requires outcome.SecondWriteFails?
    requires EventEffect(tenants, SubscriptionUpdatedEvent(s), now).Writes?
    ensures var e := SubscriptionUpdatedEvent(s);
            var after := tenants[TenantIdOf(e).value := EventEffect(tenants, e, now).tenant];
            TenantPersists(e, outcome) && !BillingPersists(e, outcome)
            && EventEffect(after, e, later) == Unchanged
  {
    var e := SubscriptionUpdatedEvent(s);
    var after := tenants[TenantIdOf(e).value := EventEffect(tenants, e, now).tenant];
    assert after[s.tenantId.value].plan == DeterminePlan(s.firstPrice);
  }

  /**
   * A paid invoice whose tenant update failed after its renewal was logged
   * is answered 500; the provider's retry logs the same renewal a second
   * time before it resets the usage counter.
   */
  lemma RetriedInvoiceIsLoggedTwice(tenants: map<string, Tenant>, inv: Invoice, now: int, later: int,
                                    outcome: WriteOutcome)
    requires outcome.SecondWriteFails?
    requires Truthy(inv.tenantId) && inv.tenantId.value in tenants
    ensures var e := InvoicePaidEvent(inv);
            var first := EventEffect(tenants, e, now);
            var retry := EventEffect(tenants, e, later);
            !TenantPersists(e, outcome) && BillingPersists(e, outcome)
            && first.Writes? && retry.Writes? && retry.billing == first.billing
            && retry.tenant.currentUsage == 0
  {
  }

  /** The JSON reply of the route: an error with its status, or the receipt. */
  datatype Reply = ErrorReply(status: int, error: string) | Received(eventType: string)

  /** The reply of `POST` for a request whose tables are `tenants`. */
  function PostReply(tenants: map<string, Tenant>, body: string, signature: Option<string>,
                     constructEvent: (string, string) -> Result<Event>, now: int, outcome: WriteOutcome): Reply
  {
    if !Truthy(signature) then ErrorReply(400, "No stripe signature")
    else match constructEvent(body, signature.value)
      case Err(m) => ErrorReply(400, "Webhook Error: " + m)
      case Ok(e) =>
        var effect := EventEffect(tenants, e, now);
        if effect.Fails? || (effect.Writes? && !outcome.BothWritten?) then ErrorReply(500, "Event processing failed")
        else Received(EventType(e))
  }

  /** A request without a signature, or one whose signature does not verify, is
      answered 400 before any table is read; a handler that throws gives 500. */
  lemma PostStatuses(tenants: map<string, Tenant>, body: string, signature: Option<string>,
                     constructEvent: (string, string) -> Result<Event>, now: int, outcome: WriteOutcome)
    ensures var reply := PostReply(tenants, body, signature, constructEvent, now, outcome);
            (reply.ErrorReply? && reply.status == 400 <==>
               !Truthy(signature) || constructEvent(body, signature.value).Err?)
            && (reply.ErrorReply? && reply.status == 500 <==>
                  Truthy(signature) && constructEvent(body, signature.value).Ok?
                  && (EventEffect(tenants, constructEvent(body, signature.value).value, now).Fails?
                      || (EventEffect(tenants, constructEvent(body, signature.value).value, now).Writes?
                          && !outcome.BothWritten?)))
            && (reply.Received? ==> reply.eventType == EventType(constructEvent(body, signature.value).value))
            && (!Truthy(signature) || constructEvent(body, signature.value).Err? ==>
                  forall other :: PostReply(other, body, signature, constructEvent, now, outcome) == reply)
  {
  }

  /** `POST(req)`: verifies the event, dispatches it on its type and replies. */
  method Post(db: Database, body: string, signature: Option<string>,
              constructEvent: (string, string) -> Result<Event>, now: int, outcome: WriteOutcome)
    returns (reply: Reply)
    requires db.Valid()
    modifies db
    ensures db.Valid()
    ensures reply == PostReply(old(db.tenants), body, signature, constructEvent, now, outcome)
    ensures db.apiKeys == old(db.apiKeys) && db.auditLogs == old(db.auditLogs)
    ensures reply.ErrorReply? && reply.status == 400 ==>
              db.tenants == old(db.tenants) && db.billingEvents == old(db.billingEvents)
    ensures Truthy(signature) && constructEvent(body, signature.value).Ok? ==>
              var e := constructEvent(body, signature.value).value;
              var effect := EventEffect(old(db.tenants), e, now);
              if effect.Writes? then
                db.tenants == (if TenantPersists(e, outcome) then old(db.tenants)[TenantIdOf(e).value := effect.tenant]
                               else old(db.tenants))
                && db.billingEvents == (if BillingPersists(e, outcome) then old(db.billingEvents) + [effect.billing]
                                        else old(db.billingEvents))
              else
                db.tenants == old(db.tenants) && db.billingEvents == old(db.billingEvents)
  {
    if !Truthy(signature) {
      return ErrorReply(400, "No stripe signature");
    }
    var verified := constructEvent(body, signature.value);
    if verified.Err? {
      return ErrorReply(400, "Webhook Error: " + verified.message);
    }
    var event := verified.value;
    var handled := HandleEvent(db, event, now, outcome);
    if !handled {
      return ErrorReply(500, "Event processing failed");
    }
    return Received(EventType(event));
  }
}

=== FILE: text.dfy ===
/**
 * The JavaScript string operations the application relies on, stated over
 * `string` (a sequence of Unicode scalar values): `split` on one character,
 * `join`, `trim`, `startsWith`, `endsWith`, `includes`, number-to-decimal
 * rendering and ASCII case mapping.
 */
module Text {

  predicate StartsWith(s: string, prefix: string) {
    |prefix| <= |s| && s[..|prefix|] == prefix
  }

  predicate EndsWith(s: string, suffix: string) {
    |suffix| <= |s| && s[|s| - |suffix|..] == suffix
  }

  /** `s.includes(part)`: the search that tries each position in turn. */
  predicate Contains(s: string, part: string)
    decreases |s|
  {
    StartsWith(s, part) || (s != [] && Contains(s[1..], part))
  }

  predicate OccursAt(s: string, part: string, i: int) {
    0 <= i <= |s| - |part| && s[i..i + |part|] == part
  }

  /** The search finds `part` exactly when it occurs at some position of `s`. */
  lemma {:induction false} ContainsIff(s: string, part: string)
    ensures Contains(s, part) <==> exists i :: OccursAt(s, part, i)
    decreases |s|
  {
    if StartsWith(s, part) {
      assert OccursAt(s, part, 0);
    }
    if s != [] {
      ContainsIff(s[1..], part);
      if exists i :: OccursAt(s[1..], part, i) {
        var i :| OccursAt(s[1..], part, i);
        assert s[i + 1..i + 1 + |part|] == s[1..][i..i + |part|];
        assert OccursAt(s, part, i + 1);
      }
      if exists i :: OccursAt(s, part, i) {
        var i :| OccursAt(s, part, i);
        if i > 0 {
          assert s[1..][i - 1..i - 1 + |part|] == s[i..i + |part|];
          assert OccursAt(s[1..], part, i - 1);
        }
      }
    }
  }

  // ---------------------------------------------------------------------------
  // split / join
  // ---------------------------------------------------------------------------

  /** Index of the first occurrence of `c` in `s`. */
  function IndexOf(s: string, c: char): (i: nat)
    requires c in s
    ensures i < |s| && s[i] == c && c !in s[..i]
  {
    if s[0] == c then 0 else 1 + IndexOf(s[1..], c)
  }

  /** `s.split(sep)` for a one-character separator: never empty, and `"".split(sep) == [""]`. */
  function Split(s: string, sep: char): (parts: seq<string>)
    ensures |parts| >= 1
    ensures forall k :: 0 <= k < |parts| ==> sep !in parts[k]
    decreases |s|
  {
    if sep !in s then [s]
    else
      var i := IndexOf(s, sep);
      [s[..i]] + Split(s[i + 1..], sep)
  }

  /** `s.split(sep)[0]`: everything before the first separator. */
  function FirstField(s: string, sep: char): (r: string)
    ensures StartsWith(s, r) && sep !in r
    ensures |r| < |s| ==> s[|r|] == sep
  {
    if sep in s then s[..IndexOf(s, sep)] else s
  }

  /** `parts.join(sep)` */
  function Join(sep: string, parts: seq<string>): string {
    if |parts| == 0 then ""
    else if |parts| == 1 then parts[0]
    else parts[0] + sep + Join(sep, parts[1..])
  }

  /** Joining the pieces of a split gives back the original string. */
  lemma {:induction false} JoinSplit(s: string, sep: char)
    ensures Join([sep], Split(s, sep)) == s
    decreases |s|
  {
    if sep in s {
      var i := IndexOf(s, sep);
      var rest := Split(s[i + 1..], sep);
      JoinSplit(s[i + 1..], sep);
      assert Split(s, sep) == [s[..i]] + rest;
      assert ([s[..i]] + rest)[1..] == rest;
      assert s == s[..i] + [sep] + s[i + 1..];
    }
  }

  lemma IndexOfJoined(p: string, sep: char, t: string)
    requires sep !in p
    ensures IndexOf(p + [sep] + t, sep) == |p|
  {
    var s := p + [sep] + t;
    assert s[|p|] == sep;
  }

  /** Joining two non-empty lists puts one separator between their joins. */
  lemma {:induction false} JoinConcat(sep: string, x: seq<string>, y: seq<string>)
    requires x != [] && y != []
    ensures Join(sep, x + y) == Join(sep, x) + sep + Join(sep, y)
    decreases |x|
  {
    assert (x + y)[0] == x[0];
    assert (x + y)[1..] == x[1..] + y;
    if |x| > 1 {
      JoinConcat(sep, x[1..], y);
    }
  }

  /** Splitting a join recovers the pieces when no piece holds the separator. */
  lemma {:induction false} SplitJoin(parts: seq<string>, sep: char)
    requires |parts| >= 1
    requires forall k :: 0 <= k < |parts| ==> sep !in parts[k]
    ensures Split(Join([sep], parts), sep) == parts
  {
    if |parts| > 1 {
      var p, t := parts[0], Join([sep], parts[1..]);
      var s := p + [sep] + t;
      assert Join([sep], parts) == s;
      IndexOfJoined(p, sep, t);
      assert s[..|p|] == p && s[|p| + 1..] == t;
      assert Split(s, sep) == [p] + Split(t, sep);
      SplitJoin(parts[1..], sep);
      assert parts == [p] + parts[1..];
    }
  }

  // ---------------------------------------------------------------------------
  // trim
  // ---------------------------------------------------------------------------

  /** The characters `String.prototype.trim` removes: WhiteSpace and LineTerminator of ECMA-262. */
  predicate IsJsWhitespace(c: char) {
    var n := c as int;
    n == 0x09 || n == 0x0A || n == 0x0B || n == 0x0C || n == 0x0D || n == 0x20 ||
    n == 0xA0 || n == 0x1680 || (0x2000 <= n <= 0x200A) || n == 0x2028 ||
    n == 0x2029 || n == 0x202F || n == 0x205F || n == 0x3000 || n == 0xFEFF
  }

  function TrimStart(s: string): (r: string)
    ensures |r| <= |s| && r == s[|s| - |r|..]
    ensures forall k :: 0 <= k < |s| - |r| ==> IsJsWhitespace(s[k])
    ensures r == [] || !IsJsWhitespace(r[0])
  {
    if |s| > 0 && IsJsWhitespace(s[0]) then TrimStart(s[1..]) else s
  }

  function TrimEnd(s: string): (r: string)
    ensures |r| <= |s| && r == s[..|r|]
    ensures forall k :: |r| <= k < |s| ==> IsJsWhitespace(s[k])
    ensures r == [] || !IsJsWhitespace(r[|r| - 1])
  {
    if |s| > 0 && IsJsWhitespace(s[|s| - 1]) then TrimEnd(s[..|s| - 1]) else s
  }

  /** `s.trim()`: a contiguous piece of `s` with no whitespace at either end;
      it is empty exactly when `s` is all whitespace. */
  function Trim(s: string): (r: string)
    ensures r == [] || (!IsJsWhitespace(r[0]) && !IsJsWhitespace(r[|r| - 1]))
    ensures r == [] <==> forall k :: 0 <= k < |s| ==> IsJsWhitespace(s[k])
    ensures (|s| == 0 || (!IsJsWhitespace(s[0]) && !IsJsWhitespace(s[|s| - 1]))) ==> r == s
  {
    var a := TrimStart(s);
    var r := TrimEnd(a);
    assert r != [] ==> r[0] == a[0];
    assert a == s[|s| - |a|..];
    assert forall k :: |s| - |a| <= k < |s| ==> s[k] == a[k - (|s| - |a|)];
    r
  }

  // ---------------------------------------------------------------------------
  // decimal rendering of whole numbers
  // ---------------------------------------------------------------------------

  predicate IsDigit(c: char) {
    '0' <= c <= '9'
  }

  function DigitChar(d: nat): (c: char)
    requires d < 10
    ensures IsDigit(c) && c as int - '0' as int == d
  {
    ('0' as int + d) as char
  }

  /** `n.toString()` for a non-negative integer: at least one digit, no leading zero. */
  function NatToString(n: nat): (s: string)
    ensures |s| >= 1
    ensures forall k :: 0 <= k < |s| ==> IsDigit(s[k])
    ensures s[0] == '0' ==> n == 0
  {
    if n < 10 then [DigitChar(n)] else NatToString(n / 10) + [DigitChar(n % 10)]
  }

  /** The value a string of decimal digits denotes. */
  function DigitsValue(s: string): nat
    requires forall k :: 0 <= k < |s| ==> IsDigit(s[k])
  {
    if s == [] then 0
    else DigitsValue(s[..|s| - 1]) * 10 + DigitValue(s[|s| - 1])
  }

  function DigitValue(c: char): nat
    requires IsDigit(c)
  {
    c as int - '0' as int
  }

  lemma {:induction false} DigitsValueOfNatToString(n: nat)
    ensures DigitsValue(NatToString(n)) == n
  {
    if n >= 10 {
      var s := NatToString(n);
      assert s[..|s| - 1] == NatToString(n / 10);
      DigitsValueOfNatToString(n / 10);
    }
  }

  /** Different numbers never render to the same text. */
  lemma NatToStringInjective(a: nat, b: nat)
    ensures NatToString(a) == NatToString(b) <==> a == b
  {
    DigitsValueOfNatToString(a);
    DigitsValueOfNatToString(b);
  }

  /** `i.toString()` for any integer. */
  function IntToString(i: int): (s: string)
    ensures |s| >= 1
    ensures i >= 0 ==> s == NatToString(i)
    ensures i < 0 ==> s[0] == '-' && s[1..] == NatToString(-i)
  {
    if i < 0 then "-" + NatToString(-i) else NatToString(i)
  }

  // ---------------------------------------------------------------------------
  // case mapping (ASCII letters only)
  // ---------------------------------------------------------------------------

  function UpperChar(c: char): char {
    if 'a' <= c <= 'z' then (c as int - 32) as char else c
  }

  function LowerChar(c: char): char {
    if 'A' <= c <= 'Z' then (c as int + 32) as char else c
  }

  /** `s.toUpperCase()` on the ASCII letters; other characters are kept. */
  function ToUpper(s: string): (r: string)
    ensures |r| == |s|
    ensures forall k :: 0 <= k < |s| ==> r[k] == UpperChar(s[k])
  {
    seq(|s|, k requires 0 <= k < |s| => UpperChar(s[k]))
  }
}

=== FILE: usage_client.dfy ===
/**
 * The client side of the usage page: the loaded logs narrowed by the filter
 * form, shown fifty to a page, summarised by a success rate and exported as
 * CSV. The page's state (the filters and the current page) is an object whose
 * handlers update it. Date parsing, ISO rendering and `toFixed(6)` are
 * parameters.
 */
module UsageClient {
  import opened Wrappers
  import opened Text
  import Api
  import Overview

  type UsageLog = Api.UsageLog

  /** The filter form; an empty field is `None`. */
  datatype UsageFilters = UsageFilters(
    dateFrom: Option<string>,
    dateTo: Option<string>,
    endpoint: Option<string>,
    statusCode: Option<string>,
    httpMethod: Option<string>)

  const NoFilters := UsageFilters(None, None, None, None, None)

  // ---------------------------------------------------------------------------
  // filtering
  // ---------------------------------------------------------------------------

  /** `logs.filter(p)` */
  function Filter(logs: seq<UsageLog>, p: UsageLog -> bool): (r: seq<UsageLog>)
    ensures |r| <= |logs|
  {
    if logs == [] then [] else (if p(logs[0]) then [logs[0]] else []) + Filter(logs[1..], p)
  }

  /** `r` is `s` with some elements removed, the rest kept in order. */
  predicate Subsequence(r: seq<UsageLog>, s: seq<UsageLog>)
    decreases |s|
  {
    if r == [] then true
    else if s == [] then false
    else (r[0] == s[0] && Subsequence(r[1..], s[1..])) || Subsequence(r, s[1..])
  }

  lemma {:induction false} FilterIsSubsequence(logs: seq<UsageLog>, p: UsageLog -> bool)
    ensures Subsequence(Filter(logs, p), logs)
  {
    if logs != [] {
      var rest := Filter(logs[1..], p);
      FilterIsSubsequence(logs[1..], p);
      if p(logs[0]) {
        assert Filter(logs, p) == [logs[0]] + rest;
        assert ([logs[0]] + rest)[1..] == rest;
      } else {
        assert Filter(logs, p) == rest;
        SubsequenceSkip(rest, logs);
      }
    }
  }

  /** Dropping the head of `s` keeps a subsequence of its tail a subsequence of `s`. */
  lemma SubsequenceSkip(r: seq<UsageLog>, s: seq<UsageLog>)
    requires s != [] && Subsequence(r, s[1..])
    ensures Subsequence(r, s)
  {
  }

  /** A filter keeps the elements that satisfy its predicate, as often as they occur. */
  lemma {:induction false} FilterCount(logs: seq<UsageLog>, p: UsageLog -> bool, x: UsageLog)
    ensures multiset(Filter(logs, p))[x] == if p(x) then multiset(logs)[x] else 0
  {
    if logs != [] {
      var head := if p(logs[0]) then [logs[0]] else [];
      assert Filter(logs, p) == head + Filter(logs[1..], p);
      assert multiset(Filter(logs, p)) == multiset(head) + multiset(Filter(logs[1..], p));
      assert logs == [logs[0]] + logs[1..];
      assert multiset(logs) == multiset([logs[0]]) + multiset(logs[1..]);
      FilterCount(logs[1..], p, x);
    }
  }

  /** Filtering with a predicate that holds everywhere changes nothing. */
  lemma {:induction false} FilterKeepsAll(logs: seq<UsageLog>, p: UsageLog -> bool)
    requires forall x :: p(x)
    ensures Filter(logs, p) == logs
  {
    if logs != [] {
      FilterKeepsAll(logs[1..], p);
    }
  }

  /** Two filters in a row are one filter by both predicates. */
  lemma {:induction false} FilterFuse(logs: seq<UsageLog>, p: UsageLog -> bool, q: UsageLog -> bool,
                                      both: UsageLog -> bool)
    requires forall x :: both(x) == (p(x) && q(x))
    ensures Filter(Filter(logs, p), q) == Filter(logs, both)
  {
    if logs != [] {
      FilterFuse(logs[1..], p, q, both);
      var head := if p(logs[0]) then [logs[0]] else [];
      assert Filter(logs, p) == head + Filter(logs[1..], p);
      FilterAppend(head, Filter(logs[1..], p), q);
    }
  }

  lemma {:induction false} FilterAppend(a: seq<UsageLog>, b: seq<UsageLog>, p: UsageLog -> bool)
    ensures Filter(a + b, p) == Filter(a, p) + Filter(b, p)
  {
    if a == [] {
      assert a + b == b;
    } else {
      assert (a + b)[0] == a[0] && (a + b)[1..] == a[1..] + b;
      FilterAppend(a[1..], b, p);
      var head := if p(a[0]) then [a[0]] else [];
      assert Filter(a + b, p) == head + (Filter(a[1..], p) + Filter(b, p));
    }
  }

  // the five conditions of the filter form; each holds everywhere while its field is empty

  predicate FromOk(f: UsageFilters, startOf: string -> int, log: UsageLog) {
    !Truthy(f.dateFrom) || log.timestamp >= startOf(f.dateFrom.value)
  }

  predicate ToOk(f: UsageFilters, endOf: string -> int, log: UsageLog) {
    !Truthy(f.dateTo) || log.timestamp <= endOf(f.dateTo.value)
  }

  predicate EndpointOk(f: UsageFilters, log: UsageLog) {
    !Truthy(f.endpoint) || log.endpoint == f.endpoint.value
  }

  /** The status is compared through its decimal rendering. */
  predicate StatusOk(f: UsageFilters, log: UsageLog) {
    !Truthy(f.statusCode) || IntToString(log.status) == f.statusCode.value
  }

  predicate MethodOk(f: UsageFilters, log: UsageLog) {
    !Truthy(f.httpMethod) || log.httpMethod == f.httpMethod.value
  }

  /** A log the form lets through. */
  predicate Keeps(f: UsageFilters, startOf: string -> int, endOf: string -> int, log: UsageLog) {
    FromOk(f, startOf, log) && ToOk(f, endOf, log) && EndpointOk(f, log) && StatusOk(f, log) && MethodOk(f, log)
  }

  /**
   * `filteredLogs`: each non-empty field of the form filters the logs in turn.
   * `startOf(d)` is the instant `new Date(d)`, `endOf(d)` the last millisecond
   * of the local day `d`.
   */
  function FilteredLogs(logs: seq<UsageLog>, f: UsageFilters, startOf: string -> int, endOf: string -> int)
    : seq<UsageLog>
  {
    var a := if Truthy(f.dateFrom) then Filter(logs, log => FromOk(f, startOf, log)) else logs;
    var b := if Truthy(f.dateTo) then Filter(a, log => ToOk(f, endOf, log)) else a;
    var c := if Truthy(f.endpoint) then Filter(b, log => EndpointOk(f, log)) else b;
    var d := if Truthy(f.statusCode) then Filter(c, log => StatusOk(f, log)) else c;
    if Truthy(f.httpMethod) then Filter(d, log => MethodOk(f, log)) else d
  }

  /** The chain of filters is one filter by all five conditions. */
  lemma FilteredLogsIsOneFilter(logs: seq<UsageLog>, f: UsageFilters, startOf: string -> int, endOf: string -> int)
    ensures FilteredLogs(logs, f, startOf, endOf) == Filter(logs, log => Keeps(f, startOf, endOf, log))
  {
    var p1 := log => FromOk(f, startOf, log);
    var p2 := log => ToOk(f, endOf, log);
    var p3 := log => EndpointOk(f, log);
    var p4 := log => StatusOk(f, log);
    var p5 := log => MethodOk(f, log);
    var k12 := log => FromOk(f, startOf, log) && ToOk(f, endOf, log);
    var k123 := log => k12(log) && EndpointOk(f, log);
    var k1234 := log => k123(log) && StatusOk(f, log);
    var all := log => Keeps(f, startOf, endOf, log);
    if !Truthy(f.dateFrom) { FilterKeepsAll(logs, p1); }
    var a := Filter(logs, p1);
    if !Truthy(f.dateTo) { FilterKeepsAll(a, p2); }
    FilterFuse(logs, p1, p2, k12);
    var b := Filter(logs, k12);
    if !Truthy(f.endpoint) { FilterKeepsAll(b, p3); }
    FilterFuse(logs, k12, p3, k123);
    var c := Filter(logs, k123);
    if !Truthy(f.statusCode) { FilterKeepsAll(c, p4); }
    FilterFuse(logs, k123, p4, k1234);
    var d := Filter(logs, k1234);
    if !Truthy(f.httpMethod) { FilterKeepsAll(d, p5); }
    FilterFuse(logs, k1234, p5, all);
  }

  /**
   * The filtered logs keep the order of the loaded ones, and a log occurs in
   * them exactly as often as in the loaded logs when the form lets it
   * through, and not at all otherwise.
   */
  lemma FilteredLogsSpec(logs: seq<UsageLog>, f: UsageFilters, startOf: string -> int, endOf: string -> int,
                         x: UsageLog)
    ensures Subsequence(FilteredLogs(logs, f, startOf, endOf), logs)
    ensures multiset(FilteredLogs(logs, f, startOf, endOf))[x]
            == if Keeps(f, startOf, endOf, x) then multiset(logs)[x] else 0
    ensures x in FilteredLogs(logs, f, startOf, endOf) <==> x in logs && Keeps(f, startOf, endOf, x)
  {
    FilteredLogsIsOneFilter(logs, f, startOf, endOf);
    FilterIsSubsequence(logs, log => Keeps(f, startOf, endOf, log));
    FilterCount(logs, log => Keeps(f, startOf, endOf, log), x);
  }

  /** A status filter written with a leading zero matches no log. */
  lemma LeadingZeroStatusMatchesNothing(f: UsageFilters, log: UsageLog)
    requires f.statusCode == Some("0200")
    ensures !StatusOk(f, log)
  {
  }

  // ---------------------------------------------------------------------------
  // pagination
  // ---------------------------------------------------------------------------

  const ItemsPerPage := 50

  /** `Math.ceil(n / 50)` */
  function TotalPages(n: nat): (pages: nat)
    ensures (pages - 1) * ItemsPerPage < n <= pages * ItemsPerPage || (n == 0 && pages == 0)
  {
    (n + ItemsPerPage - 1) / ItemsPerPage
  }

  function Min(a: int, b: int): int {
    if a <= b then a else b
  }

  function Max(a: int, b: int): int {
    if a >= b then a else b
  }

  /** `logs.slice((page - 1) * 50, page * 50)` for a page from 1 on. */
  function PageSlice(logs: seq<UsageLog>, page: int): (r: seq<UsageLog>)
    requires page >= 1
    ensures |r| <= ItemsPerPage
    ensures forall k :: 0 <= k < |r| ==>
              (page - 1) * ItemsPerPage + k < |logs| && r[k] == logs[(page - 1) * ItemsPerPage + k]
  {
    logs[Min((page - 1) * ItemsPerPage, |logs|)..Min(page * ItemsPerPage, |logs|)]
  }

  /** Pages `1 … count`, one after the other. */
  function Pages(logs: seq<UsageLog>, count: nat): seq<UsageLog> {
    if count == 0 then [] else Pages(logs, count - 1) + PageSlice(logs, count)
  }

  lemma {:induction false} PagesArePrefix(logs: seq<UsageLog>, count: nat)
    ensures Pages(logs, count) == logs[..Min(count * ItemsPerPage, |logs|)]
  {
    if count > 0 {
      PagesArePrefix(logs, count - 1);
      var a, b := Min((count - 1) * ItemsPerPage, |logs|), Min(count * ItemsPerPage, |logs|);
      assert logs[..a] + logs[a..b] == logs[..b];
    }
  }

  /** Reading every page in turn gives back the filtered logs. */
  lemma PagesCoverAll(logs: seq<UsageLog>)
    ensures Pages(logs, TotalPages(|logs|)) == logs
  {
    PagesArePrefix(logs, TotalPages(|logs|));
    assert logs[..|logs|] == logs;
  }

  /** The page state of the usage page. */
  class UsageView {
    /** `usage.logs`, as loaded. */
    const logs: seq<UsageLog>
    const startOf: string -> int
    const endOf: string -> int
    var filters: UsageFilters
    var currentPage: int

    function Filtered(): seq<UsageLog>
      reads this
    {
      FilteredLogs(logs, filters, startOf, endOf)
    }

    function Total(): nat
      reads this
    {
      TotalPages(|Filtered()|)
    }

    /** The current page is a page that exists, or page 1 when there is none. */
    ghost predicate Valid()
      reads this
    {
      1 <= currentPage <= Max(1, Total())
    }

    /** `paginatedLogs` */
    function Visible(): seq<UsageLog>
      reads this
      requires currentPage >= 1
    {
      PageSlice(Filtered(), currentPage)
    }

    constructor(logs: seq<UsageLog>, startOf: string -> int, endOf: string -> int)
      ensures Valid()
      ensures this.logs == logs && this.startOf == startOf && this.endOf == endOf
      ensures filters == NoFilters && currentPage == 1
    {
      this.logs, this.startOf, this.endOf := logs, startOf, endOf;
      filters := NoFilters;
      currentPage := 1;
    }

    /** `handleFiltersChange`: new filters, back to the first page. */
    method ChangeFilters(newFilters: UsageFilters)
      modifies this
      ensures filters == newFilters && currentPage == 1
      ensures Valid()
    {
      filters := newFilters;
      currentPage := 1;
    }

    /** The Previous button: one page back, never below 1. */
    method Previous()
      requires Valid()
      modifies this
      ensures currentPage == Max(1, old(currentPage) - 1) && filters == old(filters)
      ensures Valid()
    {
      currentPage := Max(1, currentPage - 1);
    }

    /** The Next button, shown only when there is more than one page: one page
        on, never beyond the last. */
    method Next()
      requires Valid() && Total() > 1
      modifies this
      ensures currentPage == Min(Total(), old(currentPage) + 1) && filters == old(filters)
      ensures Valid()
    {
      currentPage := Min(Total(), currentPage + 1);
    }
  }

  /**
   * On a valid page the table shows the logs `Showing a-b of n` announces:
   * positions `(page - 1) * 50 + 1` to `min(page * 50, n)`, at least one of
   * them when any log passes the filters.
   */
  lemma VisibleMatchesCaption(view: UsageView)
    requires view.Valid()
    ensures var n := |view.Filtered()|;
            var first := (view.currentPage - 1) * ItemsPerPage + 1;
            var last := Min(view.currentPage * ItemsPerPage, n);
            n > 0 ==> 1 <= first <= last && |view.Visible()| == last - first + 1
                      && view.Visible() == view.Filtered()[first - 1..last]
  {
  }

  // ---------------------------------------------------------------------------
  // statistics
  // ---------------------------------------------------------------------------

  predicate IsSuccess(log: UsageLog) {
    200 <= log.status < 300
  }

  /** The success-rate card: the rounded share of 2xx responses, `—` without logs. */
  function SuccessRateText(logs: seq<UsageLog>): string {
    if |logs| == 0 then "\U{2014}"
    else Overview.FormatPercent(|Filter(logs, IsSuccess)|, |logs|)
  }

  /** Without logs the card shows a dash; otherwise the share of 2xx
      responses, rounded to the nearest percent, between 0% and 100%. */
  lemma SuccessRateBounds(logs: seq<UsageLog>)
    ensures |logs| == 0 ==> SuccessRateText(logs) == "\U{2014}"
    ensures |logs| > 0 ==>
              var ok := |Filter(logs, IsSuccess)|;
              var r := Overview.Round(ok as real / |logs| as real * 100.0);
              SuccessRateText(logs) == IntToString(r) + "%" && 0 <= r <= 100
  {
    if |logs| > 0 {
      var ok, n := |Filter(logs, IsSuccess)|, |logs|;
      assert 0 <= ok <= n;
      Overview.FormatPercentBounds(ok, n);
    }
  }

  // ---------------------------------------------------------------------------
  // CSV export
  // ---------------------------------------------------------------------------

  const CsvHeader: seq<string> := ["Timestamp", "Method", "Endpoint", "Status", "Duration (ms)", "Cost (\U{20AC})"]

  /** The cells of one log; `iso` renders a timestamp and `fixed6` is `toFixed(6)`. */
  function CsvCells(log: UsageLog, iso: int -> string, fixed6: real -> string): seq<string> {
    [iso(log.timestamp), log.httpMethod, log.endpoint, IntToString(log.status), IntToString(log.durationMs),
     fixed6(log.cost)]
  }

  /** A cell wrapped in double quotes, its own quotes left as they are. */
  function Quote(cell: string): string {
    "\"" + cell + "\""
  }

  function QuoteAll(cells: seq<string>): (r: seq<string>)
    ensures |r| == |cells| && forall k :: 0 <= k < |cells| ==> r[k] == Quote(cells[k])
  {
    seq(|cells|, k requires 0 <= k < |cells| => Quote(cells[k]))
  }

  function CsvRow(cells: seq<string>): string {
    Join(",", QuoteAll(cells))
  }

  function CsvRows(logs: seq<UsageLog>, iso: int -> string, fixed6: real -> string): (rows: seq<string>)
    ensures |rows| == |logs|
    ensures forall k :: 0 <= k < |logs| ==> rows[k] == CsvRow(CsvCells(logs[k], iso, fixed6))
  {
    seq(|logs|, k requires 0 <= k < |logs| => CsvRow(CsvCells(logs[k], iso, fixed6)))
  }

  /** `handleExport`'s `csvContent` */
  function Csv(logs: seq<UsageLog>, iso: int -> string, fixed6: real -> string): string {
    Join("\n", [Join(",", CsvHeader)] + CsvRows(logs, iso, fixed6))
  }

  /** A joined string holds a character only if a part does or the separator does. */
  lemma {:induction false} JoinAvoids(sep: string, parts: seq<string>, c: char)
    requires c !in sep && forall k :: 0 <= k < |parts| ==> c !in parts[k]
    ensures c !in Join(sep, parts)
  {
    if |parts| > 1 {
      JoinAvoids(sep, parts[1..], c);
    }
  }

  /** No cell of the log holds a line break. */
  predicate SingleLine(log: UsageLog, iso: int -> string, fixed6: real -> string) {
    forall k :: 0 <= k < 6 ==> '\n' !in CsvCells(log, iso, fixed6)[k]
  }

  /** The CSV is the header line followed by exactly one line per filtered log,
      in order, as long as no cell contains a line break. */
  lemma CsvLines(logs: seq<UsageLog>, iso: int -> string, fixed6: real -> string)
    requires forall k :: 0 <= k < |logs| ==> SingleLine(logs[k], iso, fixed6)
    ensures Split(Csv(logs, iso, fixed6), '\n') == [Join(",", CsvHeader)] + CsvRows(logs, iso, fixed6)
    ensures |Split(Csv(logs, iso, fixed6), '\n')| == |logs| + 1
  {
    var rows := CsvRows(logs, iso, fixed6);
    var lines := [Join(",", CsvHeader)] + rows;
    HeaderSingleLine();
    forall k | 0 <= k < |lines|
      ensures '\n' !in lines[k]
    {
      if k > 0 {
        RowSingleLine(logs[k - 1], iso, fixed6);
        assert lines[k] == rows[k - 1];
      }
    }
    SplitJoin(lines, '\n');
  }

  /** The header line holds no line break. */
  lemma HeaderSingleLine()
    ensures '\n' !in Join(",", CsvHeader)
  {
    JoinAvoids(",", CsvHeader, '\n');
  }

  /** A log without line breaks in its cells gives one line. */
  lemma RowSingleLine(log: UsageLog, iso: int -> string, fixed6: real -> string)
    requires SingleLine(log, iso, fixed6)
    ensures '\n' !in CsvRow(CsvCells(log, iso, fixed6))
  {
    var cells := CsvCells(log, iso, fixed6);
    QuotedAvoids(cells, '\n');
    JoinAvoids(",", QuoteAll(cells), '\n');
  }

  lemma QuotedAvoids(cells: seq<string>, c: char)
    requires c != '"' && |cells| == 6 && forall k :: 0 <= k < 6 ==> c !in cells[k]
    ensures forall k :: 0 <= k < |cells| ==> c !in QuoteAll(cells)[k]
  {
  }

  /** Splitting a data line at commas gives back each cell between quotes, as
      long as no cell contains a comma. */
  lemma CsvRowCells(cells: seq<string>)
    requires |cells| >= 1 && forall k :: 0 <= k < |cells| ==> ',' !in cells[k]
    ensures Split(CsvRow(cells), ',') == QuoteAll(cells)
    ensures forall k :: 0 <= k < |cells| ==> Split(CsvRow(cells), ',')[k] == "\"" + cells[k] + "\""
  {
    SplitJoin(QuoteAll(cells), ',');
  }

  /** A cell holding a comma or a quote is not escaped: an endpoint `a,b`
      comes back as two fields. */
  lemma CommaInCellSplitsIt()
    ensures Split(CsvRow(["a,b"]), ',') == ["\"a", "b\""]
  {
    var row := CsvRow(["a,b"]);
    assert Quote("a,b") == "\"a,b\"";
    assert QuoteAll(["a,b"]) == ["\"a,b\""];
    assert row == "\"a,b\"";
    assert IndexOf(row, ',') == 2;
    assert row[3..] == "b\"";
    assert ',' !in row[3..];
    assert Split(row[3..], ',') == ["b\""];
    assert Split(row, ',') == [row[..2]] + Split(row[3..], ',');
    assert row[..2] == "\"a";
  }
}

=== FILE: utils.dfy ===
/**
 * `cn(...classes)`: the class attribute built from a list of optional class
 * names. Falsy arguments (`false`, `null`, `undefined`, `0`, the empty string)
 * are dropped; the others are rendered as `Array.prototype.join` renders them
 * and joined with single spaces.
 */
module Utils {
  import opened Text

  /** An argument of `cn`. Numbers are modelled as integers. */
  datatype ClassValue = Str(s: string) | Num(n: int) | Bool(b: bool) | Null | Undefined

  /** `Boolean(value)` */
  predicate IsTruthy(v: ClassValue) {
    match v
    case Str(s) => s != ""
    case Num(n) => n != 0
    case Bool(b) => b
    case _ => false
  }

  /** The text `join` gives an element: a number in decimal, `true` as `"true"`. */
  function Render(v: ClassValue): (r: string)
    ensures IsTruthy(v) ==> r != ""
  {
    match v
    case Str(s) => s
    case Num(n) => IntToString(n)
    case Bool(b) => if b then "true" else "false"
    case _ => ""
  }

  /** The rendered truthy arguments, in their order. */
  function ClassNames(classes: seq<ClassValue>): (names: seq<string>)
    ensures |names| <= |classes|
    ensures forall k :: 0 <= k < |names| ==> names[k] != ""
  {
    if classes == [] then []
    else (if IsTruthy(classes[0]) then [Render(classes[0])] else []) + ClassNames(classes[1..])
  }

  /** `cn(...classes)` */
  function Cn(classes: seq<ClassValue>): string {
    Join(" ", ClassNames(classes))
  }

  /** The names of a concatenation are the names of its parts, in order; a
      single argument contributes its rendering exactly when it is truthy. */
  lemma {:induction false} ClassNamesConcat(a: seq<ClassValue>, b: seq<ClassValue>)
    ensures ClassNames(a + b) == ClassNames(a) + ClassNames(b)
    decreases |a|
  {
    if a == [] {
      assert a + b == b;
    } else {
      assert (a + b)[0] == a[0];
      assert (a + b)[1..] == a[1..] + b;
      ClassNamesConcat(a[1..], b);
    }
  }

  /** No name is produced exactly when no argument is truthy. */
  lemma {:induction false} ClassNamesEmpty(classes: seq<ClassValue>)
    ensures ClassNames(classes) == [] <==> forall k :: 0 <= k < |classes| ==> !IsTruthy(classes[k])
  {
    if classes != [] {
      ClassNamesEmpty(classes[1..]);
      assert forall k :: 1 <= k < |classes| ==> classes[1..][k - 1] == classes[k];
    }
  }

  /** A character no argument's rendering holds is in no name. */
  lemma {:induction false} ClassNamesAvoid(classes: seq<ClassValue>, c: char)
    requires forall k :: 0 <= k < |classes| ==> c !in Render(classes[k])
    ensures forall k :: 0 <= k < |ClassNames(classes)| ==> c !in ClassNames(classes)[k]
  {
    if classes != [] {
      assert forall k :: 0 <= k < |classes[1..]| ==> classes[1..][k] == classes[k + 1];
      ClassNamesAvoid(classes[1..], c);
    }
  }

  /** The joined names of a non-empty list of non-empty names are not empty. */
  lemma JoinNonEmpty(names: seq<string>)
    requires names != [] && names[0] != ""
    ensures Join(" ", names) != ""
  {
  }

  /**
   * The class attribute is empty exactly when every argument is falsy, and the
   * attribute of a concatenation joins the two attributes with a single space
   * when both are non-empty.
   */
  lemma CnConcat(a: seq<ClassValue>, b: seq<ClassValue>)
    ensures Cn(a) == "" <==> forall k :: 0 <= k < |a| ==> !IsTruthy(a[k])
    ensures Cn(a + b) == if Cn(a) == "" then Cn(b)
                         else if Cn(b) == "" then Cn(a)
                         else Cn(a) + " " + Cn(b)
  {
    ClassNamesConcat(a, b);
    ClassNamesEmpty(a);
    var x, y := ClassNames(a), ClassNames(b);
    if x != [] { JoinNonEmpty(x); }
    if y != [] { JoinNonEmpty(y); }
    if x == [] {
      assert x + y == y;
    } else if y == [] {
      assert x + y == x;
    } else {
      JoinConcat(" ", x, y);
    }
  }

  /** A falsy argument anywhere leaves the attribute unchanged. */
  lemma CnIgnoresFalsy(a: seq<ClassValue>, v: ClassValue, b: seq<ClassValue>)
    requires !IsTruthy(v)
    ensures Cn(a + [v] + b) == Cn(a + b)
  {
    ClassNamesConcat(a + [v], b);
    ClassNamesConcat(a, [v]);
    ClassNamesConcat(a, b);
    assert [v][1..] == [];
    assert ClassNames([v]) == [];
    assert ClassNames(a + [v]) == ClassNames(a);
  }

  /**
   * When no argument renders with a space and some argument is truthy,
   * splitting the attribute at its spaces gives back the class names of the
   * truthy arguments, one per argument, in order.
   */
  lemma CnWords(classes: seq<ClassValue>)
    requires forall k :: 0 <= k < |classes| ==> ' ' !in Render(classes[k])
    requires exists k :: 0 <= k < |classes| && IsTruthy(classes[k])
    ensures Split(Cn(classes), ' ') == ClassNames(classes)
  {
    ClassNamesEmpty(classes);
    ClassNamesAvoid(classes, ' ');
    SplitJoin(ClassNames(classes), ' ');
  }

  /** `true` renders as the class `true`, a number in decimal. */
  lemma CnRendersTrueAndNumbers()
    ensures Cn([Bool(true)]) == "true"
    ensures Cn([Num(-3)]) == "-3"
  {
    assert NatToString(3) == "3";
  }
}

=== FILE: validation.dfy ===
/**
 * The three input schemas. A schema run yields the list of issues it found:
 * the checks of each field in declaration order, field after field, then the
 * cross-field refinements in the order they are chained (the refinements also
 * run when a field check already failed, since every field is a string).
 * Input is accepted exactly when the list is empty; callers only ever show the
 * first issue.
 */
module Validation {
  import opened Text

  datatype Issue = Issue(path: string, message: string)

  const HcsPrefix: string := "HCS-U7|"
  const MinPasswordLength: nat := 8
  const MinHcsCodeLength: nat := 50

  const PasswordTooShort: string := "Password must be at least 8 characters"
  const PasswordTooWeak: string :=
    "Password must contain at least one uppercase letter, one lowercase letter, one number, and one special character"
  const PasswordsDiffer: string := "Passwords don't match"
  const HcsCodeTooShort: string := "HCS-U7 code is too short"
  const HcsCodeBadFormat: string := "Invalid HCS-U7 code format"
  const LoginHcsCodeBadFormat: string := "Invalid HCS-U7 code format. Must start with 'HCS-U7|'"
  const HcsCodesDiffer: string := "HCS codes don't match"
  const HcsCodeReused: string := "New HCS code must be different from current code"

  /** One check on one field: an issue when `ok` fails. */
  function Check(ok: bool, path: string, message: string): (issues: seq<Issue>)
    ensures issues == [] <==> ok
    ensures forall k :: 0 <= k < |issues| ==> issues[k] == Issue(path, message)
  {
    if ok then [] else [Issue(path, message)]
  }

  // ---------------------------------------------------------------------------
  // HCS-U7 codes
  // ---------------------------------------------------------------------------

  /** A code at least 50 characters long that starts with `HCS-U7|`. */
  predicate IsHcsCode(s: string) {
    |s| >= MinHcsCodeLength && StartsWith(s, HcsPrefix)
  }

  /** `z.string().min(50, …).regex(/^HCS-U7\|/, formatMessage)` */
  function HcsCodeIssues(path: string, s: string, formatMessage: string): (issues: seq<Issue>)
    ensures issues == [] <==> IsHcsCode(s)
  {
    Check(|s| >= MinHcsCodeLength, path, HcsCodeTooShort) + Check(StartsWith(s, HcsPrefix), path, formatMessage)
  }

  // ---------------------------------------------------------------------------
  // loginSchema
  // ---------------------------------------------------------------------------

  /** `loginSchema`; `isEmail` stands for zod's e-mail pattern. */
  function LoginIssues(isEmail: string -> bool, email: string, password: string, hcsCode: string): seq<Issue> {
    Check(isEmail(email), "email", "Invalid email address")
    + Check(|password| >= MinPasswordLength, "password", PasswordTooShort)
    + HcsCodeIssues("hcsCode", hcsCode, LoginHcsCodeBadFormat)
  }

  /** Login input is accepted exactly when the e-mail is well formed, the password
      has at least 8 characters and the code is an HCS-U7 code. */
  lemma LoginAcceptedIff(isEmail: string -> bool, email: string, password: string, hcsCode: string)
    ensures LoginIssues(isEmail, email, password, hcsCode) == [] <==>
              isEmail(email) && |password| >= 8 && |hcsCode| >= 50 && StartsWith(hcsCode, "HCS-U7|")
  {
    var a := Check(isEmail(email), "email", "Invalid email address");
    var b := Check(|password| >= MinPasswordLength, "password", PasswordTooShort);
    var c := HcsCodeIssues("hcsCode", hcsCode, LoginHcsCodeBadFormat);
    assert |a + b + c| == |a| + |b| + |c|;
  }

  // ---------------------------------------------------------------------------
  // The strong-password pattern /^(?=.*[a-z])(?=.*[A-Z])(?=.*\d)(?=.*[@$!%*?&])[A-Za-z\d@$!%*?&]/
  // ---------------------------------------------------------------------------

  /** The characters a regular expression's `.` does not match. */
  predicate IsLineTerminator(c: char) {
    c == '\n' || c == '\r' || c as int == 0x2028 || c as int == 0x2029
  }

  datatype CharClass = Lower | Upper | Digit | Special

  predicate InClass(c: char, cls: CharClass) {
    match cls
    case Lower => 'a' <= c <= 'z'
    case Upper => 'A' <= c <= 'Z'
    case Digit => '0' <= c <= '9'
    case Special => c in "@$!%*?&"
  }

  /** `[A-Za-z\d@$!%*?&]` */
  predicate IsPasswordChar(c: char) {
    InClass(c, Lower) || InClass(c, Upper) || InClass(c, Digit) || InClass(c, Special)
  }

  /** The length of the first line of `s`. */
  function LineEnd(s: string): (n: nat)
    ensures n <= |s|
    ensures forall k :: 0 <= k < n ==> !IsLineTerminator(s[k])
    ensures n < |s| ==> IsLineTerminator(s[n])
  {
    if |s| == 0 || IsLineTerminator(s[0]) then 0 else 1 + LineEnd(s[1..])
  }

  /** How `(?=.*X)` anchored at the start runs: `.*` scans forward, but not
      past a line terminator, looking for a character of class X. */
  function LookaheadFinds(s: string, cls: CharClass): bool {
    if |s| == 0 || IsLineTerminator(s[0]) then false
    else InClass(s[0], cls) || LookaheadFinds(s[1..], cls)
  }

  /** The lookahead succeeds exactly when the first line holds a character of the class. */
  lemma {:induction false} LookaheadFindsIff(s: string, cls: CharClass)
    ensures LookaheadFinds(s, cls) <==> exists k :: 0 <= k < LineEnd(s) && InClass(s[k], cls)
  {
    if |s| > 0 && !IsLineTerminator(s[0]) {
      LookaheadFindsIff(s[1..], cls);
      assert LineEnd(s) == 1 + LineEnd(s[1..]);
      if LookaheadFinds(s[1..], cls) {
        var k :| 0 <= k < LineEnd(s[1..]) && InClass(s[1..][k], cls);
        assert InClass(s[k + 1], cls);
      }
      if exists k :: 0 <= k < LineEnd(s) && InClass(s[k], cls) {
        var k :| 0 <= k < LineEnd(s) && InClass(s[k], cls);
        if k > 0 {
          assert s[1..][k - 1] == s[k];
        }
      }
    }
  }

  /** Some character before the first line terminator belongs to `cls`. */
  predicate FirstLineHas(s: string, cls: CharClass) {
    exists k :: 0 <= k < LineEnd(s) && InClass(s[k], cls)
  }

  /** The whole pattern: four lookaheads, then one allowed first character. No
      end anchor, so what follows the first character is unconstrained. */
  predicate MatchesStrongPassword(s: string) {
    LookaheadFinds(s, Lower) && LookaheadFinds(s, Upper) && LookaheadFinds(s, Digit)
    && LookaheadFinds(s, Special) && |s| >= 1 && IsPasswordChar(s[0])
  }

  /** Appending anything to a matching password keeps it matching. */
  lemma {:induction false} StrongPasswordSuffixUnrestricted(p: string, t: string)
    requires MatchesStrongPassword(p)
    ensures MatchesStrongPassword(p + t)
  {
    forall cls: CharClass | LookaheadFinds(p, cls) ensures LookaheadFinds(p + t, cls) {
      LookaheadFindsExtends(p, t, cls);
    }
  }

  lemma {:induction false} LookaheadFindsExtends(p: string, t: string, cls: CharClass)
    requires LookaheadFinds(p, cls)
    ensures LookaheadFinds(p + t, cls)
  {
    assert (p + t)[0] == p[0];
    if !InClass(p[0], cls) {
      LookaheadFindsExtends(p[1..], t, cls);
      assert (p + t)[1..] == p[1..] + t;
    }
  }

  /** Only the first line counts: upper case, digit and special character after
      a newline do not satisfy the pattern. */
  lemma ClassesAfterLineBreakIgnored(s: string)
    requires s == "abcdefgh\nA1!"
    ensures !MatchesStrongPassword(s)
  {
    assert IsLineTerminator(s[8]);
    assert LineEnd(s) <= 8;
    assert forall k :: 0 <= k < 8 ==> 'a' <= s[k] <= 'z';
    LookaheadFindsIff(s, Upper);
  }

  // ---------------------------------------------------------------------------
  // changePasswordSchema
  // ---------------------------------------------------------------------------

  /** `changePasswordSchema` */
  function ChangePasswordIssues(currentPassword: string, newPassword: string, confirmPassword: string): seq<Issue> {
    Check(|currentPassword| >= MinPasswordLength, "currentPassword", PasswordTooShort)
    + Check(|newPassword| >= MinPasswordLength, "newPassword", PasswordTooShort)
    + Check(MatchesStrongPassword(newPassword), "newPassword", PasswordTooWeak)
    + Check(newPassword == confirmPassword, "confirmPassword", PasswordsDiffer)
  }

  /** A password change is accepted exactly when both passwords have 8 or more
      characters, the new one has a lower-case letter, an upper-case letter, a
      digit and one of `@$!%*?&` on its first line and starts with an allowed
      character, and the confirmation repeats it. */
  lemma ChangePasswordAcceptedIff(currentPassword: string, newPassword: string, confirmPassword: string)
    ensures ChangePasswordIssues(currentPassword, newPassword, confirmPassword) == [] <==>
              |currentPassword| >= 8 && |newPassword| >= 8 && confirmPassword == newPassword
              && |newPassword| >= 1 && IsPasswordChar(newPassword[0])
              && FirstLineHas(newPassword, Lower) && FirstLineHas(newPassword, Upper)
              && FirstLineHas(newPassword, Digit) && FirstLineHas(newPassword, Special)
  {
    forall cls: CharClass ensures LookaheadFinds(newPassword, cls) <==>
      exists k :: 0 <= k < LineEnd(newPassword) && InClass(newPassword[k], cls)
    {
      LookaheadFindsIff(newPassword, cls);
    }
    var a := Check(|currentPassword| >= MinPasswordLength, "currentPassword", PasswordTooShort);
    var b := Check(|newPassword| >= MinPasswordLength, "newPassword", PasswordTooShort);
    var c := Check(MatchesStrongPassword(newPassword), "newPassword", PasswordTooWeak);
    var d := Check(newPassword == confirmPassword, "confirmPassword", PasswordsDiffer);
    assert |a + b + c + d| == |a| + |b| + |c| + |d|;
  }

  /** Nothing stops the new password from repeating the current one. */
  lemma PasswordReuseAccepted(p: string)
    requires p == "Abcdef1!"
    ensures ChangePasswordIssues(p, p, p) == []
  {
    assert InClass(p[1], Lower) && InClass(p[0], Upper) && InClass(p[6], Digit) && InClass(p[7], Special);
    assert LineEnd(p) == 8;
    forall cls: CharClass ensures LookaheadFinds(p, cls) {
      LookaheadFindsIff(p, cls);
    }
  }

  // ---------------------------------------------------------------------------
  // changeHcsCodeSchema
  // ---------------------------------------------------------------------------

  /** `changeHcsCodeSchema` */
  function ChangeHcsCodeIssues(currentHcsCode: string, newHcsCode: string, confirmHcsCode: string): seq<Issue> {
    HcsCodeIssues("currentHcsCode", currentHcsCode, HcsCodeBadFormat)
    + HcsCodeIssues("newHcsCode", newHcsCode, HcsCodeBadFormat)
    + Check(newHcsCode == confirmHcsCode, "confirmHcsCode", HcsCodesDiffer)
    + Check(currentHcsCode != newHcsCode, "newHcsCode", HcsCodeReused)
  }

  /** A code change is accepted exactly when both codes are HCS-U7 codes, the
      confirmation repeats the new code and the new code differs from the current one. */
  lemma ChangeHcsCodeAcceptedIff(currentHcsCode: string, newHcsCode: string, confirmHcsCode: string)
    ensures ChangeHcsCodeIssues(currentHcsCode, newHcsCode, confirmHcsCode) == [] <==>
              |currentHcsCode| >= 50 && StartsWith(currentHcsCode, "HCS-U7|")
              && |newHcsCode| >= 50 && StartsWith(newHcsCode, "HCS-U7|")
              && confirmHcsCode == newHcsCode && newHcsCode != currentHcsCode
  {
    var a := HcsCodeIssues("currentHcsCode", currentHcsCode, HcsCodeBadFormat);
    var b := HcsCodeIssues("newHcsCode", newHcsCode, HcsCodeBadFormat);
    var c := Check(newHcsCode == confirmHcsCode, "confirmHcsCode", HcsCodesDiffer);
    var d := Check(currentHcsCode != newHcsCode, "newHcsCode", HcsCodeReused);
    assert |a + b + c + d| == |a| + |b| + |c| + |d|;
  }

  /** The refinements run even when a field check failed: a too-short new code
      that is also unconfirmed reports both, the length first. */
  lemma HcsRefinementsFollowFieldIssues(currentHcsCode: string, newHcsCode: string, confirmHcsCode: string)
    requires IsHcsCode(currentHcsCode) && StartsWith(newHcsCode, HcsPrefix) && |newHcsCode| < 50
    requires confirmHcsCode != newHcsCode
    ensures ChangeHcsCodeIssues(currentHcsCode, newHcsCode, confirmHcsCode)
            == [Issue("newHcsCode", HcsCodeTooShort), Issue("confirmHcsCode", HcsCodesDiffer)]
  {
    assert currentHcsCode != newHcsCode;
  }
}

=== FILE: wrappers.dfy ===
/** Failure-carrying values shared by every module of the model. */
module Wrappers {

  /** A JavaScript value that may be `null`/`undefined` (None) or present (Some). */
  datatype Option<+T> = None | Some(value: T) {
    function GetOr(default: T): T {
      match this
      case Some(v) => v
      case None => default
    }
  }

  /** The outcome of an operation that may throw: `Err` carries the error's message. */
  datatype Result<+T> = Ok(value: T) | Err(message: string)

  /** JavaScript truthiness of an optional string: present and non-empty. */
  predicate Truthy(s: Option<string>) {
    s.Some? && s.value != ""
  }

  /** `a || b` on an optional string: `a` when it is truthy, `b` otherwise. */
  function OrElse(a: Option<string>, b: string): (r: string)
    ensures Truthy(a) ==> r == a.value
    ensures !Truthy(a) ==> r == b
  {
    if Truthy(a) then a.value else b
  }
}
